=== FILE: README.md ===
# Personal-finance app core, modelled in Dafny

This project models the pure logic of a React Native personal-finance app, in which users log income and expense transactions, set budgets and saving goals, read reports, and let a language model read receipts and chat messages. Everything that talks to the hosted database, the authentication service or the AI endpoints is left outside. Where the code needs such a service, the model takes the service's answer as a parameter.

Modules, one per source component:

- `Common`: `Option` and `Result`. `Text`: the JavaScript string operations the screens use (`includes`, `startsWith`, `toLowerCase`, `trim`, `split`, `join`, `slice`, `substr`).
- `Collections`: order-preserving de-duplication, a descending sort, sums.
- `JsNumber`: a JavaScript number, written as `Finite(real) | PosInf | NegInf | NaN`, with its arithmetic and with `parseFloat` and `Number(string)`.
- `Expression` and `Calculation`: `evaluateExpression` (`financeCalculations.js`). `Expression` covers sanitising, the lexer and the parser of the code the function builds. `Calculation` proves what the function does on calculations of decimal numerals without a leading zero, point or sign, joined by the four operators and grouped by parentheses.
- `Ledger` and `Finance`: the transaction row, filtering and summing, `calculateTotals`, `getWeeklyData` and `formatCurrency`.
- `ReceiptSchema` and `ReceiptScanner`: the zod receipt schema as a checking function that reports issues, and the `scanReceipt` / `validateReceipt` pipeline with its error taxonomy.
- `AmountField`, `AddGoal` and `AddTransaction`: the calculator keypad editors and the form submissions of the goal and transaction screens.
- `Reports`, `AllTransactions` and `Budget`: the report chart, trend and totals; the sorted, searchable transaction list; budget spending and saving.
- `Chat`: the assistant screen's pending-action lifecycle and goal matching.
- `Profile`: the password-change pre-checks, the avatar file extension and the display name.
- `AuthGate`: the root layout's login redirect.

Amounts are exact `real`s. The one exception is `formatCurrency`, which is modelled on whole cents. Dates reach the model already broken into weekday, month and year. A date that does not parse is `None`.

Sums use `Number(t.amount)`, which is `NaN` for a missing amount. The model takes amounts as numbers already; missing amounts are listed under Left out.

## Model

| member | source | states |
|---|---|---|
| Text.Slice | src/screens/AddGoalScreen.js:223-263 | `String.prototype.slice`: an in-range pair of indices gives that substring, and a range that is empty once negative indices count from the end gives the empty string |
| Text.Lower | src/screens/AllTransactionsScreen.js:40-41 | `toLowerCase()` keeps the length and lower-cases each character on its own |
| Text.TrimStart | src/screens/ChatAddScreen.js:30 | leading white space is dropped: what remains is a suffix that does not start with white space, and everything dropped was white space |
| Text.TrimEnd | src/screens/ChatAddScreen.js:30 | trailing white space is dropped: what remains is a prefix that does not end with white space |
| Text.Split | src/screens/ProfileScreen.js:86 | `split(sep)` gives at least one piece, and no piece holds the separator |
| Text.SplitFirst | src/screens/ProfileScreen.js:215 | the first piece of `split(sep)` is a prefix of the string that ends at its first separator, and is the whole string when there is none |
| Text.JoinSplit | src/screens/ProfileScreen.js:86 | joining the pieces of `split(sep)` on `sep` gives the string back |
| Text.NatToString | src/screens/ReportsScreen.js:196 | `String(n)` for a whole number: at least one digit, no leading zero, and one digit exactly below 10 |
| Text.Utf16Length | src/screens/ProfileScreen.js:129 | `s.length`: between one and two units per character, and one per character exactly when no character is above U+FFFF |
| Text.Utf16LengthAppend | src/screens/ProfileScreen.js:129 | the length of two strings joined is the sum of their lengths |
| Text.DigitsValueNatToString | src/screens/ReportsScreen.js:196 | reading the decimal digits of `String(n)` gives n back |
| Text.LowerIdempotent | src/screens/AllTransactionsScreen.js:40-41 | lower-casing twice is lower-casing once |
| Text.TrimEmptyIffBlank | src/screens/ChatAddScreen.js:30 | `trim()` is empty exactly when every character is JavaScript white space |
| Collections.Distinct | src/screens/AllTransactionsScreen.js:47-50 | `Array.from(new Set(xs))`: every element is kept, nothing is added, and nothing is repeated |
| Collections.DistinctFirstOccurrenceOrder | src/screens/AllTransactionsScreen.js:47-50 | distinct elements come in the order of their first occurrence |
| Collections.SortDesc | src/screens/ReportsScreen.js:185 | `sort((a, b) => b.y - a.y)`: the result is in descending order and is a permutation of the input |
| Collections.SumBySort | src/screens/ReportsScreen.js:185 | sorting does not change the sum of the keys |
| JsNumber.Add | src/utils/financeCalculations.js:51 | IEEE addition on exact values: `NaN` in, or opposite infinities, give `NaN`; finite plus finite is the exact sum |
| JsNumber.Mul | src/utils/financeCalculations.js:51 | finite times finite is the exact product; an infinity times zero is `NaN` |
| JsNumber.Div | src/__tests__/financeCalculations.spec.ts:41-43 | a finite value over zero is `Infinity`, `-Infinity` or `NaN` by the sign of the dividend; finite over an infinity is 0 |
| JsNumber.ParseFloat | src/screens/AddGoalScreen.js:44-47 | `parseFloat` is `NaN` exactly when no decimal literal starts the text once leading white space is skipped |
| JsNumber.StringToNumber | src/utils/financeCalculations.js:39 | `Number(s)`: blank text is 0; otherwise the whole trimmed text must be one decimal literal |
| JsNumber.DigitStringValue | src/__tests__/financeCalculations.spec.ts:55-57 | a string of digits reads as its decimal value under both `parseFloat` and `Number` |
| Expression.Sanitize | src/utils/financeCalculations.js:48 | only the characters `0-9 + - * / . ( )` survive, and none is added |
| Expression.SanitizeMembers | src/utils/financeCalculations.js:48 | a character is in the sanitised text exactly when it is in the input and allowed |
| Expression.SanitizeAppend | src/utils/financeCalculations.js:48 | sanitising distributes over concatenation, so the kept characters keep their order |
| Expression.SanitizeIdempotent | src/utils/financeCalculations.js:48 | sanitising twice is sanitising once |
| Expression.EvaluateExpression | src/utils/financeCalculations.js:45-55 | empty result exactly when nothing survives sanitising; the original input comes back exactly when the sanitised code does not evaluate |
| Expression.EvaluateSanitized | src/utils/financeCalculations.js:48-54 | evaluating a text is evaluating its sanitised form, except that a failure hands back the unsanitised text |
| Calculation.EvaluatesCalculation | src/utils/financeCalculations.js:45-55 | every calculation of decimal numerals without a leading zero, point or sign evaluates to its value, with `*` and `/` binding tighter than `+` and `-`, left to right, and groups first |
| Calculation.CalcAgrees | src/utils/financeCalculations.js:51 | the left-to-right value of a calculation equals its value with products taken first |
| Calculation.TrailingOperatorPassesThrough | src/utils/financeCalculations.js:50-54 | a calculation that ends in an operator does not evaluate, and the text comes back unchanged |
| Calculation.AdditionExample | src/__tests__/financeCalculations.spec.ts:7-9 | "10+5" evaluates to 15 |
| Calculation.SubtractionExample | src/__tests__/financeCalculations.spec.ts:11-13 | "10-5" evaluates to 5 |
| Calculation.MultiplicationExample | src/__tests__/financeCalculations.spec.ts:15-17 | "10*5" evaluates to 50 |
| Calculation.DivisionExample | src/__tests__/financeCalculations.spec.ts:19-21 | "10/2" evaluates to 5 |
| Calculation.PrecedenceExample | src/__tests__/financeCalculations.spec.ts:23-24 | "10+5*2" evaluates to 20 |
| Calculation.ParenthesesExample | src/__tests__/financeCalculations.spec.ts:25 | "(10+5)*2" evaluates to 30 |
| Calculation.DecimalExample | src/__tests__/financeCalculations.spec.ts:28-30 | "10.5+0.5" evaluates to 11 |
| Calculation.SanitizeExample | src/__tests__/financeCalculations.spec.ts:32-34 | "10+abc5" evaluates to 15 because the letters are dropped first |
| Calculation.IncompleteExample | src/__tests__/financeCalculations.spec.ts:36-39 | "10+" comes back as "10+" |
| Calculation.DivisionByZeroExample | src/__tests__/financeCalculations.spec.ts:41-43 | "10/0" evaluates to `Infinity` |
| Ledger.Where | src/utils/financeCalculations.js:5-11 | `filter`: every kept row passes and comes from the input, and every passing row is kept |
| Ledger.TotalPartition | src/utils/financeCalculations.js:5-11 | a test and its negation split the rows, so their two totals add up to the total of all rows |
| Ledger.WhereWhere | src/screens/ReportsScreen.js:173-197 | filtering twice keeps the rows that pass both tests |
| Ledger.WhereAppend | src/utils/financeCalculations.js:5-11 | filtering distributes over concatenation |
| Finance.CalculateTotals | src/utils/financeCalculations.js:4-18 | income plus expense is the total of all amounts; the net balance is income minus expense; no rows gives three zeros |
| Finance.TotalsOfOneMore | src/utils/financeCalculations.js:4-17 | one more row adds its amount to income when its category is an income category, and to expense otherwise |
| Finance.GroupedDay | src/utils/financeCalculations.js:22-30 | each weekday's bucket is the total of the expense rows dated on that weekday |
| Finance.WeeklyData | src/utils/financeCalculations.js:20-36 | seven days, Sunday first, labelled Di to Sh, each valued at that day's expense total |
| Finance.WeekIsExpenseTotal | src/utils/financeCalculations.js:20-30 | for dated rows, the seven buckets add up to the expense total of `calculateTotals` |
| Finance.WeekIsExpenses | src/utils/financeCalculations.js:22-30 | for dated rows, the seven buckets add up to the total of the expense rows |
| Finance.IncomeRowIgnored | src/__tests__/financeCalculations.spec.ts:102 | an income row changes no bucket |
| Finance.FormatCents | src/utils/financeCalculations.js:38-43 | `toLocaleString('en-US')` with two decimals: thousands grouped by commas, then a point and exactly two digits; the whole part starts with 0 only when it is exactly "0", below one unit |
| Finance.FormatCentsReadsBack | src/utils/financeCalculations.js:38-43 | reading the digits of the formatted amount gives back the number of cents, so no digit is lost or added |
| Finance.GroupingReadsBack | src/utils/financeCalculations.js:39 | reading back the comma-grouped integer part gives the integer |
| Finance.ThousandExample | src/__tests__/financeCalculations.spec.ts:47-49 | 1000 formats as "1,000.00" |
| Finance.TenAndAHalfExample | src/__tests__/financeCalculations.spec.ts:51-53 | 10.5 formats as "10.50" |
| Finance.StringAmountCoerced | src/__tests__/financeCalculations.spec.ts:55-57 | `Number("1000")` is 1000, so the string input formats like the number |
| ReceiptSchema.Get | src/types/receiptScanner.ts:11-25 | reading an object key: absent exactly when no entry has that key, and otherwise the value of an entry with that key |
| ReceiptSchema.Under | src/services/receiptScannerLogic.ts:97 | an issue found inside a field gets that field's name prefixed to its path, and nothing else changes |
| ReceiptSchema.ItemDescription | src/types/receiptScanner.ts:5 | an item description passes exactly when it is a string of at least one character |
| ReceiptSchema.ItemQuantity | src/types/receiptScanner.ts:6 | a missing quantity becomes 1; a present one passes exactly when it is a number of at least 0 |
| ReceiptSchema.ItemUnitPrice | src/types/receiptScanner.ts:7 | a missing unit price stays missing; a present one passes exactly when it is a number of at least 0 |
| ReceiptSchema.ItemTotal | src/types/receiptScanner.ts:8 | an item total passes exactly when it is a number of at least 0 |
| ReceiptSchema.ParseItem | src/types/receiptScanner.ts:4-9 | a value passes exactly when it is an object with a non-empty description, a total of at least 0, and a quantity and unit price that are absent or at least 0; the item carries the object's values, with an absent quantity read as 1 and an absent unit price left absent; a failure reports at least one issue |
| ReceiptSchema.MerchantName | src/types/receiptScanner.ts:12 | the merchant name passes exactly when it is a non-empty string |
| ReceiptSchema.Date | src/types/receiptScanner.ts:13 | the date passes exactly when it is a string that zod's `datetime()` accepts |
| ReceiptSchema.TotalAmount | src/types/receiptScanner.ts:14 | the total passes exactly when it is a number greater than 0 |
| ReceiptSchema.ParseCurrency | src/types/receiptScanner.ts:15 | a missing currency becomes EUR; a present one passes exactly when it is "EUR", "USD" or "ALL" |
| ReceiptSchema.ParseCategory | src/types/receiptScanner.ts:16-22 | the category passes exactly when it is one of the five category names |
| ReceiptSchema.ParseItems | src/types/receiptScanner.ts:23 | missing items stay missing; a present value passes exactly when it is an array whose every element passes the item schema, and then the list has one item per element, each the element's parse |
| ReceiptSchema.Confidence | src/types/receiptScanner.ts:24 | the confidence passes exactly when it is a number from 0 to 1 |
| ReceiptSchema.ParseReceipt | src/types/receiptScanner.ts:11-25 | a receipt that passes satisfies every field constraint and carries the object's values: an absent currency is EUR, absent items stay absent, and present items are read element by element; an object passes exactly when every field check passes, and otherwise fails with the issues of all the field checks in schema order |
| ReceiptSchema.ParseReceiptIssues | src/services/receiptScannerLogic.ts:93-96 | the issues `safeParse` reports for an object are the issues of its field checks, in schema order, and none when all pass |
| ReceiptSchema.EveryFieldReported | src/services/receiptScannerLogic.ts:93-97 | every issue of every failing field appears among the receipt's issues, not only the first field's, and no other issue appears |
| ReceiptSchema.ReceiptRoundTrip | src/types/receiptScanner.ts:11-25 | every valid receipt, written as JSON, is read back unchanged |
| ReceiptSchema.ItemRoundTrip | src/types/receiptScanner.ts:4-9 | every valid line item, written as JSON, is read back unchanged |
| ReceiptSchema.ItemsRoundTrip | src/types/receiptScanner.ts:23 | a list of valid line items, written as JSON, is read back unchanged |
| ReceiptSchema.NonPositiveTotalRefused | src/__tests__/receiptScanner.spec.ts:98-122 | a total of 0 or less makes the receipt fail with the "Total amount must be positive" issue at path `totalAmount` |
| ReceiptSchema.CurrencyDefaultsToEuro | src/types/receiptScanner.ts:15 | a passing receipt without a currency has currency EUR |
| ReceiptSchema.UnknownKeyIgnored | src/types/receiptScanner.ts:11-25 | a key outside the schema does not change the outcome, since unknown keys are stripped |
| ReceiptScanner.Classify | src/services/receiptScannerLogic.ts:83-89 | a message with one of the four known prefixes is passed on unchanged; any other gets the "Processing Error: " prefix |
| ReceiptScanner.ApiError | src/services/receiptScannerLogic.ts:55-59 | an unsuccessful response is reported as an "API Error" |
| ReceiptScanner.ValidateReceipt | src/services/receiptScannerLogic.ts:92-101 | succeeds exactly when the schema passes, with the schema's receipt; otherwise fails with "Validation Error: " and the issue list |
| ReceiptScanner.IssueList | src/services/receiptScannerLogic.ts:97 | the issue list is empty exactly when there are no issues |
| ReceiptScanner.IssueListAppend | src/services/receiptScannerLogic.ts:97 | the text of two runs of issues is the two texts joined with ", ", so with `OneIssueText` every issue is written in order |
| ReceiptScanner.OneIssueText | src/services/receiptScannerLogic.ts:97 | an issue is written as its dot-joined path, a colon and its message |
| ReceiptScanner.BraceSpanIsLeftmostLongest | src/services/receiptScannerLogic.ts:73 | `/\{[\s\S]*\}/` matches from the first `{` to the last `}` after it, and matches nothing when there is no such pair |
| ReceiptScanner.ScanReceipt | src/services/receiptScannerLogic.ts:7-90 | a missing key fails with the configuration error; a success is a valid receipt; every failure message has a known prefix |
| ReceiptScanner.ScanUsesDecodedAnswer | src/services/receiptScannerLogic.ts:61-81 | with a good response, the scan succeeds exactly when the schema accepts the decoded answer, and returns that receipt |
| ReceiptScanner.UnsuccessfulResponseReported | src/services/receiptScannerLogic.ts:55-59 | a failed response is reported as "API Error: status statusText - body", unchanged by the handler |
| ReceiptScanner.EmptyAnswerReported | src/services/receiptScannerLogic.ts:64-66 | an empty answer ends up as "Processing Error: AI Error: Received empty response from Groq." |
| ReceiptScanner.DirectAnswerUsed | src/services/receiptScannerLogic.ts:69-70 | an answer that parses as JSON is used as it is |
| ReceiptScanner.UnbracedAnswerRefused | src/services/receiptScannerLogic.ts:72-78 | an answer that does not parse and has no `{…}` span fails with the parsing error |
| ReceiptScanner.BadSpanIsProcessingError | src/services/receiptScannerLogic.ts:68-87 | when the answer and its `{…}` span both fail `JSON.parse`, the second parse error escapes the fallback and is reported as "Processing Error: " and its message |
| ReceiptScanner.WrappedAnswerFound | src/services/receiptScannerLogic.ts:72-75 | when the whole answer does not parse, a `{…}` object set in text without braces of its own is cut out and parsed |
| AmountField.KeypadAlphabet | src/components/CalculatorKeypad.js:8-13 | the keypad types digits, the four operators and the point, all of which survive sanitising |
| AmountField.Done | src/screens/AddTransactionScreen.js:495-506 | the field is cleared exactly when `parseFloat` of the result is negative; otherwise it changes only to a different evaluated text |
| AmountField.DoneLeavesResult | src/screens/AddTransactionScreen.js:499-504 | after Done the field holds the empty text, the evaluated text, or its unchanged text |
| AmountField.NothingToEvaluate | src/utils/financeCalculations.js:49 | a field with nothing to evaluate stays as it is when empty, and is emptied otherwise |
| AmountField.IncompleteExpressionKept | src/screens/AddTransactionScreen.js:498-504 | an expression that does not evaluate is kept unless its leading number is negative |
| AmountField.ValueClearsIffNegative | src/screens/AddGoalScreen.js:274-281 | when the number reads back faithfully, the field is cleared exactly when the value is negative |
| AddGoal.Press | src/screens/AddGoalScreen.js:211-247 | an operator at the start changes nothing, and every key press keeps the selection inside the text |
| AddGoal.OperatorReplacesOperator | src/screens/AddGoalScreen.js:222-231 | an operator after an operator replaces it, and the cursor stays where it was |
| AddGoal.KeyReplacesSelection | src/screens/AddGoalScreen.js:234-246 | any other key replaces the selection and moves the cursor one past its start |
| AddGoal.Delete | src/screens/AddGoalScreen.js:248-269 | delete keeps the selection valid; at the start of the text it changes nothing |
| AddGoal.DeleteSelection | src/screens/AddGoalScreen.js:257-260 | with a selection, delete removes it and leaves the cursor at its start |
| AddGoal.Backspace | src/screens/AddGoalScreen.js:261-265 | with a cursor, delete removes the character before it |
| AddGoal.DeleteUndoesPress | src/screens/AddGoalScreen.js:211-269 | pressing a key that is inserted and then deleting gives the field back |
| AddGoal.PressOn | src/screens/AddGoalScreen.js:212 | a key press edits the active field only |
| AddGoal.DoneOn | src/screens/AddGoalScreen.js:270-283 | Done rewrites the active field only |
| AddGoal.Submit | src/screens/AddGoalScreen.js:42-59 | refused exactly when the target is `NaN` or negative; otherwise the goal carries both amounts, the icon and the default colour |
| AddGoal.CurrentAmountUnchecked | src/screens/AddGoalScreen.js:45-51 | a current amount that is `NaN` is saved as `NaN` |
| AddTransaction.Press | src/screens/AddTransactionScreen.js:478-490 | the key is appended, and an operator after an operator replaces it |
| AddTransaction.PressKeepsOperatorsApart | src/screens/AddTransactionScreen.js:484-489 | pressing keys never puts two operators side by side |
| AddTransaction.Delete | src/screens/AddTransactionScreen.js:491-494 | delete drops the last character, and an empty field stays empty |
| AddTransaction.DeleteUndoesPress | src/screens/AddTransactionScreen.js:478-494 | a key that was appended is removed again by delete |
| AddTransaction.ActiveCategories | src/screens/AddTransactionScreen.js:78-82 | the defaults for the type come first, followed by exactly the custom names of that type in their order |
| AddTransaction.CustomNames | src/screens/AddTransactionScreen.js:80 | the custom names are exactly those of the given type |
| AddTransaction.CustomNamesAppend | src/screens/AddTransactionScreen.js:80 | `filter` then `map` keep the order: the names of a joined list are the names of each part, in turn |
| AddTransaction.CustomNamesOne | src/screens/AddTransactionScreen.js:80 | one category contributes its name exactly when it has the type |
| AddTransaction.InitialKind | src/screens/AddTransactionScreen.js:58-62 | an edited row opens as income exactly when its category is a default income category or its type is income |
| AddTransaction.StoredCategory | src/screens/AddTransactionScreen.js:157 | the category is stored as chosen, except that "Ushqim" on an income row becomes "Income" |
| AddTransaction.Description | src/screens/AddTransactionScreen.js:158 | empty notes become "Pa përshkrim", and other notes are kept |
| AddTransaction.FindGoal | src/screens/AddTransactionScreen.js:171 | `find`: the first goal with that id, and none exactly when no goal has it |
| AddTransaction.GoalUpdate | src/screens/AddTransactionScreen.js:170-206 | a goal is updated exactly when one is selected and found and the row is new or its amount changed; a new row adds its amount, an edit adds the change |
| AddTransaction.Save | src/screens/AddTransactionScreen.js:132-160 | given the amount read from the field: no category, a `NaN` amount and a negative amount are refused in that order; otherwise the record and the goal update are written |
| AddTransaction.Submit | src/screens/AddTransactionScreen.js:131-160 | no category, a `NaN` amount and a negative amount are refused in that order; otherwise the record holds the amount, type, stored category, description and date |
| AddTransaction.UnchangedAmountKeepsGoal | src/screens/AddTransactionScreen.js:187-192 | an edit that keeps the amount leaves the goal alone |
| AddTransaction.NewRowFundsGoal | src/screens/AddTransactionScreen.js:200-205 | a new row raises the selected goal's current amount by its amount |
| Reports.Totals | src/screens/ReportsScreen.js:215-223 | expense is the total of rows outside "Income", "Paga" and "Te Ardhura", income the total of the rest, and the net balance their difference |
| Reports.ChartData | src/screens/ReportsScreen.js:172-186 | the slices are in descending order of amount and are a permutation of the per-category slices |
| Reports.ChartSlices | src/screens/ReportsScreen.js:173-184 | every slice names an expense category, holds that category's expense total, and is coloured by the category's first appearance |
| Reports.ChartCoversCategories | src/screens/ReportsScreen.js:173-184 | every expense row's category has a slice |
| Reports.ChartCategoriesDistinct | src/screens/ReportsScreen.js:174-179 | no category has two slices |
| Reports.ChartSumsToExpense | src/screens/ReportsScreen.js:172-217 | the slices add up to the total expense |
| Reports.CategoriesCoverTotal | src/screens/ReportsScreen.js:174-184 | when every expense row's category is among distinct keys, the per-key totals add up to the expense total |
| Reports.MonthsBefore | src/screens/ReportsScreen.js:202-204 | stepping back `i` months lands `i` months earlier in the calendar |
| Reports.Trend | src/screens/ReportsScreen.js:200-212 | six points, oldest first, the last being the current month |
| Reports.TrendMonths | src/screens/ReportsScreen.js:202-205 | the points are consecutive months ending with the current one |
| Reports.TrendPointCounts | src/screens/ReportsScreen.js:189-209 | with four-digit years, each point is the total of the expense rows dated in its month |
| Reports.MonthKeyInjective | src/screens/ReportsScreen.js:196 | with four-digit years, two months share a key exactly when they are the same month of years with the same last two digits |
| Reports.CenturiesShareKey | src/screens/ReportsScreen.js:196 | October 1925 and October 2025 share the key "10/25" |
| AllTransactions.Loaded | src/screens/AllTransactionsScreen.js:24 | the list is a permutation of the loaded rows, newest first |
| AllTransactions.Filtered | src/screens/AllTransactionsScreen.js:38-45 | the shown rows keep their order, and are exactly the rows that match the search and the chosen category |
| AllTransactions.WhereIsSubsequence | src/screens/AllTransactionsScreen.js:38-45 | filtering keeps a subsequence of the list, so the shown rows stay newest first |
| AllTransactions.UntitledRowHidden | src/screens/AllTransactionsScreen.js:40-41 | a row with neither a description nor a category never matches a search |
| AllTransactions.EmptySearchKeepsTitled | src/screens/AllTransactionsScreen.js:40-42 | with no search and no chip, every row with a description or a category is shown |
| AllTransactions.SearchIgnoresCase | src/screens/AllTransactionsScreen.js:40-41 | searching for the lower-cased query finds the same rows |
| AllTransactions.UniqueCategoriesListed | src/screens/AllTransactionsScreen.js:47-50 | the category chips list every category once, in order of first appearance |
| AllTransactions.GiftsDisagree | src/screens/AllTransactionsScreen.js:53 | a "Dhurata" row is shown as income here but counted as an expense by the reports |
| AllTransactions.ReportIncomeShownAsIncome | src/screens/AllTransactionsScreen.js:53 | every row the reports count as income is shown as income |
| Budget.SpentOfOneMore | src/screens/BudgetScreen.js:44-54 | one more row raises the spent amount by its amount exactly when it is an expense of that category in that month |
| Budget.IncomeNotSpent | src/screens/BudgetScreen.js:51 | rows not typed as expenses never count as spent |
| Budget.Percent | src/screens/BudgetScreen.js:134 | the bar is at most 100 and is spent/limit·100 below that; for a positive limit it is full exactly when the limit is reached, and for a negative limit exactly when the spent amount is at or below it |
| Budget.FullBar | src/screens/BudgetScreen.js:134-135 | an over-budget bar is full; spending exactly the limit fills the bar without being over |
| Budget.Save | src/screens/BudgetScreen.js:56-77 | missing fields are refused first, and only they give that refusal; an edit changes only the limit; a new budget for a category that already has one is refused; otherwise the budget is created with the category and the `parseFloat` of the limit |
| Budget.Apply | src/screens/BudgetScreen.js:63-76 | a new budget is appended; a limit update changes only the limit of the budget with that id |
| Budget.SaveKeepsOnePerCategory | src/screens/BudgetScreen.js:66-71 | whatever is saved, no two budgets share a category |
| Budget.DuplicateRefused | src/screens/BudgetScreen.js:67-70 | a new budget is refused as a duplicate exactly when its category already has one |
| Chat.Send | src/screens/ChatAddScreen.js:29-70 | blank input changes nothing; otherwise the message is shown, the box emptied, and the reply becomes the pending action or clears it |
| Chat.BeginSend | src/screens/ChatAddScreen.js:32-38 | before the assistant answers, the pending action is already cleared |
| Chat.BlankIgnored | src/screens/ChatAddScreen.js:30 | white-space input is ignored whatever the assistant would have said |
| Chat.UnreadableDropsPending | src/screens/ChatAddScreen.js:38-66 | an unreadable or failed reply leaves no action pending, even one that was pending before |
| Chat.FindGoal | src/screens/ChatAddScreen.js:90 | the first goal with the same title up to case wins; only without one, the first goal whose lower-cased title occurs in the lower-cased goal title; none exactly when no title occurs |
| Chat.Requests | src/screens/ChatAddScreen.js:75-123 | a new goal is one goal write with the intent's title and target, current amount or 0, icon or the target icon, and the fixed colour; a payment into a matched goal is the goal update and an expense named after it, and with no match nothing; an entry is one transaction with its amount, category, type and notes; each with its message |
| Chat.Confirm | src/screens/ChatAddScreen.js:72-131 | no pending action or no user does nothing; a confirm that does not fail makes every requested write, shows that request's message and clears the action; a failed one keeps the chat as it was; only requested writes happen |
| Chat.EntryWrites | src/screens/ChatAddScreen.js:113-124 | an ordinary entry is saved as one transaction with its amount, category, type and notes, and the saved message is shown |
| Chat.CreateGoalWrites | src/screens/ChatAddScreen.js:75-86 | a new goal with a current amount and icon is created with them, and the created message is shown |
| Chat.AddToGoalWrites | src/screens/ChatAddScreen.js:88-111 | a matched goal gets current plus amount and one expense named after it; no match writes nothing |
| Chat.CreateGoalDefaults | src/screens/ChatAddScreen.js:75-83 | a new goal without a current amount or icon gets 0 and the target icon |
| Chat.ConfirmOnce | src/screens/ChatAddScreen.js:127-135 | after a completed confirm or a cancel, confirming again writes nothing |
| Chat.FailureKeepsPending | src/screens/ChatAddScreen.js:127-130 | a confirm that throws keeps the action pending, with the writes before the failure done |
| Chat.Cancel | src/screens/ChatAddScreen.js:133-136 | cancelling clears the pending action and adds the cancel message |
| Profile.LoadForm | src/screens/ProfileScreen.js:47-52 | a missing column shows as an empty field, and a filled one as itself |
| Profile.PasswordProblem | src/screens/ProfileScreen.js:120-132 | an empty field is reported first, then a mismatch, then a `.length` under 6 counted in UTF-16 code units; the change goes ahead exactly when none applies |
| Profile.SixIsEnough | src/screens/ProfileScreen.js:129-132 | six UTF-16 code units pass and five do not |
| Profile.SixCharactersWithoutPairs | src/screens/ProfileScreen.js:129-132 | without characters above U+FFFF, a password passes exactly when it has at least six characters |
| Profile.ThreeEmojiAccepted | src/screens/ProfileScreen.js:129-132 | three emoji are six code units, so they pass although they are three characters |
| Profile.MissingFieldFirst | src/screens/ProfileScreen.js:121-124 | an empty current password is reported whatever the other fields hold |
| Profile.FileExtension | src/screens/ProfileScreen.js:86 | the extension holds no '.' and ends the URI |
| Profile.ExtensionAfterLastDot | src/screens/ProfileScreen.js:86 | the extension is the whole URI when it has no '.', and what follows its last '.' otherwise |
| Profile.DisplayName | src/screens/ProfileScreen.js:215 | "first last" when a first name is set; otherwise "Përdorues" when there is no address or its local part is empty, and the address up to its first '@' when the local part is not empty |
| Profile.NameFromEmail | src/screens/ProfileScreen.js:215 | the name is the address's local part: the whole address without '@', and what precedes the first '@' otherwise |
| AuthGate.Redirects | app/_layout.tsx:19-42 | no redirect while loading; signed out off the login route goes to /login; signed in on it goes to /(tabs); otherwise nothing, and never two redirects |
| AuthGate.OnLoginRouteIff | app/_layout.tsx:29 | on the login route exactly when some segment is "login" |
| AuthGate.Segments | app/_layout.tsx:34-40 | the segments of a redirect target are on the login route exactly when the target is /login |
| AuthGate.NoRedirectLoop | app/_layout.tsx:32-41 | following a redirect never triggers another |

## Left out

- Network, database and storage calls are not modelled: `fetch`, Supabase reads and writes, the avatar upload, and the password sign-in and update. An action that needs them yields the request it would make, or takes the answer as a parameter.
- The assistant's intent parser (`parseUserIntent`) is not part of this model. Its answer is the `Reply` parameter of `Chat.Send`. `groq.js` and `gemini.js` are left out, and so is the refresh of goals after a confirm, which is an unawaited fetch.
- Floating point: amounts and numbers are exact reals. There is no rounding, no signed zero and no `toFixed` (`financeCalculations.js:34`). `String(number)` is the `show` parameter of the keypad models.
- Finance.FormatCents: models `formatCurrency` for whole, non-negative cents only. Negative and fractional-cent amounts are not modelled.
- `JSON.parse` and `String(value)` are the receipt scanner's `Engine` parameter. zod's `datetime()` grammar is the `isDateTime` predicate.
- Inside evaluated code the following are not modelled beyond treating them as failures (passthrough): `**`, regular-expression literals, and number forms other than decimal.
- `Number()` of hexadecimal text is not modelled.
- Case folding covers ASCII and Latin-1 letters only.
- Dates: `Date` parsing, time zones and `setMonth` overflow are not modelled. Rows carry weekday, month and year as integers, and the current month is a parameter.
- AllTransactions.Loaded: requires every row to have a valid date, because sorting with a `NaN` comparison is implementation-defined.
- Calculation.EvaluatesCalculation: covers calculations whose numerals have no leading zero, no leading point and no leading sign. The keypads can also type "010+5" (a legacy octal literal, 13), ".5+1" and, on the transaction screen, "-5+3"; `Expression.EvaluateExpression` models these, but the theorem does not cover them.
- Collections.SortDesc: stability is not stated, since `Array.prototype.sort` promises it only as of ES2019.
- Missing amounts (`Number(undefined)` is `NaN`) are not modelled; amounts are numbers already.
- `Object.keys` ordering of integer-like category names is not modelled: categories are listed in insertion order. A missing category is keyed "null", as in JavaScript.
- Reports.ChartSlices: category names that are `Object.prototype` members (`constructor`, `toString`, `valueOf`, `__proto__` and the like) are not modelled. Their `byCat[...] || 0` reads an inherited value or does not create an own key, so such a category may get a string instead of a sum, or no slice. The model gives every category its real sum and a slice, so `ChartSlices`, `ChartCoversCategories` and `ChartSumsToExpense` hold only for other names.
- `dailyAverage` (`ReportsScreen.js:225-236`) is not modelled.
- Rendering, chart geometry, theming, navigation wiring and alerts are not modelled; an alert appears as the error text of a `Failure`.
- Budget.Percent: requires a non-zero limit, since a zero limit divides by zero (`Infinity` or `NaN` in JavaScript). Negative limits are modelled.
- The two-digit year of the trend key is modelled as written. `Reports.CenturiesShareKey` shows that months a century apart share a key.

=== FILE: add_goal.dfy ===
/** The goal form: the cursor-aware keypad editor of its two amount fields
    and the check made on saving. */
module AddGoal {
  import opened Common
  import opened Text
  import opened JsNumber
  import opened AmountField

  /** The text input's selection: the cursor when `start == end`. */
  datatype Selection = Selection(start: nat, end: nat)

  /** An amount field's text and the selection the keypad edits it at. */
  datatype Field = Field(text: string, sel: Selection) {
    /** The selection lies inside the text, start first. */
    predicate Valid() {
      sel.start <= sel.end <= |text|
    }
  }

  /** A cursor (empty selection) at `k`. */
  function Cursor(k: nat): Selection {
    Selection(k, k)
  }

  /** `onKeyPress(key)` */
  function Press(f: Field, key: char): (r: Field)
    ensures IsOperator(key) && f.sel.start == 0 ==> r == f
    ensures f.Valid() ==> r.Valid()
  {
    var s := f.text;
    var start := f.sel.start;
    var end := f.sel.end;
    if IsOperator(key) && start == 0 then f
    else if IsOperator(key) && IsOperatorText(Slice(s, start - 1, start)) then
      Field(Slice(s, 0, start - 1) + [key] + Slice(s, end, |s|), Cursor(start))
    else if start != end then
      Field(Slice(s, 0, start) + [key] + Slice(s, end, |s|), Cursor(start + 1))
    else
      Field(Slice(s, 0, start) + [key] + Slice(s, start, |s|), Cursor(start + 1))
  }

  /** An operator typed right after an operator takes its place (and the
      place of any selection after it); the cursor stays where it was. */
  lemma OperatorReplacesOperator(f: Field, key: char)
    requires f.Valid() && IsOperator(key) && f.sel.start > 0
    requires IsOperator(f.text[f.sel.start - 1])
    ensures Press(f, key)
      == Field(f.text[..f.sel.start - 1] + [key] + f.text[f.sel.end..], Cursor(f.sel.start))
  {
    assert Slice(f.text, f.sel.start - 1, f.sel.start) == [f.text[f.sel.start - 1]];
  }

  /** Any other key replaces the selection, or is inserted at the cursor;
      the cursor ends up just after it. */
  lemma KeyReplacesSelection(f: Field, key: char)
    requires f.Valid()
    requires !IsOperator(key) || (f.sel.start > 0 && !IsOperator(f.text[f.sel.start - 1]))
    ensures Press(f, key) == Field(f.text[..f.sel.start] + [key] + f.text[f.sel.end..], Cursor(f.sel.start + 1))
    ensures |Press(f, key).text| == |f.text| - (f.sel.end - f.sel.start) + 1
  {
    if f.sel.start > 0 {
      assert Slice(f.text, f.sel.start - 1, f.sel.start) == [f.text[f.sel.start - 1]];
    }
  }

  /** `onDelete()` */
  function Delete(f: Field): (r: Field)
    ensures f.Valid() ==> r.Valid()
    ensures f.sel.start == f.sel.end == 0 ==> r == Field(f.text, Cursor(0))
  {
    var s := f.text;
    var start := f.sel.start;
    var end := f.sel.end;
    if start != end then Field(Slice(s, 0, start) + Slice(s, end, |s|), Cursor(start))
    else if start > 0 then Field(Slice(s, 0, start - 1) + Slice(s, start, |s|), Cursor(start - 1))
    else Field(s, Cursor(start))
  }

  /** Deleting a selection removes it and leaves the cursor at its start. */
  lemma DeleteSelection(f: Field)
    requires f.Valid() && f.sel.start < f.sel.end
    ensures Delete(f) == Field(f.text[..f.sel.start] + f.text[f.sel.end..], Cursor(f.sel.start))
  {
  }

  /** Backspace at a cursor removes the character before it and moves it
      back by one. */
  lemma Backspace(f: Field)
    requires f.Valid() && f.sel.start == f.sel.end > 0
    ensures Delete(f) == Field(f.text[..f.sel.start - 1] + f.text[f.sel.start..], Cursor(f.sel.start - 1))
  {
  }

  /** Backspace undoes a key typed at the cursor, whenever the key was
      inserted (not swallowed at the start, not swapped for an operator). */
  lemma {:induction false} DeleteUndoesPress(f: Field, key: char)
    requires f.Valid() && f.sel.start == f.sel.end
    requires !IsOperator(key) || (f.sel.start > 0 && !IsOperator(f.text[f.sel.start - 1]))
    ensures Delete(Press(f, key)) == f
  {
    var s := f.text;
    var k := f.sel.start;
    KeyReplacesSelection(f, key);
    var t := s[..k] + [key] + s[k..];
    assert t[..k] == s[..k];
    assert t[k + 1..] == s[k..];
    assert s[..k] + s[k..] == s;
  }

  // ---------------------------------------------------------------------------
  // The form
  // ---------------------------------------------------------------------------

  /** Which amount field the keypad is attached to. */
  datatype Which = Target | Current

  /** The two amount fields and the one selection the screen keeps for
      whichever of them is active. */
  datatype Amounts = Amounts(target: string, current: string, sel: Selection) {
    function Text(w: Which): string {
      match w
      case Target => target
      case Current => current
    }
  }

  /** The active field's text and the shared selection. */
  function Active(a: Amounts, w: Which): Field {
    Field(a.Text(w), a.sel)
  }

  /** Store an edited field back into the form. */
  function Store(a: Amounts, w: Which, f: Field): (r: Amounts)
    ensures r.Text(w) == f.text && r.sel == f.sel
    ensures forall v: Which :: v != w ==> r.Text(v) == a.Text(v)
  {
    match w
    case Target => a.(target := f.text, sel := f.sel)
    case Current => a.(current := f.text, sel := f.sel)
  }

  /** A key typed on the keypad edits only the active field. */
  function PressOn(a: Amounts, w: Which, key: char): (r: Amounts)
    ensures Active(r, w) == Press(Active(a, w), key)
    ensures forall v: Which :: v != w ==> r.Text(v) == a.Text(v)
  {
    Store(a, w, Press(Active(a, w), key))
  }

  /** `DEL` on the keypad edits only the active field. */
  function DeleteOn(a: Amounts, w: Which): (r: Amounts)
    ensures Active(r, w) == Delete(Active(a, w))
    ensures forall v: Which :: v != w ==> r.Text(v) == a.Text(v)
  {
    Store(a, w, Delete(Active(a, w)))
  }

  /** `Done` on the keypad evaluates only the active field. */
  function DoneOn(a: Amounts, w: Which, show: Number -> string): (r: Amounts)
    ensures r.Text(w) == Apply(a.Text(w), Done(a.Text(w), show))
    ensures r.sel == a.sel
    ensures forall v: Which :: v != w ==> r.Text(v) == a.Text(v)
  {
    Store(a, w, Field(Apply(a.Text(w), Done(a.Text(w), show)), a.sel))
  }

  // ---------------------------------------------------------------------------
  // Saving
  // ---------------------------------------------------------------------------

  /** The colour every goal is saved with. */
  const DefaultColor := "#3B82F6"

  /** The alert shown for an unusable target. */
  const InvalidTarget := "Shuma e synuar nuk \U{00EB}sht\U{00EB} valide!"

  /** The record `createGoal` / `updateGoal` receives. */
  datatype Goal = Goal(title: string, targetAmount: Number, currentAmount: Number, icon: string, color: string)

  /** `values.current_amount || '0'` */
  function CurrentOrZero(current: string): string {
    if current == [] then "0" else current
  }

  /** `onSubmit(values)`: the target must read as a number that is not
      negative; the current amount is taken as it reads. */
  function Submit(title: string, target: string, current: string, icon: string, show: Number -> string): (r: Result<Goal, string>)
    ensures r.Failure? <==> Amount(target, show).NaN? || Amount(target, show).IsNegative()
    ensures r.Failure? ==> r.error == InvalidTarget
    ensures r.Success? ==> r.value.targetAmount == Amount(target, show)
    ensures r.Success? ==> r.value.currentAmount == Amount(CurrentOrZero(current), show)
    ensures r.Success? ==> r.value == Goal(title, r.value.targetAmount, r.value.currentAmount, icon, DefaultColor)
  {
    var targetAmount := Amount(target, show);
    var currentAmount := Amount(CurrentOrZero(current), show);
    if targetAmount.IsNaN() || targetAmount.IsNegative() then Failure(InvalidTarget)
    else Success(Goal(title, targetAmount, currentAmount, icon, DefaultColor))
  }

  /** The current amount is never checked: with a usable target the goal is
      saved even when the current amount is not a number. */
  lemma CurrentAmountUnchecked(title: string, target: string, current: string, icon: string, show: Number -> string)
    requires !Amount(target, show).NaN? && !Amount(target, show).IsNegative()
    requires Amount(CurrentOrZero(current), show).NaN?
    ensures Submit(title, target, current, icon, show).Success?
    ensures Submit(title, target, current, icon, show).value.currentAmount == NaN
  {
  }
}

=== FILE: add_transaction.dfy ===
/** The transaction form: its append-only keypad editor, the category list
    it offers, the starting type when editing, and what saving writes. */
module AddTransaction {
  import opened Common
  import opened Text
  import opened JsNumber
  import opened AmountField

  // ---------------------------------------------------------------------------
  // The keypad
  // ---------------------------------------------------------------------------

  /** `onKeyPress(key)`: append the key, except that an operator typed after
      a trailing operator takes its place. */
  function Press(v: string, key: char): (r: string)
    ensures |r| >= 1 && r[|r| - 1] == key
    ensures r[..|r| - 1] == if IsOperator(key) && v != [] && IsOperator(v[|v| - 1]) then v[..|v| - 1] else v
  {
    var lastChar := Slice(v, -1, |v|);
    if IsOperator(key) && IsOperatorText(lastChar) then Slice(v, 0, -1) + [key]
    else v + [key]
  }

  /** No operator directly follows another. */
  predicate NoAdjacentOperators(s: string) {
    forall i :: 0 < i < |s| ==> !(IsOperator(s[i - 1]) && IsOperator(s[i]))
  }

  /** Typing on the keypad never creates two operators in a row. */
  lemma PressKeepsOperatorsApart(v: string, key: char)
    requires NoAdjacentOperators(v)
    ensures NoAdjacentOperators(Press(v, key))
  {
    var r := Press(v, key);
    var p := r[..|r| - 1];
    assert p == v || p == v[..|v| - 1];
    forall i | 0 < i < |r|
      ensures !(IsOperator(r[i - 1]) && IsOperator(r[i]))
    {
      if i < |r| - 1 {
        assert r[i - 1] == p[i - 1] && r[i] == p[i];
      }
    }
  }

  /** `onDelete()`: `slice(0, -1)` drops the last character; an empty value
      stays empty. */
  function Delete(v: string): (r: string)
    ensures v == [] ==> r == []
    ensures v != [] ==> r + [v[|v| - 1]] == v
  {
    Slice(v, 0, -1)
  }

  /** Delete undoes a key that was appended rather than swapped in. */
  lemma DeleteUndoesPress(v: string, key: char)
    requires !(IsOperator(key) && v != [] && IsOperator(v[|v| - 1]))
    ensures Delete(Press(v, key)) == v
  {
  }

  // ---------------------------------------------------------------------------
  // Categories and type
  // ---------------------------------------------------------------------------

  const DefaultExpenseCategories: seq<string> :=
    ["Ushqim", "Transport", "Qira", "Arg\U{00EB}tim", "Fatura", "Shopping", "Edukim", "Telefon", "Rroba",
     "Teknologji", "Cash", "Tjet\U{00EB}r"]

  const DefaultIncomeCategories: seq<string> := ["Paga", "Te Ardhura", "Bonus", "Part-time", "Dhurata", "Tjet\U{00EB}r"]

  /** A category the user added, with the type it belongs to. */
  datatype CustomCategory = CustomCategory(name: string, kind: string)

  /** The names of the custom categories of one type, in order. */
  function CustomNames(customs: seq<CustomCategory>, kind: string): (r: seq<string>)
    ensures |r| <= |customs|
    ensures forall x :: x in r <==> exists c :: c in customs && c.kind == kind && c.name == x
    decreases |customs|
  {
    if customs == [] then []
    else
      var rest := CustomNames(customs[1..], kind);
      assert forall c :: c in customs[1..] ==> c in customs;
      assert forall c :: c in customs ==> c == customs[0] || c in customs[1..];
      if customs[0].kind == kind then [customs[0].name] + rest else rest
  }

  /** The names of a list joined to another are the names of the first,
      then those of the second: `filter` and `map` keep the order. */
  lemma {:induction false} CustomNamesAppend(a: seq<CustomCategory>, b: seq<CustomCategory>, kind: string)
    ensures CustomNames(a + b, kind) == CustomNames(a, kind) + CustomNames(b, kind)
    decreases |a|
  {
    if a == [] {
      assert a + b == b;
    } else {
      assert (a + b)[0] == a[0];
      assert (a + b)[1..] == a[1..] + b;
      CustomNamesAppend(a[1..], b, kind);
    }
  }

  /** One category contributes its name exactly when it has the type. */
  lemma CustomNamesOne(c: CustomCategory, kind: string)
    ensures CustomNames([c], kind) == (if c.kind == kind then [c.name] else [])
  {
    assert [c][1..] == [];
  }

  /** `activeCats`: the default categories of the current type, then the
      user's own categories of that type. */
  function ActiveCategories(kind: string, customs: seq<CustomCategory>): (r: seq<string>)
    ensures kind == "expense" ==> DefaultExpenseCategories <= r
    ensures kind != "expense" ==> DefaultIncomeCategories <= r
    ensures forall x :: x in r <==>
      (x in (if kind == "expense" then DefaultExpenseCategories else DefaultIncomeCategories))
      || exists c :: c in customs && c.kind == kind && c.name == x
    ensures var defaults := if kind == "expense" then DefaultExpenseCategories else DefaultIncomeCategories;
      |r| == |defaults| + |CustomNames(customs, kind)| && r[|defaults|..] == CustomNames(customs, kind)
  {
    var defaults := if kind == "expense" then DefaultExpenseCategories else DefaultIncomeCategories;
    defaults + CustomNames(customs, kind)
  }

  /** The type the form starts with when editing: income when the category
      is a default income category or the row says so. */
  function InitialKind(category: Option<string>, kind: Option<string>): (r: string)
    ensures r == "income" || r == "expense"
    ensures r == "income" <==> (category.Some? && category.value in DefaultIncomeCategories) || kind == Some("income")
  {
    if (category.Some? && category.value in DefaultIncomeCategories) || kind == Some("income") then "income"
    else "expense"
  }

  // ---------------------------------------------------------------------------
  // Saving
  // ---------------------------------------------------------------------------

  const NoCategory := "Ju lutem zgjidhni nj\U{00EB} kategori!"
  const NotANumber := "Shuma nuk \U{00EB}sht\U{00EB} valide!"
  const Negative := "Shuma nuk mund t\U{00EB} jet\U{00EB} negative!"
  const NoDescription := "Pa p\U{00EB}rshkrim"

  /** The form's three text fields. */
  datatype Values = Values(amount: string, category: string, notes: string)

  /** The row written to `transactions`. */
  datatype Record = Record(amount: Number, kind: string, category: string, description: string, date: string)

  /** A savings goal as the form loaded it. */
  datatype Goal = Goal(id: string, currentAmount: Number)

  /** What a successful save writes: the row, and the goal's new
      `current_amount` when one is updated. */
  datatype Saved = Saved(record: Record, goalUpdate: Option<(string, Number)>)

  /** The stored category: an income filed under 'Ushqim' (the first
      default category, preselected by the expense list) becomes 'Income'. */
  function StoredCategory(kind: string, category: string): (r: string)
    ensures r != category ==> kind == "income" && category == "Ushqim" && r == "Income"
  {
    if kind == "income" then (if category == "Ushqim" then "Income" else category) else category
  }

  /** `values.notes || 'Pa përshkrim'` */
  function Description(notes: string): (r: string)
    ensures r != [] && (notes != [] ==> r == notes)
  {
    if notes == [] then NoDescription else notes
  }

  /** `goals.find(g => g.id === id)`: the first goal with the id. */
  function FindGoal(goals: seq<Goal>, id: string): (r: Option<Goal>)
    ensures r.Some? ==> r.value in goals && r.value.id == id
    ensures r.Some? ==> exists i :: 0 <= i < |goals| && goals[i] == r.value && forall j :: 0 <= j < i ==> goals[j].id != id
    ensures r.None? <==> forall i :: 0 <= i < |goals| ==> goals[i].id != id
    decreases |goals|
  {
    if goals == [] then None
    else if goals[0].id == id then Some(goals[0])
    else
      var r := FindGoal(goals[1..], id);
      if r.Some? then
        var i :| 0 <= i < |goals[1..]| && goals[1..][i] == r.value && forall j :: 0 <= j < i ==> goals[1..][j].id != id;
        assert goals[i + 1] == r.value && forall j :: 0 <= j < i + 1 ==> goals[j].id != id;
        r
      else r
  }

  /** The goal update after the row is written. A new row adds its amount to
      the selected goal. An edited row adds the change in amount, and only
      when there is a change (`NaN` counts as one). */
  function GoalUpdate(editedFrom: Option<Number>, amount: Number, selectedGoal: Option<string>, goals: seq<Goal>): (r: Option<(string, Number)>)
    ensures r.Some? ==> selectedGoal.Some? && r.value.0 == selectedGoal.value && FindGoal(goals, r.value.0).Some?
    ensures r.Some? && editedFrom.None? ==> r.value.1 == Add(FindGoal(goals, r.value.0).value.currentAmount, amount)
    ensures r.Some? && editedFrom.Some? ==> r.value.1 == Add(FindGoal(goals, r.value.0).value.currentAmount, Sub(amount, editedFrom.value))
    ensures r.Some? <==> (selectedGoal.Some? && selectedGoal.value != [] && FindGoal(goals, selectedGoal.value).Some?
                          && (editedFrom.None? || Sub(amount, editedFrom.value) != Finite(0.0)))
  {
    if selectedGoal.None? || selectedGoal.value == [] then None
    else match FindGoal(goals, selectedGoal.value)
      case None => None
      case Some(goal) =>
        match editedFrom
        case None => Some((goal.id, Add(goal.currentAmount, amount)))
        case Some(previous) =>
          var difference := Sub(amount, previous);
          if difference != Finite(0.0) then Some((goal.id, Add(goal.currentAmount, difference))) else None
  }

  /** The checks and writes of `onSubmit` once the amount field has been
      read as `finalAmount`. */
  function Save(values: Values, kind: string, editedFrom: Option<Number>, selectedGoal: Option<string>,
                goals: seq<Goal>, date: string, finalAmount: Number): (r: Result<Saved, string>)
    ensures values.category == [] ==> r == Failure(NoCategory)
    ensures values.category != [] && finalAmount.NaN? ==> r == Failure(NotANumber)
    ensures values.category != [] && finalAmount.IsNegative() ==> r == Failure(Negative)
    ensures r.Success? <==> values.category != [] && !finalAmount.NaN? && !finalAmount.IsNegative()
    ensures r.Success? ==>
      r.value.record == Record(finalAmount, kind, StoredCategory(kind, values.category), Description(values.notes), date)
    ensures r.Success? ==> r.value.goalUpdate == GoalUpdate(editedFrom, finalAmount, selectedGoal, goals)
  {
    if values.category == [] then Failure(NoCategory)
    else if finalAmount.IsNaN() then Failure(NotANumber)
    else if finalAmount.IsNegative() then Failure(Negative)
    else
      var record := Record(finalAmount, kind, StoredCategory(kind, values.category), Description(values.notes), date);
      Success(Saved(record, GoalUpdate(editedFrom, finalAmount, selectedGoal, goals)))
  }

  /** `onSubmit(values)`: a category is required, then the amount must read
      as a number that is not negative; only then is anything written. */
  function Submit(values: Values, kind: string, editedFrom: Option<Number>, selectedGoal: Option<string>,
                  goals: seq<Goal>, date: string, show: Number -> string): (r: Result<Saved, string>)
    ensures values.category == [] ==> r == Failure(NoCategory)
    ensures values.category != [] && Amount(values.amount, show).NaN? ==> r == Failure(NotANumber)
    ensures values.category != [] && Amount(values.amount, show).IsNegative() ==> r == Failure(Negative)
    ensures r.Success? <==> values.category != [] && !Amount(values.amount, show).NaN? && !Amount(values.amount, show).IsNegative()
    ensures r.Success? ==>
      r.value.record == Record(Amount(values.amount, show), kind, StoredCategory(kind, values.category), Description(values.notes), date)
    ensures r.Success? ==> r.value.goalUpdate == GoalUpdate(editedFrom, Amount(values.amount, show), selectedGoal, goals)
  {
    Save(values, kind, editedFrom, selectedGoal, goals, date, Amount(values.amount, show))
  }

  /** Saving an edit without changing a finite amount leaves every goal
      alone. */
  lemma UnchangedAmountKeepsGoal(x: real, selectedGoal: Option<string>, goals: seq<Goal>)
    ensures GoalUpdate(Some(Finite(x)), Finite(x), selectedGoal, goals) == None
  {
  }

  /** A new row's amount and the goal it was saved against: the goal grows
      by exactly that amount. */
  lemma NewRowFundsGoal(amount: real, id: string, goals: seq<Goal>, current: real)
    requires id != []
    requires FindGoal(goals, id) == Some(Goal(id, Finite(current)))
    ensures GoalUpdate(None, Finite(amount), Some(id), goals) == Some((id, Finite(current + amount)))
  {
  }
}

=== FILE: all_transactions.dfy ===
/** The full transaction list: newest first, narrowed by a search text and
    a category chip, with the list of categories to choose from. */
module AllTransactions {
  import opened Common
  import opened Text
  import opened Collections
  import opened Ledger
  import Reports

  /** Every row's date parses. */
  predicate AllDated(ts: seq<Transaction>) {
    forall i :: 0 <= i < |ts| ==> ts[i].date.Some?
  }

  /** A row's time value (0 for a date that does not parse; see `Loaded`). */
  function Time(t: Transaction): real {
    if t.date.Some? then t.date.value.time as real else 0.0
  }

  /** `(tx || []).sort((a, b) => new Date(b.date) - new Date(a.date))`. With
      a date that does not parse the comparator yields NaN and the order is
      left to the engine, so the model requires every date to parse. */
  function Loaded(ts: seq<Transaction>): (r: seq<Transaction>)
    requires AllDated(ts)
    ensures multiset(r) == multiset(ts)
    ensures AllDated(r)
    ensures forall i, j :: 0 <= i < j < |r| ==> r[i].date.value.time >= r[j].date.value.time
  {
    var r := SortDesc(ts, Time);
    forall i | 0 <= i < |r|
      ensures r[i].date.Some?
    {
      assert r[i] in multiset(ts);
    }
    r
  }

  // ---------------------------------------------------------------------------
  // Filtering
  // ---------------------------------------------------------------------------

  /** `field?.toLowerCase().includes(query.toLowerCase())`: false when the
      field is absent. */
  predicate FieldMatches(field: Option<string>, query: string) {
    field.Some? && Includes(Lower(field.value), Lower(query))
  }

  /** A category chip is selected (`selectedCategory` is truthy). */
  predicate ChipSelected(selected: Option<string>) {
    selected.Some? && selected.value != []
  }

  /** The filter's test: the search text is in the description or the
      category, and the row has the selected category, if any. */
  predicate Matches(t: Transaction, query: string, selected: Option<string>) {
    && (FieldMatches(t.description, query) || FieldMatches(t.category, query))
    && (ChipSelected(selected) ==> t.category == selected)
  }

  function MatchTest(query: string, selected: Option<string>): Transaction -> bool {
    t => Matches(t, query, selected)
  }

  /** `filteredTransactions` */
  function Filtered(ts: seq<Transaction>, query: string, selected: Option<string>): (r: seq<Transaction>)
    ensures Subsequence(r, ts)
    ensures forall t :: t in r <==> t in ts && Matches(t, query, selected)
  {
    WhereIsSubsequence(ts, MatchTest(query, selected));
    Where(ts, MatchTest(query, selected))
  }

  /** `a` is `b` with some elements left out, the rest in order. */
  predicate Subsequence(a: seq<Transaction>, b: seq<Transaction>)
    decreases |b|
  {
    if a == [] then true
    else if b == [] then false
    else (a[0] == b[0] && Subsequence(a[1..], b[1..])) || Subsequence(a, b[1..])
  }

  lemma {:induction false} WhereIsSubsequence(ts: seq<Transaction>, p: Transaction -> bool)
    ensures Subsequence(Where(ts, p), ts)
    decreases |ts|
  {
    if ts != [] {
      var rest := Where(ts[1..], p);
      WhereIsSubsequence(ts[1..], p);
      if p(ts[0]) {
        var r := Where(ts, p);
        assert r == [ts[0]] + rest;
        assert r[0] == ts[0] && r[1..] == rest;
      } else {
        assert Where(ts, p) == rest;
      }
    }
  }

  /** A row with neither a description nor a category never matches, not
      even the empty search. */
  lemma UntitledRowHidden(t: Transaction, query: string, selected: Option<string>)
    requires t.description.None? && t.category.None?
    ensures !Matches(t, query, selected)
  {
  }

  /** With an empty search and no chip, every row with a description or a
      category is listed. */
  lemma EmptySearchKeepsTitled(t: Transaction)
    requires t.description.Some? || t.category.Some?
    ensures Matches(t, "", None)
  {
    if t.description.Some? {
      IncludesEmpty(Lower(t.description.value));
    } else {
      IncludesEmpty(Lower(t.category.value));
    }
  }

  /** The search ignores letter case. */
  lemma SearchIgnoresCase(t: Transaction, query: string, selected: Option<string>)
    ensures Matches(t, Lower(query), selected) == Matches(t, query, selected)
  {
    LowerIdempotent(query);
  }

  // ---------------------------------------------------------------------------
  // uniqueCategories and the income badge
  // ---------------------------------------------------------------------------

  /** `transactions.map(t => t.category)` */
  function Categories(ts: seq<Transaction>): (r: seq<Option<string>>)
    ensures |r| == |ts|
    ensures forall i :: 0 <= i < |ts| ==> r[i] == ts[i].category
  {
    seq(|ts|, i requires 0 <= i < |ts| => ts[i].category)
  }

  /** `Array.from(new Set(categories))` */
  function UniqueCategories(ts: seq<Transaction>): seq<Option<string>> {
    Distinct(Categories(ts))
  }

  /** Each row's category is listed exactly once, nothing else is, and the
      list follows the order in which the categories first appear. */
  lemma UniqueCategoriesListed(ts: seq<Transaction>, i: nat, j: nat, p: nat, q: nat)
    ensures forall k :: 0 <= k < |ts| ==> ts[k].category in UniqueCategories(ts)
    ensures forall c :: c in UniqueCategories(ts) ==> exists k :: 0 <= k < |ts| && ts[k].category == c
    ensures NoDuplicates(UniqueCategories(ts))
    ensures i < j < |UniqueCategories(ts)|
      && FirstAt(Categories(ts), p, UniqueCategories(ts)[i])
      && FirstAt(Categories(ts), q, UniqueCategories(ts)[j])
      ==> p < q
  {
    var cs := Categories(ts);
    forall c | c in UniqueCategories(ts)
      ensures exists k :: 0 <= k < |ts| && ts[k].category == c
    {
      var k :| 0 <= k < |cs| && cs[k] == c;
      assert ts[k].category == c;
    }
    if i < j < |UniqueCategories(ts)| && FirstAt(cs, p, UniqueCategories(ts)[i]) && FirstAt(cs, q, UniqueCategories(ts)[j]) {
      DistinctFirstOccurrenceOrder(cs, i, j, p, q);
    }
  }

  /** The categories this list marks as income. */
  const IncomeNames: seq<string> := ["Income", "Paga", "Te Ardhura", "Dhurata"]

  /** `isIncome`: an income category, or a row typed as income. */
  predicate IsIncome(t: Transaction) {
    (t.category.Some? && t.category.value in IncomeNames) || t.kind == Some("income")
  }

  /** The list and the reports disagree about gifts: an expense-typed
      'Dhurata' row is shown as income here but counted as an expense in
      the reports. */
  lemma GiftsDisagree(t: Transaction)
    requires t.category == Some("Dhurata")
    ensures IsIncome(t) && Reports.IsExpense(t)
  {
  }

  /** Everything the reports count as income is shown as income here. */
  lemma ReportIncomeShownAsIncome(t: Transaction)
    requires !Reports.IsExpense(t)
    ensures IsIncome(t)
  {
  }
}

=== FILE: amount_field.dfy ===
/** What both calculator keypads share: the keys they offer and the `Done`
    handler that replaces the typed expression by its value. */
module AmountField {
  import opened Text
  import opened JsNumber
  import opened Expression

  /** The keys of the calculator keypad, row by row, without `DEL` (which
      calls the delete handler instead of the key handler). */
  const KeypadKeys: seq<char> := ['1', '2', '3', '+', '4', '5', '6', '-', '7', '8', '9', '*', '.', '0', '/']

  /** `['+', '-', '*', '/'].includes(key)` */
  predicate IsOperator(c: char) {
    c == '+' || c == '-' || c == '*' || c == '/'
  }

  /** `['+', '-', '*', '/'].includes(text)` for a string: only a
      one-character string can be an operator. */
  predicate IsOperatorText(t: string) {
    |t| == 1 && IsOperator(t[0])
  }

  /** The keypad offers exactly the digits, the four operators and the
      decimal point; all of them survive the evaluator's sanitising, and the
      only sanitised characters it cannot type are the parentheses. */
  lemma KeypadAlphabet(c: char)
    ensures c in KeypadKeys <==> IsDigit(c) || IsOperator(c) || c == '.'
    ensures Allowed(c) <==> c in KeypadKeys || c == '(' || c == ')'
  {
  }

  /** The string `evaluateExpression` hands back, given `show` for
      `String(number)`. */
  function Rendered(o: Outcome, show: Number -> string): (r: string)
    ensures o.Passthrough? ==> r == o.original
    ensures o.Blank? ==> r == []
  {
    match o
    case Blank => []
    case Value(n) => show(n)
    case Undefined => "undefined"
    case Passthrough(s) => s
  }

  /** `parseFloat(evaluateExpression(text))`: the amount a form field
      stands for. */
  function Amount(text: string, show: Number -> string): Number {
    ParseFloat(Rendered(EvaluateExpression(text), show))
  }

  /** What the `Done` key does to the field. */
  datatype Update =
    | Cleared     // the alert "Shuma nuk mund të jetë negative" and an empty field
    | Set(text: string)
    | Unchanged

  /** The `Done` handler of both keypads: a result that reads as negative
      clears the field, otherwise the field is overwritten with the result
      when that differs from what is there. */
  function Done(current: string, show: Number -> string): (r: Update)
    ensures r.Cleared? <==> Amount(current, show).IsNegative()
    ensures r.Set? ==> r.text != current && r.text == Rendered(EvaluateExpression(current), show)
  {
    var calculated := Rendered(EvaluateExpression(current), show);
    if ParseFloat(calculated).IsNegative() then Cleared
    else if calculated != current then Set(calculated)
    else Unchanged
  }

  /** The field's text after an update. */
  function Apply(current: string, u: Update): string {
    match u
    case Cleared => []
    case Set(t) => t
    case Unchanged => current
  }

  /** Whichever branch is taken, the field ends up holding the result, or
      nothing when the result reads as negative. */
  lemma DoneLeavesResult(current: string, show: Number -> string)
    ensures Apply(current, Done(current, show))
      == if Amount(current, show).IsNegative() then [] else Rendered(EvaluateExpression(current), show)
  {
  }

  /** `parseFloat('')` is NaN. */
  lemma EmptyIsNaN()
    ensures ParseFloat([]) == NaN
  {
  }

  /** A field with no digit, operator, point or parenthesis is emptied,
      without the negative-amount alert; an empty field stays as it is. */
  lemma NothingToEvaluate(current: string, show: Number -> string)
    requires Sanitize(current) == []
    ensures current == [] ==> Done(current, show) == Unchanged
    ensures current != [] ==> Done(current, show) == Set([])
  {
    EmptyIsNaN();
  }

  /** An expression that does not evaluate (say "10+") is handed back as
      typed, so the field keeps it — unless its leading number is negative,
      in which case `parseFloat` reads that number and the field is cleared. */
  lemma IncompleteExpressionKept(current: string, show: Number -> string)
    requires EvaluateExpression(current).Passthrough?
    ensures Done(current, show) == if ParseFloat(current).IsNegative() then Cleared else Unchanged
  {
  }

  /** With a faithful `show` (one `parseFloat` reads back), a finite value
      clears the field exactly when it is below zero. */
  lemma ValueClearsIffNegative(current: string, show: Number -> string, x: real)
    requires EvaluateExpression(current) == Value(Finite(x))
    requires ParseFloat(show(Finite(x))) == Finite(x)
    ensures Done(current, show).Cleared? <==> x < 0.0
  {
  }
}

=== FILE: auth_gate.dfy ===
/** The root layout's redirect rule: signed-out users are sent to the login
    screen and signed-in users away from it. */
module AuthGate {

  /** The routes the gate can send a user to. */
  datatype Route = Login | Tabs

  /** `segments[0] === 'login' || segments.includes('login')` */
  predicate OnLoginRoute(segments: seq<string>) {
    (|segments| > 0 && segments[0] == "login") || "login" in segments
  }

  /** The `router.replace` calls one run of the gate's effect makes, in
      order. Its two checks are written independently of each other. */
  function Redirects(loading: bool, signedIn: bool, segments: seq<string>): (r: seq<Route>)
    ensures loading ==> r == []
    ensures !loading && !signedIn && !OnLoginRoute(segments) ==> r == [Login]
    ensures !loading && signedIn && OnLoginRoute(segments) ==> r == [Tabs]
    ensures signedIn != OnLoginRoute(segments) ==> r == []
    ensures |r| <= 1
  {
    if loading then []
    else
      var onLogin := OnLoginRoute(segments);
      (if !signedIn && !onLogin then [Login] else [])
      + (if signedIn && onLogin then [Tabs] else [])
  }

  /** The login route is recognised wherever its segment sits. */
  lemma OnLoginRouteIff(segments: seq<string>)
    ensures OnLoginRoute(segments) <==> exists i :: 0 <= i < |segments| && segments[i] == "login"
  {
  }

  /** The route segments of a redirect's target. */
  function Segments(route: Route): (r: seq<string>)
    ensures OnLoginRoute(r) <==> route == Login
  {
    match route
    case Login => ["login"]
    case Tabs => ["(tabs)"]
  }

  /** Where a redirect lands, the gate is content: following it does not
      trigger another. */
  lemma NoRedirectLoop(signedIn: bool, segments: seq<string>)
    ensures forall route :: route in Redirects(false, signedIn, segments) ==>
      Redirects(false, signedIn, Segments(route)) == []
  {
  }
}

=== FILE: budget.dfy ===
/** Monthly budgets: what has been spent against each, how full its bar is,
    and the rules for saving one. */
module Budget {
  import opened Common
  import opened JsNumber
  import opened Ledger

  // ---------------------------------------------------------------------------
  // Spending against a budget
  // ---------------------------------------------------------------------------

  /** A row spent from `category`'s budget in month `m` of year `y`: that
      exact category, typed as an expense, dated in that month. */
  predicate SpentIn(t: Transaction, category: string, m: Month, y: int) {
    && t.category == Some(category)
    && t.date.Some? && t.date.value.month == m && t.date.value.year == y
    && t.kind == Some("expense")
  }

  function SpentTest(category: string, m: Month, y: int): Transaction -> bool {
    t => SpentIn(t, category, m, y)
  }

  /** `getSpentAmount(category)` in month `m` of year `y`. */
  function Spent(ts: seq<Transaction>, category: string, m: Month, y: int): real {
    Total(Where(ts, SpentTest(category, m, y)))
  }

  /** One more row raises the spent amount by its amount when it is spent
      from the budget in that month, and leaves it alone otherwise. */
  lemma SpentOfOneMore(t: Transaction, ts: seq<Transaction>, category: string, m: Month, y: int)
    ensures Spent([t] + ts, category, m, y)
      == (if SpentIn(t, category, m, y) then t.amount else 0.0) + Spent(ts, category, m, y)
  {
    TotalStep([t] + ts, SpentTest(category, m, y));
    assert ([t] + ts)[0] == t && ([t] + ts)[1..] == ts;
  }

  /** Rows typed as income never count, whatever their category. */
  lemma {:induction false} IncomeNotSpent(ts: seq<Transaction>, category: string, m: Month, y: int)
    requires forall i :: 0 <= i < |ts| ==> ts[i].kind != Some("expense")
    ensures Spent(ts, category, m, y) == 0.0
    decreases |ts|
  {
    if ts != [] {
      assert [ts[0]] + ts[1..] == ts;
      SpentOfOneMore(ts[0], ts[1..], category, m, y);
      assert forall i :: 0 <= i < |ts[1..]| ==> ts[1..][i] == ts[i + 1];
      IncomeNotSpent(ts[1..], category, m, y);
    }
  }

  /** `Math.min(100, (spent / limit) * 100)`, for a non-zero limit; a
      negative limit, which `parseFloat` lets through, fills the bar once
      the spent amount is at or below it. */
  function Percent(spent: real, limit: real): (r: real)
    requires limit != 0.0
    ensures r <= 100.0
    ensures r < 100.0 ==> r * limit == spent * 100.0
    ensures limit > 0.0 ==> (r == 100.0 <==> spent >= limit)
    ensures limit < 0.0 ==> (r == 100.0 <==> spent <= limit)
  {
    var p := spent / limit * 100.0;
    if p < 100.0 then p else 100.0
  }

  /** `spent > limit` */
  predicate IsOver(spent: real, limit: real) {
    spent > limit
  }

  /** The bar is full whenever the budget is over, and a budget spent to
      exactly its limit shows a full bar without being over. */
  lemma FullBar(spent: real, limit: real)
    requires limit > 0.0
    ensures IsOver(spent, limit) ==> Percent(spent, limit) == 100.0
    ensures spent == limit ==> Percent(spent, limit) == 100.0 && !IsOver(spent, limit)
    ensures Percent(spent, limit) < 100.0 ==> !IsOver(spent, limit)
  {
  }

  // ---------------------------------------------------------------------------
  // Saving
  // ---------------------------------------------------------------------------

  datatype Budget = Budget(id: string, category: string, limit: Number)

  /** What `handleSave` asks the server to do. */
  datatype Action =
    | Create(category: string, limit: Number)
    | UpdateLimit(id: string, limit: Number)

  const Incomplete := "Plot\U{00EB}soni t\U{00EB} gjitha fushat"
  const Duplicate := "Buxheti p\U{00EB}r k\U{00EB}t\U{00EB} kategori ekziston tashm\U{00EB}."

  /** `budgets.find(b => b.category === category)` found one. */
  predicate HasBudget(budgets: seq<Budget>, category: string) {
    exists i :: 0 <= i < |budgets| && budgets[i].category == category
  }

  /** `handleSave()`: both fields are required; an edit changes only the
      limit; a new budget is refused for a category that already has one.
      The limit is taken with `parseFloat` and never checked. */
  function Save(category: string, limitText: string, editingId: Option<string>, budgets: seq<Budget>): (r: Result<Action, string>)
    ensures category == [] || limitText == [] ==> r == Failure(Incomplete)
    ensures r.Success? && r.value.Create? ==> !HasBudget(budgets, category) && editingId.GetOr([]) == []
    ensures r.Success? ==> r.value.limit == ParseFloat(limitText)
    ensures r.Failure? ==> r.error == Incomplete || (r.error == Duplicate && HasBudget(budgets, category))
    ensures category != [] && limitText != [] && editingId.GetOr([]) != [] ==> r == Success(UpdateLimit(editingId.value, ParseFloat(limitText)))
    ensures category != [] && limitText != [] && editingId.GetOr([]) == [] && !HasBudget(budgets, category) ==>
      r == Success(Create(category, ParseFloat(limitText)))
    ensures r == Failure(Incomplete) <==> category == [] || limitText == []
  {
    if category == [] || limitText == [] then Failure(Incomplete)
    else if editingId.Some? && editingId.value != [] then Success(UpdateLimit(editingId.value, ParseFloat(limitText)))
    else if HasBudget(budgets, category) then Failure(Duplicate)
    else Success(Create(category, ParseFloat(limitText)))
  }

  /** The budget list after the server has done `a`; `newId` is the id the
      server gives a new budget. */
  function Apply(budgets: seq<Budget>, a: Action, newId: string): (r: seq<Budget>)
    ensures a.Create? ==> r == budgets + [Budget(newId, a.category, a.limit)]
    ensures a.UpdateLimit? ==> |r| == |budgets|
    ensures a.UpdateLimit? ==> forall i :: 0 <= i < |r| ==> r[i].id == budgets[i].id && r[i].category == budgets[i].category
    ensures a.UpdateLimit? ==> forall i :: 0 <= i < |r| ==> r[i].limit == (if budgets[i].id == a.id then a.limit else budgets[i].limit)
  {
    match a
    case Create(category, limit) => budgets + [Budget(newId, category, limit)]
    case UpdateLimit(id, limit) =>
      seq(|budgets|, i requires 0 <= i < |budgets| =>
        if budgets[i].id == id then budgets[i].(limit := limit) else budgets[i])
  }

  /** No two budgets share a category. */
  predicate OnePerCategory(budgets: seq<Budget>) {
    forall i, j :: 0 <= i < j < |budgets| ==> budgets[i].category != budgets[j].category
  }

  /** Whatever is saved, there is still at most one budget per category. */
  lemma SaveKeepsOnePerCategory(category: string, limitText: string, editingId: Option<string>, budgets: seq<Budget>, newId: string)
    requires OnePerCategory(budgets)
    requires Save(category, limitText, editingId, budgets).Success?
    ensures OnePerCategory(Apply(budgets, Save(category, limitText, editingId, budgets).value, newId))
  {
    var a := Save(category, limitText, editingId, budgets).value;
    var r := Apply(budgets, a, newId);
    if a.Create? {
      assert forall i :: 0 <= i < |budgets| ==> budgets[i].category != category;
      assert forall i :: 0 <= i < |budgets| ==> r[i] == budgets[i];
    } else {
      assert forall i :: 0 <= i < |r| ==> r[i].category == budgets[i].category;
    }
  }

  /** A refused save changes nothing; a duplicate is refused exactly when a
      new budget's category is taken. */
  lemma DuplicateRefused(category: string, limitText: string, budgets: seq<Budget>)
    requires category != [] && limitText != []
    ensures Save(category, limitText, None, budgets) == Failure(Duplicate) <==> HasBudget(budgets, category)
  {
  }
}

=== FILE: calculation.dfy ===
/** Calculator expressions: what the keypads of the goal and transaction
    forms can build — decimal numerals joined by `+ - * /`, with
    parentheses. The main theorem says that `evaluateExpression` on such a
    text computes the value an ordinary calculator would, given here by an
    independent one-pass evaluator that keeps a pending sum. */
module Calculation {
  import opened Common
  import opened Text
  import opened JsNumber
  import opened Expression

  predicate AllDigits(s: string) {
    forall i :: 0 <= i < |s| ==> IsDigit(s[i])
  }

  predicate AllAllowed(s: string) {
    forall i :: 0 <= i < |s| ==> Allowed(s[i])
  }

  predicate IsOperatorChar(c: char) {
    c == '+' || c == '-' || c == '*' || c == '/'
  }

  /** A decimal numeral `whole[.frac]` whose integer part has no leading
      zero, so it is never a legacy octal literal such as `010`, which
      JavaScript would read in base 8. */
  datatype Numeral = Numeral(whole: string, frac: Option<string>) {
    predicate Valid() {
      whole != [] && AllDigits(whole) && (|whole| == 1 || whole[0] != '0') && (frac.Some? ==> AllDigits(frac.value))
    }

    function Text(): string {
      whole + (if frac.Some? then ['.'] + frac.value else [])
    }
  }

  type DecimalNumeral = n: Numeral | n.Valid() witness Numeral("0", None)

  /** The value a decimal numeral denotes. */
  function NumeralValue(n: DecimalNumeral): real {
    if n.frac.Some? then MantissaValue(n.whole, n.frac.value) else DigitsValue(n.whole) as real
  }

  /** An operand is a numeral or a parenthesised calculation. */
  datatype Operand = Literal(n: DecimalNumeral) | Group(c: Chain)

  /** A first operand followed by operator/operand steps. */
  datatype Chain = Chain(first: Operand, rest: Steps)

  datatype Steps = End | Then(op: Op, operand: Operand, next: Steps)

  function OpChar(op: Op): char {
    match op
    case AddOp => '+'
    case SubOp => '-'
    case MulOp => '*'
    case DivOp => '/'
  }

  predicate IsMultiplicative(op: Op) {
    op == MulOp || op == DivOp
  }

  // ---------------------------------------------------------------------
  // Rendering as text and as tokens
  // ---------------------------------------------------------------------

  function OperandText(o: Operand): (r: string)
    ensures r != [] && (IsDigit(r[0]) || r[0] == '(')
    ensures AllAllowed(r)
    decreases o
  {
    match o
    case Literal(n) => n.Text()
    case Group(c) => ['('] + ChainText(c) + [')']
  }

  /** The text of a calculation, as typed. */
  function ChainText(c: Chain): (r: string)
    ensures r != [] && (IsDigit(r[0]) || r[0] == '(')
    ensures AllAllowed(r)
    decreases c
  {
    OperandText(c.first) + StepsText(c.rest)
  }

  function StepsText(s: Steps): (r: string)
    ensures r == [] || IsOperatorChar(r[0])
    ensures AllAllowed(r)
    decreases s
  {
    match s
    case End => []
    case Then(op, o, n) => [OpChar(op)] + OperandText(o) + StepsText(n)
  }

  function OpToken(op: Op): Token {
    match op
    case AddOp => Plus
    case SubOp => Minus
    case MulOp => Star
    case DivOp => Slash
  }

  function OperandTokens(o: Operand): seq<Token>
    decreases o
  {
    match o
    case Literal(n) => [Num(NumeralValue(n))]
    case Group(c) => [LParen] + ChainTokens(c) + [RParen]
  }

  function ChainTokens(c: Chain): seq<Token>
    decreases c
  {
    OperandTokens(c.first) + StepsTokens(c.rest)
  }

  function StepsTokens(s: Steps): seq<Token>
    decreases s
  {
    match s
    case End => []
    case Then(op, o, n) => [OpToken(op)] + OperandTokens(o) + StepsTokens(n)
  }

  // ---------------------------------------------------------------------
  // The reference evaluator
  // ---------------------------------------------------------------------

  function OperandValue(o: Operand): Number
    decreases o
  {
    match o
    case Literal(n) => Finite(NumeralValue(n))
    case Group(c) => ChainValue(c)
  }

  /** The value of a calculation, operators of the same precedence taken
      left to right, `*` and `/` before `+` and `-`. */
  function ChainValue(c: Chain): Number
    decreases c
  {
    Calc(None, OperandValue(c.first), c.rest)
  }

  /** Adds the finished term to the pending sum, if there is one. */
  function Close(pending: Option<(Number, Op)>, term: Number): Number {
    match pending
    case None => term
    case Some((sum, op)) => Apply(op, sum, term)
  }

  /** One left-to-right pass: `term` is the product being built, `pending`
      the sum before it and the operator joining them. A `*` or `/` step
      grows the term; a `+` or `-` step closes it into the sum. */
  function Calc(pending: Option<(Number, Op)>, term: Number, rest: Steps): Number
    decreases rest
  {
    match rest
    case End => Close(pending, term)
    case Then(op, o, n) =>
      if IsMultiplicative(op) then Calc(pending, Apply(op, term, OperandValue(o)), n)
      else Calc(Some((Close(pending, term), op)), OperandValue(o), n)
  }

  // ---------------------------------------------------------------------
  // The shape the recursive-descent parser builds
  // ---------------------------------------------------------------------

  function OperandSize(o: Operand): nat
    decreases o
  {
    match o
    case Literal(_) => 1
    case Group(c) => 1 + ChainSize(c)
  }

  function ChainSize(c: Chain): nat
    decreases c
  {
    1 + OperandSize(c.first) + StepsSize(c.rest)
  }

  function StepsSize(s: Steps): nat
    decreases s
  {
    match s
    case End => 0
    case Then(_, o, n) => 1 + OperandSize(o) + StepsSize(n)
  }

  function Count(s: Steps): nat {
    match s
    case End => 0
    case Then(_, _, n) => 1 + Count(n)
  }

  /** The leading `*` and `/` steps. */
  function MulRun(s: Steps): Steps {
    match s
    case Then(op, o, n) => if IsMultiplicative(op) then Then(op, o, MulRun(n)) else End
    case End => End
  }

  /** What follows the leading `*` and `/` steps. */
  function AfterMul(s: Steps): (r: Steps)
    ensures Count(r) <= Count(s)
    ensures StepsSize(r) <= StepsSize(s)
    ensures r.End? || !IsMultiplicative(r.op)
  {
    match s
    case Then(op, _, n) => if IsMultiplicative(op) then AfterMul(n) else s
    case End => End
  }

  /** Applies the leading `*` and `/` steps to `acc`, left to right. */
  function MulFold(acc: Number, s: Steps): Number
    decreases s
  {
    match s
    case Then(op, o, n) => if IsMultiplicative(op) then MulFold(Apply(op, acc, OperandValue(o)), n) else acc
    case End => acc
  }

  /** Applies `+`/`-` steps, each to the product that follows it. */
  function SumFold(acc: Number, s: Steps): Number
    decreases Count(s)
  {
    match s
    case Then(op, o, n) => SumFold(Apply(op, acc, MulFold(OperandValue(o), n)), AfterMul(n))
    case End => acc
  }

  /** The one-pass evaluator agrees with the nested folds the parser's
      grammar describes. */
  lemma {:induction false} CalcAgrees(pending: Option<(Number, Op)>, term: Number, s: Steps)
    ensures Calc(pending, term, s) == SumFold(Close(pending, MulFold(term, s)), AfterMul(s))
    decreases s
  {
    match s
    case End =>
    case Then(op, o, n) =>
      if IsMultiplicative(op) {
        CalcAgrees(pending, Apply(op, term, OperandValue(o)), n);
      } else {
        CalcAgrees(Some((Close(pending, term), op)), OperandValue(o), n);
      }
  }

  function Append(a: Steps, b: Steps): Steps {
    match a
    case End => b
    case Then(op, o, n) => Then(op, o, Append(n, b))
  }

  lemma {:induction false} StepsTokensAppend(a: Steps, b: Steps)
    ensures StepsTokens(Append(a, b)) == StepsTokens(a) + StepsTokens(b)
  {
    match a
    case End =>
    case Then(op, o, n) =>
      StepsTokensAppend(n, b);
  }

  lemma {:induction false} MulRunSplit(s: Steps)
    ensures Append(MulRun(s), AfterMul(s)) == s
  {
    match s
    case End =>
    case Then(op, o, n) =>
      MulRunSplit(n);
  }

  // ---------------------------------------------------------------------
  // Positions in a sequence
  // ---------------------------------------------------------------------

  /** Prepends tokens to a lexing outcome. */
  function Prepend(ts: seq<Token>, o: Option<seq<Token>>): Option<seq<Token>> {
    match o
    case None => None
    case Some(us) => Some(ts + us)
  }

  lemma PrependPrepend(a: seq<Token>, b: seq<Token>, o: Option<seq<Token>>)
    ensures Prepend(a, Prepend(b, o)) == Prepend(a + b, o)
  {
    if o.Some? {
      assert a + (b + o.value) == (a + b) + o.value;
    }
  }

  /** `piece` occurs in `s` at position `i`. */
  predicate At<T(==)>(s: seq<T>, i: nat, piece: seq<T>) {
    i + |piece| <= |s| && Matches(s, i, piece, 0)
  }

  /** The elements of `piece` from index `k` on are those of `s` from
      position `i + k` on. */
  predicate Matches<T(==)>(s: seq<T>, i: nat, piece: seq<T>, k: nat)
    decreases |piece| - k
  {
    k >= |piece| || (i + k < |s| && s[i + k] == piece[k] && Matches(s, i, piece, k + 1))
  }

  /** A match from index `k` is one from every later index. */
  lemma {:induction false} MatchesLater<T>(s: seq<T>, i: nat, piece: seq<T>, k: nat, m: nat)
    requires Matches(s, i, piece, k) && k <= m
    ensures Matches(s, i, piece, m)
    decreases m - k
  {
    if k < m {
      MatchesLater(s, i, piece, k + 1, m);
    }
  }

  /** A match gives every element from index `k` on. */
  lemma {:induction false} MatchesIndex<T>(s: seq<T>, i: nat, piece: seq<T>, k: nat, m: nat)
    requires Matches(s, i, piece, k) && k <= m < |piece|
    ensures i + m < |s| && s[i + m] == piece[m]
    decreases m - k
  {
    if k < m {
      MatchesIndex(s, i, piece, k + 1, m);
    }
  }

  /** A match of `a + b` up to the end of `a` is a match of `a`. */
  lemma {:induction false} MatchesPrefix<T>(s: seq<T>, i: nat, a: seq<T>, b: seq<T>, k: nat)
    requires k <= |a| && Matches(s, i, a + b, k)
    ensures Matches(s, i, a, k)
    decreases |a| - k
  {
    if k < |a| {
      assert (a + b)[k] == a[k];
      MatchesPrefix(s, i, a, b, k + 1);
    }
  }

  /** A match of `a + b` past the end of `a` is a match of `b`, shifted. */
  lemma {:induction false} MatchesShift<T>(s: seq<T>, i: nat, a: seq<T>, b: seq<T>, m: nat)
    requires Matches(s, i, a + b, |a| + m)
    ensures Matches(s, i + |a|, b, m)
    decreases |b| - m
  {
    if m < |b| {
      assert (a + b)[|a| + m] == b[m];
      MatchesShift(s, i, a, b, m + 1);
    }
  }

  /** A suffix matches where it starts. */
  lemma {:induction false} MatchesSuffix<T>(s: seq<T>, i: nat, k: nat)
    requires i <= |s|
    ensures Matches(s, i, s[i..], k)
    decreases |s| - i - k
  {
    if k < |s| - i {
      MatchesSuffix(s, i, k + 1);
    }
  }

  /** A suffix occurs where it starts. */
  lemma AtSuffix<T>(s: seq<T>, i: nat)
    requires i <= |s|
    ensures At(s, i, s[i..])
  {
    MatchesSuffix(s, i, 0);
  }

  /** An occurrence of `a + b` is one of `a` followed by one of `b`. */
  lemma AtSplit<T>(s: seq<T>, i: nat, a: seq<T>, b: seq<T>)
    requires At(s, i, a + b)
    ensures At(s, i, a) && At(s, i + |a|, b)
  {
    MatchesPrefix(s, i, a, b, 0);
    MatchesLater(s, i, a + b, 0, |a|);
    MatchesShift(s, i, a, b, 0);
  }

  /** The first element of an occurrence. */
  lemma AtFirst<T>(s: seq<T>, i: nat, piece: seq<T>)
    requires At(s, i, piece) && piece != []
    ensures i < |s| && s[i] == piece[0]
  {
  }

  /** An occurrence of a non-empty piece is its first element followed by an
      occurrence of the rest. */
  lemma AtRest<T>(s: seq<T>, i: nat, piece: seq<T>)
    requires At(s, i, piece) && piece != []
    ensures s[i] == piece[0] && At(s, i + 1, piece[1..])
  {
    assert piece == [piece[0]] + piece[1..];
    AtSplit(s, i, [piece[0]], piece[1..]);
  }

  /** An occurrence is the slice at its position. */
  lemma AtSlice<T>(s: seq<T>, i: nat, piece: seq<T>)
    requires At(s, i, piece)
    ensures s[i..i + |piece|] == piece
  {
    forall m | 0 <= m < |piece|
      ensures s[i..i + |piece|][m] == piece[m]
    {
      MatchesIndex(s, i, piece, 0, m);
    }
  }

  // ---------------------------------------------------------------------
  // Lexing a calculation
  // ---------------------------------------------------------------------

  /** A digit string followed by a non-digit or the end is where the
      scanner's digit run ends. */
  lemma {:induction false} DigitsEndAt(s: string, j: nat, d: string)
    requires At(s, j, d) && AllDigits(d)
    requires j + |d| == |s| || !IsDigit(s[j + |d|])
    ensures DigitsEnd(s, j) == j + |d|
    decreases |d|
  {
    if d != [] {
      assert IsDigit(d[0]);
      assert AllDigits(d[1..]) by {
        forall k | 0 <= k < |d| - 1 ensures IsDigit(d[1..][k]) {
          assert d[1..][k] == d[k + 1];
        }
      }
      AtRest(s, j, d);
      DigitsEndAt(s, j + 1, d[1..]);
    }
  }

  /** The scanner's base-10 reading of a digit slice is its decimal value. */
  lemma {:induction false} ValueAtDigits(s: string, j: nat, e: nat)
    requires j <= e <= |s| && AllDigits(s[j..e])
    ensures ValueAt(s, j, e, 10) == DigitsValue(s[j..e])
    decreases e - j
  {
    if j < e {
      assert s[j..e][..e - j - 1] == s[j..e - 1];
      assert s[j..e][e - j - 1] == s[e - 1];
      ValueAtDigits(s, j, e - 1);
    }
  }

  /** The scanner's reading of a digit string at `j`. */
  lemma DigitsAt(s: string, j: nat, d: string)
    requires At(s, j, d) && AllDigits(d)
    requires j + |d| == |s| || !IsDigit(s[j + |d|])
    ensures DigitsEnd(s, j) == j + |d|
    ensures ValueAt(s, j, j + |d|, 10) == DigitsValue(d)
  {
    DigitsEndAt(s, j, d);
    AtSlice(s, j, d);
    ValueAtDigits(s, j, j + |d|);
  }

  /** Where the parts of a numeral sit and what follows its integer part. */
  lemma NumeralTextAt(n: DecimalNumeral, s: string, i: nat)
    requires At(s, i, n.Text())
    requires var k := i + |n.Text()|; k == |s| || !(IsDigit(s[k]) || s[k] == '.')
    ensures var e := i + |n.whole|;
      i < |s| && s[i] == n.whole[0] && At(s, i, n.whole)
      && (n.frac.None? ==> e == i + |n.Text()| && !(e < |s| && s[e] == '.'))
      && (n.frac.Some? ==> e < |s| && s[e] == '.' && At(s, e + 1, n.frac.value)
                           && e + 1 + |n.frac.value| == i + |n.Text()|)
  {
    var dot := if n.frac.Some? then ['.'] + n.frac.value else [];
    AtSplit(s, i, n.whole, dot);
    AtFirst(s, i, n.whole);
    if n.frac.Some? {
      AtSplit(s, i + |n.whole|, ['.'], n.frac.value);
      AtFirst(s, i + |n.whole|, ['.']);
    }
  }

  /** The scanner reads a decimal numeral followed by a character that
      cannot continue it as that numeral. */
  lemma ScanNumeral(n: DecimalNumeral, s: string, i: nat)
    requires At(s, i, n.Text())
    requires var k := i + |n.Text()|; k == |s| || !(IsDigit(s[k]) || s[k] == '.')
    ensures ScanNumeric(s, i) == Some((NumeralValue(n), i + |n.Text()|))
  {
    var e := i + |n.whole|;
    NumeralTextAt(n, s, i);
    DigitsAt(s, i, n.whole);
    if n.frac.Some? {
      DigitsAt(s, e + 1, n.frac.value);
    }
  }

  /** What may follow an operand in a calculation's text: the end, an
      operator or `)`. */
  predicate FollowsOperandAt(s: string, k: nat) {
    k == |s| || (k < |s| && (s[k] == ')' || IsOperatorChar(s[k])))
  }

  /** An operator or parenthesis that starts no two-character token is
      lexed on its own. */
  lemma LexPunctuatorAt(s: string, i: nat)
    requires i < |s| && IsPunctuator(s[i])
    requires !IsOperatorChar(s[i]) || i + 1 == |s| || IsDigit(s[i + 1]) || s[i + 1] == '('
    ensures LexFrom(s, i) == Cons(Punctuator(s[i]), LexFrom(s, i + 1))
  {
  }

  /** A numeral not followed by a digit or `.` is one number token. */
  lemma LexNumeralAt(n: DecimalNumeral, s: string, i: nat)
    requires At(s, i, n.Text())
    requires var k := i + |n.Text()|; k == |s| || !(IsDigit(s[k]) || s[k] == '.')
    ensures LexFrom(s, i) == Cons(Num(NumeralValue(n)), LexFrom(s, i + |n.Text()|))
  {
    NumeralTextAt(n, s, i);
    ScanNumeral(n, s, i);
    LexDigitAt(s, i);
    LexNumberStep(s, i, NumeralValue(n), i + |n.Text()|);
  }

  /** A digit starts a numeric literal. */
  lemma LexDigitAt(s: string, i: nat)
    requires i < |s| && IsDigit(s[i])
    ensures LexFrom(s, i) == LexNumberAt(s, i)
  {
  }

  /** A scanned numeric literal becomes one number token. */
  lemma LexNumberStep(s: string, i: nat, v: real, e: nat)
    requires i < |s| && ScanNumeric(s, i) == Some((v, e))
    ensures e <= |s|
    ensures LexNumberAt(s, i) == Cons(Num(v), LexFrom(s, e))
  {
  }

  lemma {:induction false} LexOperandAt(o: Operand, s: string, i: nat)
    requires At(s, i, OperandText(o)) && FollowsOperandAt(s, i + |OperandText(o)|)
    ensures LexFrom(s, i) == Prepend(OperandTokens(o), LexFrom(s, i + |OperandText(o)|))
    decreases o, 2
  {
    match o
    case Literal(n) =>
      LexNumeralAt(n, s, i);
    case Group(c) =>
      LexGroupAt(c, s, i);
  }

  lemma {:induction false} LexGroupAt(c: Chain, s: string, i: nat)
    requires At(s, i, OperandText(Group(c))) && FollowsOperandAt(s, i + |OperandText(Group(c))|)
    ensures LexFrom(s, i) == Prepend(OperandTokens(Group(c)), LexFrom(s, i + |OperandText(Group(c))|))
    decreases c, 1
  {
    var k := i + 1 + |ChainText(c)|;
    GroupTextAt(c, s, i);
    LexPunctuatorAt(s, i);
    LexChainAt(c, s, i + 1);
    LexPunctuatorAt(s, k);
    GroupTokens(LexFrom(s, i), LexFrom(s, i + 1), LexFrom(s, k), LexFrom(s, k + 1), ChainTokens(c));
  }

  /** Where the pieces of a parenthesised group sit in the text. */
  lemma GroupTextAt(c: Chain, s: string, i: nat)
    requires At(s, i, OperandText(Group(c))) && FollowsOperandAt(s, i + |OperandText(Group(c))|)
    ensures var k := i + 1 + |ChainText(c)|;
      k < |s| && s[i] == '(' && s[k] == ')' && k + 1 == i + |OperandText(Group(c))|
      && At(s, i + 1, ChainText(c)) && FollowsOperandAt(s, k)
      && IsPunctuator(s[i]) && Punctuator(s[i]) == LParen
      && IsPunctuator(s[k]) && Punctuator(s[k]) == RParen
  {
    var inner := ChainText(c);
    var k := i + 1 + |inner|;
    AtSplit(s, i, ['('] + inner, [')']);
    AtSplit(s, i, ['('], inner);
    AtFirst(s, i, ['(']);
    AtFirst(s, k, [')']);
  }

  /** Token-list algebra behind a parenthesised group. */
  lemma GroupTokens(a: Option<seq<Token>>, b: Option<seq<Token>>, c: Option<seq<Token>>, d: Option<seq<Token>>, inner: seq<Token>)
    requires a == Cons(LParen, b) && b == Prepend(inner, c) && c == Cons(RParen, d)
    ensures a == Prepend([LParen] + inner + [RParen], d)
  {
    if d.Some? {
      assert [LParen] + (inner + ([RParen] + d.value)) == [LParen] + inner + [RParen] + d.value;
    }
  }

  /** Token-list algebra behind a sequence of pieces. */
  lemma PieceTokens(a: Option<seq<Token>>, b: Option<seq<Token>>, c: Option<seq<Token>>, x: seq<Token>, y: seq<Token>)
    requires a == Prepend(x, b) && b == Prepend(y, c)
    ensures a == Prepend(x + y, c)
  {
    if c.Some? {
      assert x + (y + c.value) == x + y + c.value;
    }
  }

  /** The text of a calculation, followed by the end or by an operator or
      `)`, lexes to the calculation's tokens. */
  lemma {:induction false} LexChainAt(c: Chain, s: string, i: nat)
    requires At(s, i, ChainText(c)) && FollowsOperandAt(s, i + |ChainText(c)|)
    ensures LexFrom(s, i) == Prepend(ChainTokens(c), LexFrom(s, i + |ChainText(c)|))
    decreases c, 0
  {
    var j := i + |OperandText(c.first)|;
    ChainTextAt(c, s, i);
    LexOperandAt(c.first, s, i);
    LexStepsAt(c.rest, s, j);
    PieceTokens(LexFrom(s, i), LexFrom(s, j), LexFrom(s, i + |ChainText(c)|), OperandTokens(c.first), StepsTokens(c.rest));
  }

  /** Where the first operand and the steps of a calculation sit in the text. */
  lemma ChainTextAt(c: Chain, s: string, i: nat)
    requires At(s, i, ChainText(c)) && FollowsOperandAt(s, i + |ChainText(c)|)
    ensures var j := i + |OperandText(c.first)|;
      At(s, i, OperandText(c.first)) && FollowsOperandAt(s, j)
      && At(s, j, StepsText(c.rest)) && j + |StepsText(c.rest)| == i + |ChainText(c)|
  {
    var j := i + |OperandText(c.first)|;
    AtSplit(s, i, OperandText(c.first), StepsText(c.rest));
    if StepsText(c.rest) != [] {
      AtFirst(s, j, StepsText(c.rest));
    }
  }

  lemma {:induction false} LexStepsAt(st: Steps, s: string, i: nat)
    requires At(s, i, StepsText(st)) && FollowsOperandAt(s, i + |StepsText(st)|)
    ensures LexFrom(s, i) == Prepend(StepsTokens(st), LexFrom(s, i + |StepsText(st)|))
    decreases st, 1
  {
    match st
    case End =>
      if LexFrom(s, i).Some? {
        assert [] + LexFrom(s, i).value == LexFrom(s, i).value;
      }
    case Then(op, o, n) =>
      LexStepAt(op, o, n, s, i);
  }

  lemma {:induction false} LexStepAt(op: Op, o: Operand, n: Steps, s: string, i: nat)
    requires At(s, i, StepsText(Then(op, o, n))) && FollowsOperandAt(s, i + |StepsText(Then(op, o, n))|)
    ensures LexFrom(s, i) == Prepend(StepsTokens(Then(op, o, n)), LexFrom(s, i + |StepsText(Then(op, o, n))|))
    decreases Then(op, o, n), 0
  {
    var j := i + 1 + |OperandText(o)|;
    var e := i + |StepsText(Then(op, o, n))|;
    StepTextAt(op, o, n, s, i);
    LexPunctuatorAt(s, i);
    LexOperandAt(o, s, i + 1);
    LexStepsAt(n, s, j);
    StepTokens(LexFrom(s, i), LexFrom(s, i + 1), LexFrom(s, j), LexFrom(s, e), op, o, n);
  }

  /** Where the operator, the operand and the remaining steps of a step sit
      in the text. */
  lemma StepTextAt(op: Op, o: Operand, n: Steps, s: string, i: nat)
    requires At(s, i, StepsText(Then(op, o, n))) && FollowsOperandAt(s, i + |StepsText(Then(op, o, n))|)
    ensures var j := i + 1 + |OperandText(o)|;
      i + 1 < |s| && s[i] == OpChar(op) && IsPunctuator(s[i]) && Punctuator(s[i]) == OpToken(op)
      && (IsDigit(s[i + 1]) || s[i + 1] == '(')
      && At(s, i + 1, OperandText(o)) && FollowsOperandAt(s, j)
      && At(s, j, StepsText(n)) && FollowsOperandAt(s, j + |StepsText(n)|)
      && j + |StepsText(n)| == i + |StepsText(Then(op, o, n))|
  {
    var body := OperandText(o);
    var j := i + 1 + |body|;
    AtSplit(s, i, [OpChar(op)] + body, StepsText(n));
    AtSplit(s, i, [OpChar(op)], body);
    AtFirst(s, i, [OpChar(op)]);
    AtFirst(s, i + 1, body);
    if StepsText(n) != [] {
      AtFirst(s, j, StepsText(n));
    }
  }

  /** Token-list algebra behind one step. */
  lemma StepTokens(a: Option<seq<Token>>, b: Option<seq<Token>>, c: Option<seq<Token>>, d: Option<seq<Token>>, op: Op, o: Operand, n: Steps)
    requires a == Cons(OpToken(op), b) && b == Prepend(OperandTokens(o), c) && c == Prepend(StepsTokens(n), d)
    ensures a == Prepend(StepsTokens(Then(op, o, n)), d)
  {
    if d.Some? {
      assert [OpToken(op)] + (OperandTokens(o) + (StepsTokens(n) + d.value))
        == [OpToken(op)] + OperandTokens(o) + StepsTokens(n) + d.value;
    }
  }

  // ---------------------------------------------------------------------
  // Parsing a calculation
  // ---------------------------------------------------------------------

  /** Position `k` is the end of the input or a `)`. */
  predicate StopsAt(ts: seq<Token>, k: nat) {
    k == |ts| || (k < |ts| && ts[k] == RParen)
  }

  /** Where the parts of a step sit. */
  lemma StepAt(ts: seq<Token>, i: nat, op: Op, o: Operand, n: Steps)
    requires At(ts, i, StepsTokens(Then(op, o, n)))
    ensures i < |ts| && ts[i] == OpToken(op)
    ensures At(ts, i + 1, OperandTokens(o))
    ensures At(ts, i + 1 + |OperandTokens(o)|, StepsTokens(n))
    ensures |StepsTokens(Then(op, o, n))| == 1 + |OperandTokens(o)| + |StepsTokens(n)|
  {
    AtSplit(ts, i, [OpToken(op)] + OperandTokens(o), StepsTokens(n));
    AtSplit(ts, i, [OpToken(op)], OperandTokens(o));
    AtFirst(ts, i, [OpToken(op)]);
  }

  /** Where the leading multiplicative steps end. */
  lemma MulRunAt(ts: seq<Token>, i: nat, s: Steps)
    requires At(ts, i, StepsTokens(s))
    ensures At(ts, i + |StepsTokens(MulRun(s))|, StepsTokens(AfterMul(s)))
    ensures |StepsTokens(MulRun(s))| + |StepsTokens(AfterMul(s))| == |StepsTokens(s)|
  {
    MulRunSplit(s);
    StepsTokensAppend(MulRun(s), AfterMul(s));
    AtSplit(ts, i, StepsTokens(MulRun(s)), StepsTokens(AfterMul(s)));
  }

  /** The operand's tokens, wherever they sit, parse as one unary
      expression with the operand's value. */
  lemma {:induction false} ParseOperandAt(o: Operand, ts: seq<Token>, i: nat)
    requires At(ts, i, OperandTokens(o))
    ensures var r := ParseUnary(ts, i);
      r.Some? && r.value.next == i + |OperandTokens(o)| && Eval(r.value.e) == OperandValue(o)
    decreases OperandSize(o), 1
  {
    match o
    case Literal(n) =>
      AtFirst(ts, i, [Num(NumeralValue(n))]);
    case Group(c) =>
      ParseGroupAt(c, ts, i);
  }

  lemma {:induction false} ParseGroupAt(c: Chain, ts: seq<Token>, i: nat)
    requires At(ts, i, OperandTokens(Group(c)))
    ensures var r := ParsePrimary(ts, i);
      r.Some? && r.value.next == i + |OperandTokens(Group(c))| && Eval(r.value.e) == ChainValue(c)
    decreases OperandSize(Group(c)), 0
  {
    var inner := ChainTokens(c);
    AtSplit(ts, i, [LParen] + inner, [RParen]);
    AtSplit(ts, i, [LParen], inner);
    AtFirst(ts, i, [LParen]);
    AtFirst(ts, i + 1 + |inner|, [RParen]);
    ParseChainAt(c, ts, i + 1);
  }

  /** The tokens of a calculation followed by the end or `)` parse as one
      expression with the calculation's value. */
  lemma {:induction false} ParseChainAt(c: Chain, ts: seq<Token>, i: nat)
    requires At(ts, i, ChainTokens(c)) && StopsAt(ts, i + |ChainTokens(c)|)
    ensures var r := ParseExpr(ts, i);
      r.Some? && r.value.next == i + |ChainTokens(c)| && Eval(r.value.e) == ChainValue(c)
    decreases ChainSize(c), 1
  {
    var head := OperandTokens(c.first);
    ChainTokensAt(c, ts, i);
    var e := ParseTermAt(c.first, c.rest, ts, i);
    var j := i + |head| + |StepsTokens(MulRun(c.rest))|;
    ExprFromTerm(ts, i, e, j);
    ParseExprStepsAt(e, AfterMul(c.rest), ts, j);
    CalcAgrees(None, OperandValue(c.first), c.rest);
  }

  /** Where the first operand, the leading multiplicative steps and the rest
      of a calculation sit. */
  lemma ChainTokensAt(c: Chain, ts: seq<Token>, i: nat)
    requires At(ts, i, ChainTokens(c))
    ensures var k := i + |OperandTokens(c.first)|;
      At(ts, i, OperandTokens(c.first)) && At(ts, k, StepsTokens(c.rest))
      && k + |StepsTokens(c.rest)| == i + |ChainTokens(c)|
      && At(ts, k + |StepsTokens(MulRun(c.rest))|, StepsTokens(AfterMul(c.rest)))
      && k + |StepsTokens(MulRun(c.rest))| + |StepsTokens(AfterMul(c.rest))| == i + |ChainTokens(c)|
  {
    var k := i + |OperandTokens(c.first)|;
    AtSplit(ts, i, OperandTokens(c.first), StepsTokens(c.rest));
    MulRunAt(ts, k, c.rest);
  }

  /** The tail parser for `*` and `/` consumes exactly the leading
      multiplicative steps. */
  lemma {:induction false} ParseTermStepsAt(lhs: Expr, s: Steps, ts: seq<Token>, i: nat)
    requires At(ts, i, StepsTokens(s)) && StopsAt(ts, i + |StepsTokens(s)|)
    ensures var r := ParseTermTail(lhs, ts, i);
      r.Some? && r.value.next == i + |StepsTokens(MulRun(s))| && Eval(r.value.e) == MulFold(Eval(lhs), s)
    decreases StepsSize(s), 2
  {
    match s
    case End =>
      TermTailStops(lhs, ts, i);
    case Then(op, o, n) =>
      StepAt(ts, i, op, o, n);
      if IsMultiplicative(op) {
        var e1, j := TermStepAt(lhs, op, o, n, ts, i);
        ParseTermStepsAt(Bin(op, lhs, e1), n, ts, j);
      } else {
        TermTailStops(lhs, ts, i);
      }
  }

  /** One `*` or `/` step: the operator and the operand after it. */
  lemma {:induction false} TermStepAt(lhs: Expr, op: Op, o: Operand, n: Steps, ts: seq<Token>, i: nat) returns (e: Expr, j: nat)
    requires At(ts, i, StepsTokens(Then(op, o, n))) && IsMultiplicative(op)
    ensures j == i + 1 + |OperandTokens(o)|
    ensures ParseTermTail(lhs, ts, i) == ParseTermTail(Bin(op, lhs, e), ts, j)
    ensures Eval(e) == OperandValue(o)
    decreases StepsSize(Then(op, o, n)), 1
  {
    StepAt(ts, i, op, o, n);
    ParseOperandAt(o, ts, i + 1);
    e := ParseUnary(ts, i + 1).value.e;
    j := i + 1 + |OperandTokens(o)|;
    TermTailStep(op, lhs, ts, i, e, j);
  }

  /** The tail parser for `+` and `-` consumes the remaining steps, folding
      each product into the sum. */
  lemma {:induction false} ParseExprStepsAt(lhs: Expr, s: Steps, ts: seq<Token>, i: nat)
    requires At(ts, i, StepsTokens(s)) && StopsAt(ts, i + |StepsTokens(s)|)
    requires s.End? || !IsMultiplicative(s.op)
    ensures var r := ParseExprTail(lhs, ts, i);
      r.Some? && r.value.next == i + |StepsTokens(s)| && Eval(r.value.e) == SumFold(Eval(lhs), s)
    decreases StepsSize(s), 2
  {
    match s
    case End =>
      ExprTailStops(lhs, ts, i);
    case Then(op, o, n) =>
      var e2, j := ExprStepAt(lhs, op, o, n, ts, i);
      ParseExprStepsAt(Bin(op, lhs, e2), AfterMul(n), ts, j);
  }

  /** One `+` or `-` step: the operator and the term after it. */
  lemma {:induction false} ExprStepAt(lhs: Expr, op: Op, o: Operand, n: Steps, ts: seq<Token>, i: nat) returns (e: Expr, j: nat)
    requires At(ts, i, StepsTokens(Then(op, o, n))) && StopsAt(ts, i + |StepsTokens(Then(op, o, n))|)
    requires !IsMultiplicative(op)
    ensures At(ts, j, StepsTokens(AfterMul(n)))
    ensures j + |StepsTokens(AfterMul(n))| == i + |StepsTokens(Then(op, o, n))|
    ensures ParseExprTail(lhs, ts, i) == ParseExprTail(Bin(op, lhs, e), ts, j)
    ensures Eval(e) == MulFold(OperandValue(o), n)
    decreases StepsSize(Then(op, o, n)), 1
  {
    StepTokensAt(ts, i, op, o, n);
    e := ParseTermAt(o, n, ts, i + 1);
    j := i + 1 + |OperandTokens(o)| + |StepsTokens(MulRun(n))|;
    ExprTailStep(op, lhs, ts, i, e, j);
  }

  /** Where the parts of a step, and the steps after its multiplicative run,
      sit. */
  lemma StepTokensAt(ts: seq<Token>, i: nat, op: Op, o: Operand, n: Steps)
    requires At(ts, i, StepsTokens(Then(op, o, n)))
    ensures i < |ts| && ts[i] == OpToken(op)
    ensures At(ts, i + 1, OperandTokens(o))
    ensures At(ts, i + 1 + |OperandTokens(o)|, StepsTokens(n))
    ensures At(ts, i + 1 + |OperandTokens(o)| + |StepsTokens(MulRun(n))|, StepsTokens(AfterMul(n)))
    ensures i + 1 + |OperandTokens(o)| + |StepsTokens(MulRun(n))| + |StepsTokens(AfterMul(n))|
      == i + |StepsTokens(Then(op, o, n))|
  {
    StepAt(ts, i, op, o, n);
    MulRunAt(ts, i + 1 + |OperandTokens(o)|, n);
  }

  /** The term parser reads an operand and the multiplicative steps after it. */
  lemma {:induction false} ParseTermAt(o: Operand, n: Steps, ts: seq<Token>, i: nat) returns (e: Expr)
    requires At(ts, i, OperandTokens(o))
    requires At(ts, i + |OperandTokens(o)|, StepsTokens(n))
    requires StopsAt(ts, i + |OperandTokens(o)| + |StepsTokens(n)|)
    ensures ParseTerm(ts, i) == Some(Parse(e, i + |OperandTokens(o)| + |StepsTokens(MulRun(n))|))
    ensures Eval(e) == MulFold(OperandValue(o), n)
    decreases StepsSize(n) + OperandSize(o) + 1, 0
  {
    ParseOperandAt(o, ts, i);
    var e1 := ParseUnary(ts, i).value.e;
    var j := i + |OperandTokens(o)|;
    TermFromUnary(ts, i, e1, j);
    ParseTermStepsAt(e1, n, ts, j);
    e := ParseTermTail(e1, ts, j).value.e;
  }

  lemma TermFromUnary(ts: seq<Token>, i: nat, e: Expr, j: nat)
    requires i <= |ts| && ParseUnary(ts, i) == Some(Parse(e, j))
    ensures ParseTerm(ts, i) == ParseTermTail(e, ts, j)
  {
  }

  lemma ExprFromTerm(ts: seq<Token>, i: nat, e: Expr, j: nat)
    requires i <= |ts| && ParseTerm(ts, i) == Some(Parse(e, j))
    ensures ParseExpr(ts, i) == ParseExprTail(e, ts, j)
  {
  }

  lemma TermTailStops(lhs: Expr, ts: seq<Token>, i: nat)
    requires i <= |ts| && (i == |ts| || !(ts[i] == Star || ts[i] == Slash))
    ensures ParseTermTail(lhs, ts, i) == Some(Parse(lhs, i))
  {
  }

  lemma TermTailStep(op: Op, lhs: Expr, ts: seq<Token>, i: nat, e: Expr, j: nat)
    requires IsMultiplicative(op) && i < |ts| && ts[i] == OpToken(op)
    requires ParseUnary(ts, i + 1) == Some(Parse(e, j))
    ensures ParseTermTail(lhs, ts, i) == ParseTermTail(Bin(op, lhs, e), ts, j)
  {
  }

  lemma ExprTailStops(lhs: Expr, ts: seq<Token>, i: nat)
    requires i <= |ts| && (i == |ts| || !(ts[i] == Plus || ts[i] == Minus))
    ensures ParseExprTail(lhs, ts, i) == Some(Parse(lhs, i))
  {
  }

  lemma ExprTailStep(op: Op, lhs: Expr, ts: seq<Token>, i: nat, e: Expr, j: nat)
    requires !IsMultiplicative(op) && i < |ts| && ts[i] == OpToken(op)
    requires ParseTerm(ts, i + 1) == Some(Parse(e, j))
    ensures ParseExprTail(lhs, ts, i) == ParseExprTail(Bin(op, lhs, e), ts, j)
  {
  }

  // ---------------------------------------------------------------------
  // What `evaluateExpression` makes of a calculation
  // ---------------------------------------------------------------------

  /** A calculation's text lexes to its tokens. */
  lemma LexCalculation(c: Chain)
    ensures Lex(ChainText(c)) == Some(ChainTokens(c))
  {
    var t := ChainText(c);
    AtSuffix(t, 0);
    assert t[0..] == t;
    LexChainAt(c, t, 0);
    assert ChainTokens(c) + [] == ChainTokens(c);
  }

  /** A calculation's tokens parse completely, to its value. */
  lemma ParseCalculation(c: Chain)
    ensures var ts := ChainTokens(c);
      ParseExpr(ts, 0).Some? && ParseExpr(ts, 0).value.next == |ts|
      && Eval(ParseExpr(ts, 0).value.e) == ChainValue(c)
  {
    var ts := ChainTokens(c);
    AtSuffix(ts, 0);
    assert ts[0..] == ts;
    ParseChainAt(c, ts, 0);
  }

  /** The main theorem: typed on the keypad, a calculation evaluates to the
      value the one-pass calculator gives it, with `*` and `/` binding
      tighter than `+` and `-` and equal levels grouping to the left. */
  lemma EvaluatesCalculation(c: Chain)
    ensures EvaluateExpression(ChainText(c)) == Value(ChainValue(c))
  {
    SanitizeAllowed(ChainText(c));
    LexCalculation(c);
    ParseCalculation(c);
  }

  /** A calculation ending in an operator, as while the user is still
      typing, cannot run: the text comes back unchanged. */
  lemma TrailingOperatorPassesThrough(c: Chain, op: Op)
    ensures var s := ChainText(c) + [OpChar(op)];
      EvaluateExpression(s) == Passthrough(s)
  {
    var s := ChainText(c) + [OpChar(op)];
    assert AllAllowed(s);
    SanitizeAllowed(s);
    LexTrailingOperator(c, op);
    var ts := ChainTokens(c) + [OpToken(op)];
    assert !ClosesOperand(ts[|ts| - 1]);
  }

  /** A calculation followed by an operator lexes to the calculation's
      tokens and the operator's. */
  lemma LexTrailingOperator(c: Chain, op: Op)
    ensures Lex(ChainText(c) + [OpChar(op)]) == Some(ChainTokens(c) + [OpToken(op)])
  {
    var t := ChainText(c);
    var s := t + [OpChar(op)];
    AtSuffix(s, 0);
    assert s[0..] == t + [OpChar(op)];
    AtSplit(s, 0, t, [OpChar(op)]);
    AtFirst(s, |t|, [OpChar(op)]);
    LexChainAt(c, s, 0);
    LexLastOperator(s, |t|, op);
  }

  /** An operator at the very end is one last token. */
  lemma LexLastOperator(s: string, k: nat, op: Op)
    requires k + 1 == |s| && s[k] == OpChar(op)
    ensures LexFrom(s, k) == Some([OpToken(op)])
  {
    LexPunctuatorAt(s, k);
    assert Punctuator(OpChar(op)) == OpToken(op);
    assert LexFrom(s, |s|) == Some([]);
    assert [OpToken(op)] + [] == [OpToken(op)];
  }

  // ---------------------------------------------------------------------
  // The unit-test expectations of `evaluateExpression`
  // ---------------------------------------------------------------------

  function Whole(w: string): Operand
    requires w != [] && AllDigits(w) && (|w| == 1 || w[0] != '0')
  {
    Literal(Numeral(w, None))
  }

  function One(a: Operand, op: Op, b: Operand): Chain {
    Chain(a, Then(op, b, End))
  }

  lemma AdditionExample(s: string)
    requires s == "10+5"
    ensures EvaluateExpression(s) == Value(Finite(15.0))
  {
    var c := One(Whole("10"), AddOp, Whole("5"));
    assert ChainText(c) == s;
    EvaluatesCalculation(c);
  }

  lemma SubtractionExample(s: string)
    requires s == "10-5"
    ensures EvaluateExpression(s) == Value(Finite(5.0))
  {
    var c := One(Whole("10"), SubOp, Whole("5"));
    assert ChainText(c) == s;
    EvaluatesCalculation(c);
  }

  lemma MultiplicationExample(s: string)
    requires s == "10*5"
    ensures EvaluateExpression(s) == Value(Finite(50.0))
  {
    var c := One(Whole("10"), MulOp, Whole("5"));
    assert ChainText(c) == s;
    EvaluatesCalculation(c);
  }

  lemma DivisionExample(s: string)
    requires s == "10/2"
    ensures EvaluateExpression(s) == Value(Finite(5.0))
  {
    var c := One(Whole("10"), DivOp, Whole("2"));
    assert ChainText(c) == s;
    EvaluatesCalculation(c);
  }

  /** `*` binds tighter than `+`. */
  lemma PrecedenceExample(s: string)
    requires s == "10+5*2"
    ensures EvaluateExpression(s) == Value(Finite(20.0))
  {
    var c := Chain(Whole("10"), Then(AddOp, Whole("5"), Then(MulOp, Whole("2"), End)));
    assert ChainText(c) == s;
    EvaluatesCalculation(c);
  }

  /** Parentheses override precedence. */
  lemma ParenthesesExample(s: string)
    requires s == "(10+5)*2"
    ensures EvaluateExpression(s) == Value(Finite(30.0))
  {
    var inner := One(Whole("10"), AddOp, Whole("5"));
    InnerSum(inner);
    var c := One(Group(inner), MulOp, Whole("2"));
    GroupTimesTwo(inner, c);
    EvaluatesCalculation(c);
  }

  lemma InnerSum(inner: Chain)
    requires inner == One(Whole("10"), AddOp, Whole("5"))
    ensures ChainText(inner) == "10+5" && ChainValue(inner) == Finite(15.0)
  {
  }

  lemma GroupTimesTwo(inner: Chain, c: Chain)
    requires ChainText(inner) == "10+5" && ChainValue(inner) == Finite(15.0)
    requires c == One(Group(inner), MulOp, Whole("2"))
    ensures ChainText(c) == "(10+5)*2" && ChainValue(c) == Finite(30.0)
  {
    assert ChainText(c) == "(" + "10+5" + ")" + "*2";
  }

  lemma DecimalExample(s: string)
    requires s == "10.5+0.5"
    ensures EvaluateExpression(s) == Value(Finite(11.0))
  {
    var c := One(Literal(Numeral("10", Some("5"))), AddOp, Literal(Numeral("0", Some("5"))));
    assert ChainText(c) == s;
    EvaluatesCalculation(c);
  }

  /** Letters are dropped before evaluation. */
  lemma SanitizeExample(s: string)
    requires s == "10+abc5"
    ensures EvaluateExpression(s) == Value(Finite(15.0))
  {
    LettersDropped(s);
    EvaluateSanitized(s);
    AdditionExample(Sanitize(s));
  }

  lemma LettersDropped(s: string)
    requires s == "10+abc5"
    ensures Sanitize(s) == "10+5"
  {
    var digits, letters, last := "10+", "abc", "5";
    assert s == digits + letters + last;
    SanitizeAppend(digits + letters, last);
    SanitizeAppend(digits, letters);
    PiecesSanitized(digits, letters, last);
  }

  lemma PiecesSanitized(digits: string, letters: string, last: string)
    requires digits == "10+" && letters == "abc" && last == "5"
    ensures Sanitize(digits) == digits && Sanitize(letters) == [] && Sanitize(last) == last
  {
    SanitizeAllowed(digits);
    SanitizeAllowed(last);
    NoneAllowed(letters);
  }

  /** A string with no allowed character sanitises to nothing. */
  lemma {:induction false} NoneAllowed(s: string)
    requires forall i :: 0 <= i < |s| ==> !Allowed(s[i])
    ensures Sanitize(s) == []
    decreases |s|
  {
    if s != [] {
      assert forall i :: 0 <= i < |s[1..]| ==> s[1..][i] == s[i + 1];
      NoneAllowed(s[1..]);
    }
  }

  /** An incomplete expression is handed back unchanged. */
  lemma IncompleteExample(s: string)
    requires s == "10+"
    ensures EvaluateExpression(s) == Passthrough(s)
  {
    assert ChainText(Chain(Whole("10"), End)) + [OpChar(AddOp)] == s;
    TrailingOperatorPassesThrough(Chain(Whole("10"), End), AddOp);
  }

  /** Dividing a positive number by zero gives `Infinity`. */
  lemma DivisionByZeroExample(s: string)
    requires s == "10/0"
    ensures EvaluateExpression(s) == Value(PosInf)
  {
    var c := One(Whole("10"), DivOp, Whole("0"));
    assert ChainText(c) == s;
    EvaluatesCalculation(c);
  }
}

=== FILE: chat.dfy ===
/** The chat screen's pending action: a message is sent, the assistant's
    reading of it becomes a pending action, and the user confirms or
    cancels it. The assistant itself and the server are outside the model:
    the assistant's reply is a parameter, and confirming yields the list of
    writes the screen asks the server for. */
module Chat {
  import opened Common
  import opened Text

  /** A saving goal as the screen loaded it. */
  datatype Goal = Goal(id: string, title: string, currentAmount: real)

  /** What the assistant read from a message. `current_amount` and `icon`
      may be missing; anything that is neither a new goal nor a payment into
      a goal is saved as an ordinary transaction. */
  datatype Intent =
    | CreateGoal(title: string, targetAmount: real, currentAmount: Option<real>, icon: Option<string>)
    | AddToGoal(goalTitle: string, amount: real)
    | Entry(amount: real, category: Option<string>, kind: Option<string>, notes: Option<string>)

  /** How the assistant answered: with an intent, with nothing usable, or
      not at all (the call threw). */
  datatype Reply = Understood(intent: Intent) | NotUnderstood | Unreachable

  /** The chat bubbles, by what they say rather than their rendered text. */
  datatype Message =
    | Greeting
    | FromUser(text: string)
    | Proposal(intent: Intent)
    | DidNotUnderstand
    | ConnectionProblem
    | GoalCreated
    | AddedToGoal(amount: real, title: string)
    | GoalNotFound(goalTitle: string)
    | TransactionSaved
    | Cancelled

  datatype Chat = Chat(input: string, messages: seq<Message>, loading: bool, pending: Option<Intent>, goals: seq<Goal>)

  /** A request the screen makes of the server. */
  datatype Write =
    | NewGoal(userId: string, title: string, targetAmount: real, currentAmount: real, icon: string, color: string)
    | SetCurrentAmount(goalId: string, currentAmount: real)
    | NewTransaction(userId: string, amount: real, category: Option<string>, kind: Option<string>, description: Option<string>)

  const GoalIcon := "\U{1F3AF}"
  const GoalColor := "#3B82F6"
  const GoalPaymentNote := "Shtim n\U{00EB} synimin: "

  function Start(goals: seq<Goal>): Chat {
    Chat([], [Greeting], false, None, goals)
  }

  // ---------------------------------------------------------------------------
  // Sending
  // ---------------------------------------------------------------------------

  /** `!inputText.trim()` */
  predicate Blank(input: string) {
    Trim(input) == []
  }

  /** The part of `handleSend` before the assistant is asked: the message is
      shown, the box emptied and any pending action dropped. */
  function BeginSend(c: Chat): (r: Chat)
    requires !Blank(c.input)
    ensures r.pending == None && r.input == [] && r.loading
    ensures r.messages == c.messages + [FromUser(c.input)]
    ensures r.goals == c.goals
  {
    c.(input := [], messages := c.messages + [FromUser(c.input)], loading := true, pending := None)
  }

  /** The part of `handleSend` after the assistant has answered. */
  function Receive(c: Chat, reply: Reply): (r: Chat)
    ensures !r.loading && r.input == c.input && r.goals == c.goals
    ensures r.pending == (if reply.Understood? then Some(reply.intent) else c.pending)
    ensures |r.messages| == |c.messages| + 1 && r.messages[..|c.messages|] == c.messages
  {
    match reply
    case Understood(intent) => c.(messages := c.messages + [Proposal(intent)], pending := Some(intent), loading := false)
    case NotUnderstood => c.(messages := c.messages + [DidNotUnderstand], loading := false)
    case Unreachable => c.(messages := c.messages + [ConnectionProblem], loading := false)
  }

  /** `handleSend()`, given the assistant's reply. */
  function Send(c: Chat, reply: Reply): (r: Chat)
    ensures Blank(c.input) ==> r == c
    ensures !Blank(c.input) ==> r.input == [] && !r.loading && r.goals == c.goals
    ensures !Blank(c.input) ==> r.pending == (if reply.Understood? then Some(reply.intent) else None)
    ensures !Blank(c.input) ==> |r.messages| == |c.messages| + 2
    ensures !Blank(c.input) ==> r.messages[..|c.messages|] == c.messages && r.messages[|c.messages|] == FromUser(c.input)
  {
    if Blank(c.input) then c else Receive(BeginSend(c), reply)
  }

  /** White space alone is never sent, and the assistant's answer does not
      matter because it is never asked. */
  lemma BlankIgnored(c: Chat, r1: Reply, r2: Reply)
    requires forall i :: 0 <= i < |c.input| ==> IsJsSpace(c.input[i])
    ensures Send(c, r1) == c && Send(c, r2) == c
  {
    TrimEmptyIffBlank(c.input);
  }

  /** A message the assistant cannot read leaves no pending action, even one
      that was pending before. */
  lemma UnreadableDropsPending(c: Chat)
    requires !Blank(c.input) && c.pending.Some?
    ensures Send(c, NotUnderstood).pending == None
    ensures Send(c, Unreachable).pending == None
  {
  }

  // ---------------------------------------------------------------------------
  // Goal lookup
  // ---------------------------------------------------------------------------

  /** `g.title.toLowerCase() === goalTitle.toLowerCase()` */
  predicate SameTitle(g: Goal, goalTitle: string) {
    Lower(g.title) == Lower(goalTitle)
  }

  /** `goalTitle.toLowerCase().includes(g.title.toLowerCase())` */
  predicate TitleWithin(g: Goal, goalTitle: string) {
    Includes(Lower(goalTitle), Lower(g.title))
  }

  /** `goals.find(p)`, as the index of the first goal that passes. */
  function FirstFrom(goals: seq<Goal>, p: Goal -> bool, from: nat): (r: Option<nat>)
    requires from <= |goals|
    ensures r.Some? ==> from <= r.value < |goals| && p(goals[r.value])
    ensures r.Some? ==> forall j :: from <= j < r.value ==> !p(goals[j])
    ensures r.None? <==> forall j :: from <= j < |goals| ==> !p(goals[j])
    decreases |goals| - from
  {
    if from == |goals| then None
    else if p(goals[from]) then Some(from)
    else FirstFrom(goals, p, from + 1)
  }

  /** The goal `handleConfirm` pays into: the first whose title equals
      `goalTitle` up to case, or failing that the first whose title occurs
      in it. */
  function FindGoal(goals: seq<Goal>, goalTitle: string): (r: Option<nat>)
    ensures r.Some? ==> r.value < |goals| && TitleWithin(goals[r.value], goalTitle)
    ensures (exists i :: 0 <= i < |goals| && SameTitle(goals[i], goalTitle)) ==>
      r.Some? && SameTitle(goals[r.value], goalTitle)
      && forall j :: 0 <= j < r.value ==> !SameTitle(goals[j], goalTitle)
    ensures (forall i :: 0 <= i < |goals| ==> !SameTitle(goals[i], goalTitle)) && r.Some? ==>
      forall j :: 0 <= j < r.value ==> !TitleWithin(goals[j], goalTitle)
    ensures r.None? <==> forall i :: 0 <= i < |goals| ==> !TitleWithin(goals[i], goalTitle)
  {
    var exact := FirstFrom(goals, g => SameTitle(g, goalTitle), 0);
    if exact.Some? then
      SameTitleWithin(goals[exact.value], goalTitle);
      exact
    else FirstFrom(goals, g => TitleWithin(g, goalTitle), 0)
  }

  /** A title equal up to case is also contained up to case. */
  lemma SameTitleWithin(g: Goal, goalTitle: string)
    requires SameTitle(g, goalTitle)
    ensures TitleWithin(g, goalTitle)
  {
    assert StartsWith(Lower(goalTitle), Lower(g.title));
  }

  // ---------------------------------------------------------------------------
  // Confirming and cancelling
  // ---------------------------------------------------------------------------

  /** The writes a confirmed intent asks for, and the message shown once
      they have succeeded. */
  function Requests(intent: Intent, goals: seq<Goal>, userId: string): (r: (seq<Write>, Message))
    ensures intent.CreateGoal? ==> r.1 == GoalCreated && |r.0| == 1 && r.0[0].NewGoal?
    ensures intent.CreateGoal? ==> var w := r.0[0];
      && w.userId == userId && w.title == intent.title && w.targetAmount == intent.targetAmount
      && w.currentAmount == (if intent.currentAmount.Some? then intent.currentAmount.value else 0.0)
      && w.icon != [] && (intent.icon.Some? && intent.icon.value != [] ==> w.icon == intent.icon.value)
      && w.color == GoalColor
    ensures intent.AddToGoal? ==> (r.0 == [] <==> FindGoal(goals, intent.goalTitle).None?)
    ensures intent.AddToGoal? && r.0 == [] ==> r.1 == GoalNotFound(intent.goalTitle)
    ensures intent.AddToGoal? && r.0 != [] ==> var g := goals[FindGoal(goals, intent.goalTitle).value];
      && r.0 == [SetCurrentAmount(g.id, g.currentAmount + intent.amount),
                 NewTransaction(userId, intent.amount, Some(g.title), Some("expense"), Some(GoalPaymentNote + g.title))]
      && r.1 == AddedToGoal(intent.amount, g.title)
    ensures intent.Entry? ==> r.1 == TransactionSaved
    ensures intent.Entry? ==> r.0 == [NewTransaction(userId, intent.amount, intent.category, intent.kind, intent.notes)]
  {
    match intent
    case CreateGoal(title, target, current, icon) =>
      ([NewGoal(userId, title, target, current.GetOr(0.0),
                if icon.GetOr([]) == [] then GoalIcon else icon.value, GoalColor)],
       GoalCreated)
    case AddToGoal(goalTitle, amount) =>
      var found := FindGoal(goals, goalTitle);
      if found.None? then ([], GoalNotFound(goalTitle))
      else
        var g := goals[found.value];
        ([SetCurrentAmount(g.id, g.currentAmount + amount),
          NewTransaction(userId, amount, Some(g.title), Some("expense"), Some(GoalPaymentNote + g.title))],
         AddedToGoal(amount, g.title))
    case Entry(amount, category, kind, notes) =>
      ([NewTransaction(userId, amount, category, kind, notes)], TransactionSaved)
  }

  /** What confirming did: the chat afterwards and the writes that reached
      the server. */
  datatype Confirmed = Confirmed(chat: Chat, writes: seq<Write>)

  /** `handleConfirm()` for the signed-in user `user`. `failAt` is the
      position of the write that throws, if one does: the writes before it
      have happened, the user is alerted, and the action stays pending. */
  function Confirm(c: Chat, user: Option<string>, failAt: Option<nat>): (r: Confirmed)
    ensures c.pending.None? || user.None? ==> r == Confirmed(c, [])
    ensures r.chat.goals == c.goals && r.chat.input == c.input
    ensures r.chat.pending.Some? ==> r.chat == c
    ensures c.pending.Some? && user.Some? && failAt.None? ==> r.chat.pending == None
    ensures r.writes <= Requests(c.pending.GetOr(Entry(0.0, None, None, None)), c.goals, user.GetOr([])).0
    ensures c.pending.Some? && user.Some? ==>
      var (writes, message) := Requests(c.pending.value, c.goals, user.value);
      failAt.None? || failAt.value >= |writes| ==>
        r.writes == writes && r.chat.messages == c.messages + [message] && r.chat.pending == None
  {
    if c.pending.None? || user.None? then Confirmed(c, [])
    else
      var (writes, message) := Requests(c.pending.value, c.goals, user.value);
      if failAt.Some? && failAt.value < |writes| then Confirmed(c, writes[..failAt.value])
      else Confirmed(c.(messages := c.messages + [message], pending := None), writes)
  }

  /** `handleCancel()` */
  function Cancel(c: Chat): (r: Chat)
    ensures r.pending == None && r.goals == c.goals && r.input == c.input
    ensures r.messages == c.messages + [Cancelled]
  {
    c.(pending := None, messages := c.messages + [Cancelled])
  }

  /** Paying into a goal adds the amount to the matched goal's current
      amount and records one expense named after it; with no match nothing
      is written, though the action is still cleared. */
  lemma AddToGoalWrites(c: Chat, userId: string, goalTitle: string, amount: real)
    requires c.pending == Some(AddToGoal(goalTitle, amount))
    ensures var r := Confirm(c, Some(userId), None);
      var found := FindGoal(c.goals, goalTitle);
      && (found.None? ==> r.writes == [] && r.chat.messages == c.messages + [GoalNotFound(goalTitle)])
      && (found.Some? ==> r.writes == [
            SetCurrentAmount(c.goals[found.value].id, c.goals[found.value].currentAmount + amount),
            NewTransaction(userId, amount, Some(c.goals[found.value].title), Some("expense"),
                           Some(GoalPaymentNote + c.goals[found.value].title))])
      && r.chat.pending == None
  {
  }

  /** An ordinary entry is saved as one transaction with the entry's
      amount, category, type and notes, and the saved message is shown. */
  lemma EntryWrites(c: Chat, userId: string, amount: real, category: Option<string>, kind: Option<string>, notes: Option<string>)
    requires c.pending == Some(Entry(amount, category, kind, notes))
    ensures Confirm(c, Some(userId), None).writes == [NewTransaction(userId, amount, category, kind, notes)]
    ensures Confirm(c, Some(userId), None).chat.messages == c.messages + [TransactionSaved]
    ensures Confirm(c, Some(userId), None).chat.pending == None
  {
  }

  /** A new goal is created with the intent's title, target, current amount
      and icon, and the created message is shown. */
  lemma CreateGoalWrites(c: Chat, userId: string, title: string, target: real, current: real, icon: string)
    requires c.pending == Some(CreateGoal(title, target, Some(current), Some(icon))) && icon != []
    ensures Confirm(c, Some(userId), None).writes == [NewGoal(userId, title, target, current, icon, GoalColor)]
    ensures Confirm(c, Some(userId), None).chat.messages == c.messages + [GoalCreated]
  {
  }

  /** A new goal without a current amount starts at zero, and one without
      an icon (or with an empty one) gets the target icon. */
  lemma CreateGoalDefaults(c: Chat, userId: string, title: string, target: real)
    requires c.pending == Some(CreateGoal(title, target, None, Some([])))
    ensures Confirm(c, Some(userId), None).writes == [NewGoal(userId, title, target, 0.0, GoalIcon, GoalColor)]
  {
  }

  /** Once an action is confirmed or cancelled, confirming again writes
      nothing: every action is carried out at most once. */
  lemma ConfirmOnce(c: Chat, user: Option<string>, f1: Option<nat>, f2: Option<nat>)
    requires Confirm(c, user, f1).chat.pending.None?
    ensures Confirm(Confirm(c, user, f1).chat, user, f2).writes == []
    ensures Confirm(Cancel(c), user, f2).writes == []
  {
  }

  /** A confirm that fails can be retried: the same action is still
      pending and asks for the same writes. */
  lemma FailureKeepsPending(c: Chat, userId: string, k: nat)
    requires c.pending.Some?
    requires k < |Requests(c.pending.value, c.goals, userId).0|
    ensures Confirm(c, Some(userId), Some(k)).chat == c
    ensures Confirm(c, Some(userId), Some(k)).writes == Requests(c.pending.value, c.goals, userId).0[..k]
  {
  }
}

=== FILE: collections.dfy ===
/** Array operations the screens use: de-duplication (`new Set(xs)` read back
    in insertion order) and `Array.prototype.sort` with a numeric comparator. */
module Collections {

  /** `x` occurs in `s` and nowhere earlier than index `i`. */
  predicate FirstAt<T(==)>(s: seq<T>, i: int, x: T) {
    0 <= i < |s| && s[i] == x && x !in s[..i]
  }

  /** No element occurs twice. */
  predicate NoDuplicates<T(==)>(s: seq<T>) {
    forall i, j :: 0 <= i < j < |s| ==> s[i] != s[j]
  }

  /** `Array.from(new Set(s))`: each element of `s` once, in the order of its
      first occurrence. */
  function Distinct<T(==)>(s: seq<T>): (r: seq<T>)
    ensures forall i :: 0 <= i < |s| ==> s[i] in r
    ensures forall i :: 0 <= i < |r| ==> r[i] in s
    ensures NoDuplicates(r)
    ensures |r| <= |s|
    decreases |s|
  {
    if s == [] then []
    else
      var d := Distinct(s[..|s| - 1]);
      if s[|s| - 1] in d then d else d + [s[|s| - 1]]
  }

  /** The de-duplicated list keeps first-occurrence order: an element listed
      earlier first occurs earlier in the input. */
  lemma {:induction false} DistinctFirstOccurrenceOrder<T>(s: seq<T>, i: nat, j: nat, p: nat, q: nat)
    requires i < j < |Distinct(s)|
    requires FirstAt(s, p, Distinct(s)[i]) && FirstAt(s, q, Distinct(s)[j])
    ensures p < q
    decreases |s|
  {
    var init := s[..|s| - 1];
    var d := Distinct(init);
    var last := s[|s| - 1];
    if last in d {
      assert Distinct(s) == d;
      FirstInPrefix(s, p, d[i]);
      FirstInPrefix(s, q, d[j]);
      DistinctFirstOccurrenceOrder(init, i, j, p, q);
    } else {
      assert Distinct(s) == d + [last];
      if j < |d| {
        FirstInPrefix(s, p, d[i]);
        FirstInPrefix(s, q, d[j]);
        DistinctFirstOccurrenceOrder(init, i, j, p, q);
      } else {
        assert last !in init;
        FirstInPrefix(s, p, d[i]);
        assert q == |s| - 1;
      }
    }
  }

  /** A first occurrence of an element of the prefix lies in the prefix. */
  lemma FirstInPrefix<T>(s: seq<T>, p: nat, x: T)
    requires |s| > 0 && x in s[..|s| - 1] && FirstAt(s, p, x)
    ensures p < |s| - 1 && FirstAt(s[..|s| - 1], p, x)
  {
    var init := s[..|s| - 1];
    var k :| 0 <= k < |init| && init[k] == x;
    assert s[k] == x;
    assert p <= k;
    assert init[..p] == s[..p];
  }

  /** `s` is ordered by `key`, largest first. */
  predicate SortedDesc<T>(s: seq<T>, key: T -> real) {
    forall i, j :: 0 <= i < j < |s| ==> key(s[i]) >= key(s[j])
  }

  /** Puts `x` before the first element whose key does not exceed its own. */
  function InsertDesc<T>(x: T, s: seq<T>, key: T -> real): (r: seq<T>)
    requires SortedDesc(s, key)
    ensures SortedDesc(r, key)
    ensures multiset(r) == multiset(s) + multiset{x}
    ensures |r| == |s| + 1
    ensures r[0] == x || (s != [] && r[0] == s[0])
    decreases |s|
  {
    if s == [] || key(s[0]) <= key(x) then [x] + s
    else
      var tail := InsertDesc(x, s[1..], key);
      assert s == [s[0]] + s[1..];
      assert key(s[0]) >= key(tail[0]);
      [s[0]] + tail
  }

  /** `s.sort((a, b) => key(b) - key(a))`: the same elements, largest key first. */
  function SortDesc<T>(s: seq<T>, key: T -> real): (r: seq<T>)
    ensures SortedDesc(r, key)
    ensures multiset(r) == multiset(s)
    ensures |r| == |s|
    decreases |s|
  {
    if s == [] then []
    else
      assert s == [s[0]] + s[1..];
      InsertDesc(s[0], SortDesc(s[1..], key), key)
  }

  /** Sorting neither adds nor drops an element. */
  lemma SortDescMembers<T>(s: seq<T>, key: T -> real, x: T)
    ensures x in SortDesc(s, key) <==> x in s
  {
    assert x in SortDesc(s, key) <==> x in multiset(SortDesc(s, key));
    assert x in s <==> x in multiset(s);
  }

  /** The sum of `key` over a list. */
  function SumBy<T>(s: seq<T>, key: T -> real): real
    decreases |s|
  {
    if s == [] then 0.0 else key(s[0]) + SumBy(s[1..], key)
  }

  /** Inserting adds the inserted element's key to the sum. */
  lemma {:induction false} SumByInsert<T>(x: T, s: seq<T>, key: T -> real)
    requires SortedDesc(s, key)
    ensures SumBy(InsertDesc(x, s, key), key) == key(x) + SumBy(s, key)
    decreases |s|
  {
    if !(s == [] || key(s[0]) <= key(x)) {
      SumByInsert(x, s[1..], key);
      var r := InsertDesc(x, s, key);
      assert r[1..] == InsertDesc(x, s[1..], key);
    }
  }

  /** Sorting does not change the sum. */
  lemma {:induction false} SumBySort<T>(s: seq<T>, key: T -> real)
    ensures SumBy(SortDesc(s, key), key) == SumBy(s, key)
    decreases |s|
  {
    if s != [] {
      SumBySort(s[1..], key);
      SumByInsert(s[0], SortDesc(s[1..], key), key);
    }
  }
}

=== FILE: common.dfy ===
/** Failure-carrying wrappers used across the model. */
module Common {

  /** A value that may be absent: a JavaScript `null` / `undefined` field. */
  datatype Option<+T> = None | Some(value: T) {

    /** The wrapped value, or `default` when absent. */
    function GetOr(default: T): T {
      match this
      case Some(v) => v
      case None => default
    }
  }

  /** The outcome of an operation that either yields a value or throws an error. */
  datatype Result<+R, +E> = Success(value: R) | Failure(error: E)

}

=== FILE: expression.dfy ===
/** `evaluateExpression`: strip every character outside `0-9 + - * / . ( )`,
    give back the empty string when nothing is left, otherwise run the rest
    as a JavaScript `return` expression and, when that throws, hand back the
    original input. The runtime evaluation is modelled by a lexer that follows
    the JavaScript lexical grammar on this alphabet and a recursive-descent
    parser with the usual precedence, evaluated over `JsNumber.Number`. */
module Expression {
  import opened Common
  import opened Text
  import opened JsNumber

  // ---------------------------------------------------------------------
  // Sanitising
  // ---------------------------------------------------------------------

  /** The characters the sanitising pattern `[^0-9+\-*\/.()]` keeps. */
  predicate Allowed(c: char) {
    IsDigit(c) || c == '+' || c == '-' || c == '*' || c == '/' || c == '.' || c == '(' || c == ')'
  }

  /** `expression.replace(/[^0-9+\-*\/.()]/g, '')` */
  function Sanitize(s: string): (r: string)
    ensures |r| <= |s|
    ensures forall i :: 0 <= i < |r| ==> Allowed(r[i])
    decreases |s|
  {
    if s == [] then [] else (if Allowed(s[0]) then [s[0]] else []) + Sanitize(s[1..])
  }

  /** Sanitising works piecewise: it distributes over concatenation. With the
      one-character behaviour (keep exactly the allowed characters) this pins
      it down as the order-preserving filter. */
  lemma {:induction false} SanitizeAppend(a: string, b: string)
    ensures Sanitize(a + b) == Sanitize(a) + Sanitize(b)
    decreases |a|
  {
    if a == [] {
      assert a + b == b;
    } else {
      assert (a + b)[0] == a[0];
      assert (a + b)[1..] == a[1..] + b;
      SanitizeAppend(a[1..], b);
    }
  }

  /** A single character survives exactly when it is allowed. */
  lemma SanitizeChar(c: char)
    ensures Sanitize([c]) == if Allowed(c) then [c] else []
  {
    assert [c][1..] == [];
  }

  /** Strings made only of allowed characters pass through unchanged. */
  lemma {:induction false} SanitizeAllowed(s: string)
    requires forall i :: 0 <= i < |s| ==> Allowed(s[i])
    ensures Sanitize(s) == s
    decreases |s|
  {
    if s != [] {
      SanitizeAllowed(s[1..]);
    }
  }

  /** Sanitising twice is sanitising once. */
  lemma SanitizeIdempotent(s: string)
    ensures Sanitize(Sanitize(s)) == Sanitize(s)
  {
    SanitizeAllowed(Sanitize(s));
  }

  /** A character is in the result exactly when it is in the input and allowed. */
  lemma {:induction false} SanitizeMembers(s: string, c: char)
    ensures c in Sanitize(s) <==> c in s && Allowed(c)
    decreases |s|
  {
    if s != [] {
      SanitizeMembers(s[1..], c);
      assert s == [s[0]] + s[1..];
    }
  }

  // ---------------------------------------------------------------------
  // Lexing
  // ---------------------------------------------------------------------

  datatype Token = Num(value: real) | Plus | Minus | Star | Slash | LParen | RParen

  predicate IsOctalDigit(c: char) {
    '0' <= c <= '7'
  }

  /** The first position at or after `j` that does not hold a decimal digit. */
  function DigitsEnd(s: string, j: nat): (e: nat)
    requires j <= |s|
    ensures j <= e <= |s|
    ensures e == j <==> !(j < |s| && IsDigit(s[j]))
    ensures e < |s| ==> !IsDigit(s[e])
    decreases |s| - j
  {
    if j < |s| && IsDigit(s[j]) then DigitsEnd(s, j + 1) else j
  }

  /** `s[j..e]` holds only octal digits. */
  predicate OctalRun(s: string, j: nat, e: nat)
    requires j <= e <= |s|
    decreases e - j
  {
    j == e || (IsOctalDigit(s[j]) && OctalRun(s, j + 1, e))
  }

  /** The value of the digits `s[j..e]` read in base `b`. */
  function ValueAt(s: string, j: nat, e: nat, b: nat): int
    requires j <= e <= |s|
    decreases e - j
  {
    if j == e then 0 else b * ValueAt(s, j, e - 1, b) + (s[e - 1] as int - '0' as int)
  }

  /** The NumericLiteral starting at position `i`, if any: its value and the
      position after it. A LegacyOctalIntegerLiteral such as `010` (a leading
      zero followed only by octal digits, which sloppy-mode code reads in
      base 8) ends at its last digit; otherwise a decimal literal
      `digits[.digits]` or `.digits` is read. No exponent is possible, since
      the alphabet has no `e`. */
  function ScanNumeric(s: string, i: nat): (r: Option<(real, nat)>)
    requires i <= |s|
    ensures r.Some? ==> i < r.value.1 <= |s|
    ensures r.None? <==> !(i < |s| && (IsDigit(s[i]) || (s[i] == '.' && i + 1 < |s| && IsDigit(s[i + 1]))))
  {
    var e := DigitsEnd(s, i);
    if e - i >= 2 && s[i] == '0' && OctalRun(s, i, e) then Some((ValueAt(s, i, e, 8) as real, e))
    else if e < |s| && s[e] == '.' then
      var f := DigitsEnd(s, e + 1);
      if e == i && f == e + 1 then None
      else Some((ValueAt(s, i, e, 10) as real + ValueAt(s, e + 1, f, 10) as real / Pow10(f - e - 1), f))
    else if e == i then None
    else Some((ValueAt(s, i, e, 10) as real, e))
  }

  /** The position just after the first `*` `/` at or after `j`, if any:
      where a block comment opened before `j` ends. */
  function CommentEnd(s: string, j: nat): (r: Option<nat>)
    requires j <= |s|
    ensures r.Some? ==> j + 2 <= r.value <= |s|
    decreases |s| - j
  {
    if j + 2 > |s| then None
    else if s[j] == '*' && s[j + 1] == '/' then Some(j + 2)
    else CommentEnd(s, j + 1)
  }

  function Cons(t: Token, rest: Option<seq<Token>>): Option<seq<Token>> {
    match rest
    case None => None
    case Some(ts) => Some([t] + ts)
  }

  predicate IsPunctuator(c: char) {
    c == '+' || c == '-' || c == '*' || c == '/' || c == '(' || c == ')'
  }

  /** The token for an operator or parenthesis character. */
  function Punctuator(c: char): Token
    requires IsPunctuator(c)
  {
    match c
    case '+' => Plus
    case '-' => Minus
    case '*' => Star
    case '/' => Slash
    case '(' => LParen
    case ')' => RParen
  }

  /** `s[i]` and `s[i + 1]` are `a` and `b`. */
  predicate PairAt(s: string, i: nat, a: char, b: char) {
    i + 1 < |s| && s[i] == a && s[i + 1] == b
  }

  /** The JavaScript tokenizer on the sanitised alphabet, or None when it
      raises a SyntaxError. `//` comments out the rest, `/* ... */` is
      skipped; `++` and `--` are increment/decrement tokens, which never have
      a valid operand here, so they are errors; the exponent operator `**`
      is not modelled and counts as an error. */
  function Lex(s: string): Option<seq<Token>> {
    LexFrom(s, 0)
  }

  /** The tokens of `s` from position `i` on. */
  function LexFrom(s: string, i: nat): Option<seq<Token>>
    requires i <= |s|
    decreases |s| - i, 1
  {
    if i == |s| then Some([])
    else if PairAt(s, i, '/', '/') then Some([])
    else if PairAt(s, i, '/', '*') then
      match CommentEnd(s, i + 2)
      case None => None
      case Some(k) => LexFrom(s, k)
    else if PairAt(s, i, '+', '+') || PairAt(s, i, '-', '-') || PairAt(s, i, '*', '*') then None
    else if IsPunctuator(s[i]) then Cons(Punctuator(s[i]), LexFrom(s, i + 1))
    else LexNumberAt(s, i)
  }

  /** A NumericLiteral at position `i` and the tokens after it. */
  function LexNumberAt(s: string, i: nat): Option<seq<Token>>
    requires i < |s|
    decreases |s| - i, 0
  {
    match ScanNumeric(s, i)
    case None => None
    case Some((v, e)) => Cons(Num(v), LexFrom(s, e))
  }

  // ---------------------------------------------------------------------
  // Parsing
  // ---------------------------------------------------------------------

  datatype Op = AddOp | SubOp | MulOp | DivOp

  datatype Expr = Lit(v: real) | Negate(e: Expr) | UnaryPlus(e: Expr) | Bin(op: Op, l: Expr, r: Expr)

  /** A parse of the tokens from some position up to `next`. */
  datatype Parse = Parse(e: Expr, next: nat)

  /** A number or `)`: the tokens an expression can end with. */
  predicate ClosesOperand(t: Token) {
    t.Num? || t == RParen
  }

  /** The parse consumed something and stopped right after an operand. */
  predicate EndsAtOperand(ts: seq<Token>, i: nat, r: Option<Parse>) {
    r.Some? ==> i < r.value.next <= |ts| && ClosesOperand(ts[r.value.next - 1])
  }

  /** A tail parse stops at or after `i`, and after an operand if it moved. */
  predicate TailEnds(ts: seq<Token>, i: nat, r: Option<Parse>) {
    r.Some? ==> i <= r.value.next <= |ts| && (i < r.value.next ==> ClosesOperand(ts[r.value.next - 1]))
  }

  /** Expression := Term (('+' | '-') Term)*, from position `i`. */
  function ParseExpr(ts: seq<Token>, i: nat): (r: Option<Parse>)
    requires i <= |ts|
    ensures EndsAtOperand(ts, i, r)
    decreases |ts| - i, 3
  {
    match ParseTerm(ts, i)
    case None => None
    case Some(Parse(e, j)) => ParseExprTail(e, ts, j)
  }

  function ParseExprTail(lhs: Expr, ts: seq<Token>, i: nat): (r: Option<Parse>)
    requires i <= |ts|
    ensures TailEnds(ts, i, r)
    decreases |ts| - i, 3
  {
    if i < |ts| && (ts[i] == Plus || ts[i] == Minus) then
      match ParseTerm(ts, i + 1)
      case None => None
      case Some(Parse(e, j)) => ParseExprTail(Bin(if ts[i] == Plus then AddOp else SubOp, lhs, e), ts, j)
    else Some(Parse(lhs, i))
  }

  /** Term := Unary (('*' | '/') Unary)* */
  function ParseTerm(ts: seq<Token>, i: nat): (r: Option<Parse>)
    requires i <= |ts|
    ensures EndsAtOperand(ts, i, r)
    decreases |ts| - i, 2
  {
    match ParseUnary(ts, i)
    case None => None
    case Some(Parse(e, j)) => ParseTermTail(e, ts, j)
  }

  function ParseTermTail(lhs: Expr, ts: seq<Token>, i: nat): (r: Option<Parse>)
    requires i <= |ts|
    ensures TailEnds(ts, i, r)
    decreases |ts| - i, 2
  {
    if i < |ts| && (ts[i] == Star || ts[i] == Slash) then
      match ParseUnary(ts, i + 1)
      case None => None
      case Some(Parse(e, j)) => ParseTermTail(Bin(if ts[i] == Star then MulOp else DivOp, lhs, e), ts, j)
    else Some(Parse(lhs, i))
  }

  /** Unary := ('+' | '-') Unary | Primary */
  function ParseUnary(ts: seq<Token>, i: nat): (r: Option<Parse>)
    requires i <= |ts|
    ensures EndsAtOperand(ts, i, r)
    decreases |ts| - i, 1
  {
    if i < |ts| && ts[i] == Plus then
      match ParseUnary(ts, i + 1)
      case None => None
      case Some(Parse(e, j)) => Some(Parse(UnaryPlus(e), j))
    else if i < |ts| && ts[i] == Minus then
      match ParseUnary(ts, i + 1)
      case None => None
      case Some(Parse(e, j)) => Some(Parse(Negate(e), j))
    else ParsePrimary(ts, i)
  }

  /** Primary := Number | '(' Expression ')' */
  function ParsePrimary(ts: seq<Token>, i: nat): (r: Option<Parse>)
    requires i <= |ts|
    ensures EndsAtOperand(ts, i, r)
    decreases |ts| - i, 0
  {
    if i == |ts| then None
    else match ts[i]
      case Num(v) => Some(Parse(Lit(v), i + 1))
      case LParen =>
        (match ParseExpr(ts, i + 1)
         case Some(Parse(e, j)) =>
           if j < |ts| && ts[j] == RParen then Some(Parse(e, j + 1)) else None
         case None => None)
      case _ => None
  }

  // ---------------------------------------------------------------------
  // Evaluation
  // ---------------------------------------------------------------------

  /** A binary operator on JavaScript numbers. */
  function Apply(op: Op, a: Number, b: Number): Number {
    match op
    case AddOp => Add(a, b)
    case SubOp => Sub(a, b)
    case MulOp => Mul(a, b)
    case DivOp => Div(a, b)
  }

  function Eval(e: Expr): Number {
    match e
    case Lit(v) => Finite(v)
    case Negate(x) => Neg(Eval(x))
    case UnaryPlus(x) => Eval(x)
    case Bin(op, l, r) => Apply(op, Eval(l), Eval(r))
  }

  /** What `evaluateExpression` returns: `''`, `String(value)`, the string
      `"undefined"` (the code was only a comment), or the original input. */
  datatype Outcome = Blank | Value(n: Number) | Undefined | Passthrough(original: string)

  /** `evaluateExpression(expression)` */
  function EvaluateExpression(s: string): (r: Outcome)
    ensures r.Blank? <==> Sanitize(s) == []
    ensures r.Passthrough? ==> r.original == s
    ensures r.Passthrough? <==> Sanitize(s) != [] && !Evaluates(Sanitize(s))
  {
    var t := Sanitize(s);
    if t == [] then Blank
    else match Lex(t)
      case None => Passthrough(s)
      case Some(ts) =>
        if ts == [] then Undefined
        else match ParseExpr(ts, 0)
          case Some(Parse(e, j)) => if j == |ts| then Value(Eval(e)) else Passthrough(s)
          case None => Passthrough(s)
  }

  /** The sanitised code runs without throwing: it lexes, and it is either
      only comments or one complete expression. */
  predicate Evaluates(t: string) {
    && Lex(t).Some?
    && (Lex(t).value == [] || (ParseExpr(Lex(t).value, 0).Some? && ParseExpr(Lex(t).value, 0).value.next == |Lex(t).value|))
  }

  /** Only the sanitised text matters; a failure still hands back the
      original input. */
  lemma EvaluateSanitized(s: string)
    ensures EvaluateExpression(s)
      == match EvaluateExpression(Sanitize(s))
         case Passthrough(_) => Passthrough(s)
         case o => o
  {
    SanitizeIdempotent(s);
  }
}

=== FILE: finance.dfy ===
/** The finance utilities behind the reports: income/expense totals, the
    weekly expense histogram and currency formatting. (`evaluateExpression`,
    the fourth utility, is the `Expression` module.) */
module Finance {
  import opened Common
  import opened Text
  import opened Ledger
  import JsNumber

  // ---------------------------------------------------------------------------
  // calculateTotals
  // ---------------------------------------------------------------------------

  /** `incomeCategories.includes(t.category)`: a row without a category is
      never income. */
  predicate IsIncomeRow(t: Transaction, incomeCategories: seq<string>) {
    t.category.Some? && t.category.value in incomeCategories
  }

  /** The income test as a filter. */
  function IncomeTest(incomeCategories: seq<string>): Transaction -> bool {
    t => IsIncomeRow(t, incomeCategories)
  }

  /** The expense test: every row that is not income. */
  function ExpenseTest(incomeCategories: seq<string>): Transaction -> bool {
    t => !IsIncomeRow(t, incomeCategories)
  }

  datatype Totals = Totals(totalIncome: real, totalExpense: real, netBalance: real)

  /** `calculateTotals(transactions, incomeCategories)` */
  function CalculateTotals(ts: seq<Transaction>, incomeCategories: seq<string>): (r: Totals)
    ensures r.totalIncome + r.totalExpense == Total(ts)
    ensures r.netBalance == r.totalIncome - r.totalExpense
    ensures ts == [] ==> r == Totals(0.0, 0.0, 0.0)
  {
    var income := Total(Where(ts, IncomeTest(incomeCategories)));
    var expense := Total(Where(ts, ExpenseTest(incomeCategories)));
    TotalPartition(ts, IncomeTest(incomeCategories), ExpenseTest(incomeCategories));
    Totals(income, expense, income - expense)
  }

  /** The income total counts exactly the rows in an income category: adding
      such a row raises it by the row's amount and leaves the expense total
      alone, and adding any other row does the opposite. */
  lemma TotalsOfOneMore(t: Transaction, ts: seq<Transaction>, incomeCategories: seq<string>)
    ensures var before := CalculateTotals(ts, incomeCategories);
      var after := CalculateTotals([t] + ts, incomeCategories);
      if IsIncomeRow(t, incomeCategories) then
        after.totalIncome == before.totalIncome + t.amount && after.totalExpense == before.totalExpense
      else
        after.totalExpense == before.totalExpense + t.amount && after.totalIncome == before.totalIncome
  {
    assert ([t] + ts)[0] == t && ([t] + ts)[1..] == ts;
  }

  // ---------------------------------------------------------------------------
  // getWeeklyData
  // ---------------------------------------------------------------------------

  /** The day labels, Sunday first. */
  const DayLabels: seq<string> := ["Di", "H\U{00EB}", "Ma", "M\U{00EB}", "En", "Pr", "Sh"]

  /** An expense row dated on weekday `d`. */
  predicate OnDay(t: Transaction, incomeCategories: seq<string>, d: Weekday) {
    !IsIncomeRow(t, incomeCategories) && t.date.Some? && t.date.value.weekday == d
  }

  function DayTest(incomeCategories: seq<string>, d: Weekday): Transaction -> bool {
    t => OnDay(t, incomeCategories, d)
  }

  /** The seven buckets after `expenses.forEach(t => grouped[getDay] += amount)`.
      A row whose date does not parse lands on `grouped[NaN]`, which is not a
      bucket. */
  function Grouped(ts: seq<Transaction>, incomeCategories: seq<string>): (g: seq<real>)
    ensures |g| == 7
    decreases |ts|
  {
    if ts == [] then [0.0, 0.0, 0.0, 0.0, 0.0, 0.0, 0.0]
    else
      var g := Grouped(ts[1..], incomeCategories);
      var t := ts[0];
      if !IsIncomeRow(t, incomeCategories) && t.date.Some? then
        var d := t.date.value.weekday;
        g[d := t.amount + g[d]]
      else g
  }

  /** Each bucket holds the total of the expenses dated on its weekday. */
  lemma {:induction false} GroupedDay(ts: seq<Transaction>, incomeCategories: seq<string>, d: Weekday)
    ensures Grouped(ts, incomeCategories)[d] == Total(Where(ts, DayTest(incomeCategories, d)))
    decreases |ts|
  {
    if ts != [] {
      GroupedDay(ts[1..], incomeCategories, d);
      TotalStep(ts, DayTest(incomeCategories, d));
    }
  }

  /** One bar of the weekly chart: its `label` (here `name`) and `value`. */
  datatype Day = Day(name: string, value: real)

  /** `getWeeklyData(transactions, incomeCategories)`: seven bars, Sunday
      first, each the sum of that weekday's expenses. */
  function WeeklyData(ts: seq<Transaction>, incomeCategories: seq<string>): (r: seq<Day>)
    ensures |r| == 7
    ensures forall d: Weekday :: r[d].name == DayLabels[d]
    ensures forall d: Weekday :: r[d].value == Total(Where(ts, DayTest(incomeCategories, d)))
  {
    var g := Grouped(ts, incomeCategories);
    assert forall d: Weekday :: g[d] == Total(Where(ts, DayTest(incomeCategories, d))) by {
      forall d: Weekday
        ensures g[d] == Total(Where(ts, DayTest(incomeCategories, d)))
      {
        GroupedDay(ts, incomeCategories, d);
      }
    }
    seq(7, i requires 0 <= i < 7 => Day(DayLabels[i], g[i]))
  }

  /** The sum of the seven buckets. */
  function Week(g: seq<real>): real
    requires |g| == 7
  {
    g[0] + g[1] + g[2] + g[3] + g[4] + g[5] + g[6]
  }

  /** When every date parses, the week's bars add up to the expense total. */
  lemma WeekIsExpenseTotal(ts: seq<Transaction>, incomeCategories: seq<string>)
    requires forall i :: 0 <= i < |ts| ==> ts[i].date.Some?
    ensures Week(Grouped(ts, incomeCategories)) == CalculateTotals(ts, incomeCategories).totalExpense
  {
    WeekIsExpenses(ts, incomeCategories);
  }

  lemma {:induction false} WeekIsExpenses(ts: seq<Transaction>, incomeCategories: seq<string>)
    requires forall i :: 0 <= i < |ts| ==> ts[i].date.Some?
    ensures Week(Grouped(ts, incomeCategories)) == Total(Where(ts, ExpenseTest(incomeCategories)))
    decreases |ts|
  {
    if ts != [] {
      WeekIsExpenses(ts[1..], incomeCategories);
      TotalStep(ts, ExpenseTest(incomeCategories));
      if !IsIncomeRow(ts[0], incomeCategories) {
        WeekAdd(Grouped(ts[1..], incomeCategories), ts[0].date.value.weekday, ts[0].amount);
      }
    }
  }

  /** Adding to one bucket adds to the week. */
  lemma WeekAdd(g: seq<real>, d: Weekday, x: real)
    requires |g| == 7
    ensures Week(g[d := x + g[d]]) == x + Week(g)
  {
  }

  /** An income row changes no bar. */
  lemma IncomeRowIgnored(t: Transaction, ts: seq<Transaction>, incomeCategories: seq<string>)
    requires IsIncomeRow(t, incomeCategories)
    ensures WeeklyData([t] + ts, incomeCategories) == WeeklyData(ts, incomeCategories)
  {
    assert ([t] + ts)[1..] == ts;
  }

  // ---------------------------------------------------------------------------
  // formatCurrency
  // ---------------------------------------------------------------------------

  function DigitChar(n: nat): (c: char)
    requires n < 10
    ensures IsDigit(c)
  {
    ('0' as int + n) as char
  }

  /** `n` in exactly `width` digits, with leading zeros. */
  function Padded(n: nat, width: nat): (r: string)
    ensures |r| == width
    ensures forall i :: 0 <= i < |r| ==> IsDigit(r[i])
    decreases width
  {
    if width == 0 then [] else Padded(n / 10, width - 1) + [DigitChar(n % 10)]
  }

  /** Digit groups of three separated by commas: one to three leading digits,
      then `,ddd` groups. */
  predicate WellGrouped(s: string)
    decreases |s|
  {
    if |s| <= 3 then
      |s| >= 1 && forall i :: 0 <= i < |s| ==> IsDigit(s[i])
    else
      && |s| >= 5
      && s[|s| - 4] == ','
      && IsDigit(s[|s| - 3]) && IsDigit(s[|s| - 2]) && IsDigit(s[|s| - 1])
      && WellGrouped(s[..|s| - 4])
  }

  /** The integer part with thousands separators, as `toLocaleString('en-US')`
      writes it. */
  function Grouping(n: nat): (r: string)
    ensures WellGrouped(r)
    ensures r[0] != '0' || n == 0
    ensures n == 0 ==> r == "0"
    decreases n
  {
    if n < 1000 then
      var r := NatToString(n);
      assert |r| <= 3 by { NatToStringShort(n); }
      r
    else
      var head := Grouping(n / 1000);
      var r := head + "," + Padded(n % 1000, 3);
      assert r[..|r| - 4] == head;
      r
  }

  lemma NatToStringShort(n: nat)
    requires n < 1000
    ensures |NatToString(n)| <= 3
  {
    if n >= 10 {
      NatToStringShort(n / 10);
    }
  }

  /** `Number(amount).toLocaleString('en-US', { minimumFractionDigits: 2,
      maximumFractionDigits: 2 })` for a non-negative amount of `cents`
      hundredths. */
  function FormatCents(cents: nat): (r: string)
    ensures |r| >= 4 && r[|r| - 3] == '.' && IsDigit(r[|r| - 2]) && IsDigit(r[|r| - 1])
    ensures WellGrouped(r[..|r| - 3])
    ensures r[0] == '0' ==> cents < 100
    ensures cents < 100 ==> r[..|r| - 3] == "0"
  {
    var whole := Grouping(cents / 100);
    var r := whole + "." + Padded(cents % 100, 2);
    assert r[..|r| - 3] == whole;
    r
  }

  /** The digits of a formatted amount, separators dropped. */
  function DigitsOnly(s: string): (r: string)
    ensures forall i :: 0 <= i < |r| ==> IsDigit(r[i])
    decreases |s|
  {
    if s == [] then []
    else DigitsOnly(s[..|s| - 1]) + (if IsDigit(s[|s| - 1]) then [s[|s| - 1]] else [])
  }

  /** The number a string of decimal digits spells, separators ignored. */
  function Spelled(s: string): nat {
    DigitsValue(DigitsOnly(s))
  }

  /** Reading the digits of the formatted amount gives back the number of
      cents: formatting loses nothing. */
  lemma FormatCentsReadsBack(cents: nat)
    ensures Spelled(FormatCents(cents)) == cents
  {
    var whole := Grouping(cents / 100);
    var frac := Padded(cents % 100, 2);
    GroupingReadsBack(cents / 100);
    FormatCentsDigits(cents);
    assert Power10(2) == 100;
    PaddedValue(cents % 100, 2);
    DigitsValueAppend(DigitsOnly(whole), frac);
  }

  /** The digits of a formatted amount: the integer part's, then the cents. */
  lemma FormatCentsDigits(cents: nat)
    ensures DigitsOnly(FormatCents(cents)) == DigitsOnly(Grouping(cents / 100)) + Padded(cents % 100, 2)
  {
    var whole := Grouping(cents / 100);
    var frac := Padded(cents % 100, 2);
    DigitsOnlyAppend(whole + ".", frac);
    DigitsOnlyAppend(whole, ".");
    assert DigitsOnly(".") == [];
    AllDigitsKept(frac);
  }

  /** The grouped integer part spells the integer. */
  lemma {:induction false} GroupingReadsBack(n: nat)
    ensures Spelled(Grouping(n)) == n
    decreases n
  {
    if n < 1000 {
      NatToStringDigits(n);
      DigitsValueNatToString(n);
    } else {
      var head := Grouping(n / 1000);
      var tail := Padded(n % 1000, 3);
      GroupingReadsBack(n / 1000);
      GroupingDigits(n);
      assert Power10(3) == 1000;
      PaddedValue(n % 1000, 3);
      DigitsValueAppend(DigitsOnly(head), tail);
    }
  }

  /** The digits of a grouped integer of four or more digits: the head
      group's, then the last three. */
  lemma GroupingDigits(n: nat)
    requires n >= 1000
    ensures DigitsOnly(Grouping(n)) == DigitsOnly(Grouping(n / 1000)) + Padded(n % 1000, 3)
  {
    var head := Grouping(n / 1000);
    var tail := Padded(n % 1000, 3);
    DigitsOnlyAppend(head + ",", tail);
    DigitsOnlyAppend(head, ",");
    assert DigitsOnly(",") == [];
    AllDigitsKept(tail);
  }

  /** A string of digits is its own digit content. */
  lemma {:induction false} NatToStringDigits(n: nat)
    ensures DigitsOnly(NatToString(n)) == NatToString(n)
  {
    AllDigitsKept(NatToString(n));
  }

  lemma {:induction false} AllDigitsKept(s: string)
    requires forall i :: 0 <= i < |s| ==> IsDigit(s[i])
    ensures DigitsOnly(s) == s
    decreases |s|
  {
    if s != [] {
      AllDigitsKept(s[..|s| - 1]);
    }
  }

  /** A padded number that fits its width spells the number. */
  lemma {:induction false} PaddedValue(n: nat, width: nat)
    requires n < Power10(width)
    ensures DigitsValue(Padded(n, width)) == n
    decreases width
  {
    if width > 0 {
      var r := Padded(n, width);
      PaddedValue(n / 10, width - 1);
      assert r[..|r| - 1] == Padded(n / 10, width - 1);
    }
  }

  function Power10(k: nat): (p: nat)
    ensures p >= 1
  {
    if k == 0 then 1 else 10 * Power10(k - 1)
  }

  /** The digits of a concatenation. */
  lemma {:induction false} DigitsOnlyAppend(a: string, b: string)
    ensures DigitsOnly(a + b) == DigitsOnly(a) + DigitsOnly(b)
    decreases |b|
  {
    if b == [] {
      assert a + b == a;
    } else {
      var b' := b[..|b| - 1];
      DigitsOnlyAppend(a, b');
      assert (a + b)[..|a + b| - 1] == a + b';
    }
  }

  /** Scaling a product by ten scales its second factor. */
  lemma TenTimes(x: int, p: int)
    ensures 10 * (x * p) == x * (10 * p)
  {
  }

  /** The value of digits written one after the other. */
  lemma {:induction false} DigitsValueAppend(a: string, b: string)
    requires forall i :: 0 <= i < |a| ==> IsDigit(a[i])
    requires forall i :: 0 <= i < |b| ==> IsDigit(b[i])
    ensures DigitsValue(a + b) == DigitsValue(a) * Power10(|b|) + DigitsValue(b)
    decreases |b|
  {
    if b == [] {
      assert a + b == a;
    } else {
      var b' := b[..|b| - 1];
      DigitsValueAppend(a, b');
      assert (a + b)[..|a + b| - 1] == a + b';
      assert (a + b)[|a + b| - 1] == b[|b| - 1];
      var x, p, c := DigitsValue(a), Power10(|b'|), b[|b| - 1] as int - '0' as int;
      assert DigitsValue(a + b) == 10 * DigitsValue(a + b') + c;
      assert DigitsValue(b) == 10 * DigitsValue(b') + c;
      assert Power10(|b|) == 10 * p;
      TenTimes(x, p);
    }
  }

  /** `formatCurrency("1000")` coerces the string with `Number` first, so it
      formats the same amount as `formatCurrency(1000)`. */
  lemma StringAmountCoerced(s: string)
    requires s == "1000"
    ensures JsNumber.StringToNumber(s) == JsNumber.Finite(1000.0)
  {
    assert DigitsValue(s[..1]) == 1;
    assert s[..3][..2] == s[..2] && s[..2][..1] == s[..1] && s[..4] == s;
    assert DigitsValue(s[..2]) == 10;
    assert DigitsValue(s[..3]) == 100;
    assert DigitsValue(s) == 1000;
    JsNumber.DigitStringValue(s);
  }

  /** 1000 is written "1,000.00". */
  lemma ThousandExample()
    ensures FormatCents(100000) == "1,000.00"
  {
  }

  /** 10.5 is written "10.50". */
  lemma TenAndAHalfExample()
    ensures FormatCents(1050) == "10.50"
  {
  }
}

=== FILE: jsnumber.dfy ===
/** JavaScript numbers as exact extended reals: a finite value, either
    infinity, or NaN. Binary64 rounding and the sign of zero are not modelled
    (a zero is always +0). Also `parseFloat` and `Number(string)`. */
module JsNumber {
  import opened Text

  datatype Number = Finite(r: real) | PosInf | NegInf | NaN {

    /** `x < 0` (false for NaN). */
    predicate IsNegative() {
      (Finite? && r < 0.0) || NegInf?
    }

    /** `isNaN(x)` */
    predicate IsNaN() {
      NaN?
    }

    predicate IsInfinite() {
      PosInf? || NegInf?
    }
  }

  /** Unary `-x`. */
  function Neg(a: Number): (n: Number)
    ensures a.NaN? <==> n.NaN?
    ensures a.PosInf? <==> n.NegInf?
    ensures a.Finite? ==> n == Finite(-a.r)
  {
    match a
    case Finite(x) => Finite(-x)
    case PosInf => NegInf
    case NegInf => PosInf
    case NaN => NaN
  }

  /** `a + b` */
  function Add(a: Number, b: Number): (n: Number)
    ensures n.NaN? <==> a.NaN? || b.NaN? || (a.PosInf? && b.NegInf?) || (a.NegInf? && b.PosInf?)
    ensures a.Finite? && b.Finite? ==> n == Finite(a.r + b.r)
    ensures n.PosInf? <==> (a.PosInf? && !b.NaN? && !b.NegInf?) || (b.PosInf? && !a.NaN? && !a.NegInf?)
  {
    match (a, b)
    case (NaN, _) => NaN
    case (_, NaN) => NaN
    case (PosInf, NegInf) => NaN
    case (NegInf, PosInf) => NaN
    case (PosInf, _) => PosInf
    case (_, PosInf) => PosInf
    case (NegInf, _) => NegInf
    case (_, NegInf) => NegInf
    case (Finite(x), Finite(y)) => Finite(x + y)
  }

  /** `a - b` */
  function Sub(a: Number, b: Number): Number {
    Add(a, Neg(b))
  }

  /** The sign of a non-NaN number: -1, 0 or 1. */
  function Sign(a: Number): int
    requires !a.NaN?
  {
    match a
    case PosInf => 1
    case NegInf => -1
    case Finite(x) => if x > 0.0 then 1 else if x < 0.0 then -1 else 0
  }

  /** The infinity whose sign is `s`. */
  function InfinityOfSign(s: int): Number {
    if s < 0 then NegInf else PosInf
  }

  /** `a * b` */
  function Mul(a: Number, b: Number): (n: Number)
    ensures a.Finite? && b.Finite? ==> n == Finite(a.r * b.r)
    ensures (a.IsInfinite() && b == Finite(0.0)) || (b.IsInfinite() && a == Finite(0.0)) ==> n.NaN?
  {
    if a.NaN? || b.NaN? then NaN
    else if a.Finite? && b.Finite? then Finite(a.r * b.r)
    else if Sign(a) == 0 || Sign(b) == 0 then NaN
    else InfinityOfSign(Sign(a) * Sign(b))
  }

  /** `a / b`; a zero divisor counts as +0. */
  function Div(a: Number, b: Number): (n: Number)
    ensures a.Finite? && b.Finite? && b.r != 0.0 ==> n == Finite(a.r / b.r)
    ensures a.Finite? && b == Finite(0.0) ==> (n.PosInf? <==> a.r > 0.0) && (n.NegInf? <==> a.r < 0.0) && (n.NaN? <==> a.r == 0.0)
    ensures a.Finite? && b.IsInfinite() ==> n == Finite(0.0)
    ensures a.IsInfinite() && b.IsInfinite() ==> n.NaN?
  {
    if a.NaN? || b.NaN? then NaN
    else if a.Finite? && b.Finite? then
      if b.r != 0.0 then Finite(a.r / b.r)
      else if a.r == 0.0 then NaN
      else InfinityOfSign(Sign(a))
    else if a.Finite? then Finite(0.0)
    else if b.IsInfinite() then NaN
    else InfinityOfSign(Sign(a) * (if Sign(b) < 0 then -1 else 1))
  }

  /** 10 to a natural power. */
  function Pow10(n: nat): (p: real)
    ensures p >= 1.0
    decreases n
  {
    if n == 0 then 1.0 else 10.0 * Pow10(n - 1)
  }

  /** The value of the digits after a decimal point. */
  function FractionValue(frac: string): real
    requires forall i :: 0 <= i < |frac| ==> IsDigit(frac[i])
  {
    DigitsValue(frac) as real / Pow10(|frac|)
  }

  /** The value of `whole.frac`. */
  function MantissaValue(whole: string, frac: string): real
    requires forall i :: 0 <= i < |whole| ==> IsDigit(whole[i])
    requires forall i :: 0 <= i < |frac| ==> IsDigit(frac[i])
  {
    DigitsValue(whole) as real + FractionValue(frac)
  }

  /** `m` times 10 to the power `e`. */
  function Scale(m: real, e: int): real {
    if e >= 0 then m * Pow10(e) else m / Pow10(-e)
  }

  /** The longest prefix of decimal digits. */
  function DigitRun(s: string): (d: string)
    ensures |d| <= |s| && d == s[..|d|]
    ensures forall i :: 0 <= i < |d| ==> IsDigit(d[i])
    ensures |d| < |s| ==> !IsDigit(s[|d|])
    decreases |s|
  {
    if s != [] && IsDigit(s[0]) then
      var rest := DigitRun(s[1..]);
      [s[0]] + rest
    else []
  }

  /** A scanned numeric prefix: its value and how many characters it used. */
  datatype Scanned = Scanned(value: Number, length: nat)

  /** The exponent part `(e|E)[+|-]digits` at the start of `s`, if any:
      its signed value and length. */
  function ScanExponent(s: string): (r: Option<(int, nat)>)
    ensures r.Some? ==> 2 <= r.value.1 <= |s|
  {
    if |s| >= 2 && (s[0] == 'e' || s[0] == 'E') then
      var signed := s[1] == '+' || s[1] == '-';
      var digits := DigitRun(s[if signed then 2 else 1..]);
      if digits == [] then None
      else
        var v: int := DigitsValue(digits);
        Some((if s[1] == '-' then -v else v, (if signed then 2 else 1) + |digits|))
    else None
  }

  import opened Common

  /** The mantissa `digits[.digits]` or `.digits` at the start of `s`, if
      any: its value and length. */
  function ScanMantissa(s: string): (r: Option<(real, nat)>)
    ensures r.Some? ==> 1 <= r.value.1 <= |s|
    ensures r.None? <==> !(s != [] && (IsDigit(s[0]) || (|s| >= 2 && s[0] == '.' && IsDigit(s[1]))))
  {
    var whole := DigitRun(s);
    MantissaAfter(whole, s[|whole|..])
  }

  /** The mantissa whose integer digits are `whole`, given what follows them. */
  function MantissaAfter(whole: string, after: string): (r: Option<(real, nat)>)
    requires forall i :: 0 <= i < |whole| ==> IsDigit(whole[i])
    ensures r.Some? ==> 1 <= r.value.1 <= |whole| + |after|
    ensures r.None? <==> whole == [] && !(|after| >= 2 && after[0] == '.' && IsDigit(after[1]))
  {
    if after != [] && after[0] == '.' then
      var frac := DigitRun(after[1..]);
      if whole == [] && frac == [] then None
      else Some((MantissaValue(whole, frac), |whole| + 1 + |frac|))
    else if whole == [] then None
    else Some((DigitsValue(whole) as real, |whole|))
  }

  /** The longest prefix of `s` that is a StrUnsignedDecimalLiteral
      (ECMAScript section 7.1.4.1), or None when no prefix is. */
  function ScanUnsignedDecimal(s: string): (r: Option<Scanned>)
    ensures r.Some? ==> 1 <= r.value.length <= |s|
    ensures r.Some? ==> !r.value.value.NaN?
    ensures r.None? <==> ScanMantissa(s).None? && !StartsWith(s, "Infinity")
  {
    if StartsWith(s, "Infinity") then Some(Scanned(PosInf, 8))
    else
      match ScanMantissa(s)
      case None => None
      case Some((mantissa, length)) =>
        match ScanExponent(s[length..])
        case None => Some(Scanned(Finite(mantissa), length))
        case Some((e, len)) =>
          Some(Scanned(Finite(Scale(mantissa, e)), length + len))
  }

  /** The longest prefix that is a StrDecimalLiteral: an optional sign
      followed by an unsigned one. */
  function ScanDecimal(s: string): (r: Option<Scanned>)
    ensures r.Some? ==> 1 <= r.value.length <= |s| && !r.value.value.NaN?
  {
    if s != [] && (s[0] == '+' || s[0] == '-') then
      match ScanUnsignedDecimal(s[1..])
      case None => None
      case Some(Scanned(v, len)) => Some(Scanned(if s[0] == '-' then Neg(v) else v, len + 1))
    else ScanUnsignedDecimal(s)
  }

  /** `parseFloat(s)`: leading white space skipped, then the longest decimal
      prefix; NaN when there is none. */
  function ParseFloat(s: string): (n: Number)
    ensures ScanDecimal(TrimStart(s)).None? <==> n.NaN?
  {
    match ScanDecimal(TrimStart(s))
    case None => NaN
    case Some(Scanned(v, _)) => v
  }

  /** `Number(s)`: white space around the literal is ignored, a blank string
      is 0, and anything but one whole decimal literal is NaN. */
  function StringToNumber(s: string): (n: Number)
    ensures Trim(s) == [] ==> n == Finite(0.0)
    ensures !n.NaN? && Trim(s) != [] ==> ScanDecimal(Trim(s)) == Some(Scanned(n, |Trim(s)|))
  {
    var t := Trim(s);
    if t == [] then Finite(0.0)
    else
      match ScanDecimal(t)
      case Some(Scanned(v, len)) => if len == |t| then v else NaN
      case None => NaN
  }

  /** A plain digit string reads as its decimal value through both
      `parseFloat` and `Number`. */
  lemma DigitStringValue(d: string)
    requires d != [] && forall i :: 0 <= i < |d| ==> IsDigit(d[i])
    ensures ParseFloat(d) == Finite(DigitsValue(d) as real)
    ensures StringToNumber(d) == Finite(DigitsValue(d) as real)
  {
    assert !IsJsSpace(d[0]) && !IsJsSpace(d[|d| - 1]);
    assert TrimStart(d) == d;
    assert Trim(d) == d;
    ScanDigits(d);
  }

  /** The scanner reads a whole digit string as one decimal integer. */
  lemma ScanDigits(d: string)
    requires d != [] && forall i :: 0 <= i < |d| ==> IsDigit(d[i])
    ensures ScanDecimal(d) == Some(Scanned(Finite(DigitsValue(d) as real), |d|))
  {
    UnsignedOfDigits(d);
    assert d[0] != '+' && d[0] != '-';
  }

  lemma UnsignedOfDigits(d: string)
    requires d != [] && forall i :: 0 <= i < |d| ==> IsDigit(d[i])
    ensures ScanUnsignedDecimal(d) == Some(Scanned(Finite(DigitsValue(d) as real), |d|))
  {
    NotInfinity(d);
    MantissaOfDigits(d);
    var length := |d|;
    assert d[length..] == [];
    NoExponent();
  }

  lemma NotInfinity(s: string)
    requires s != [] && IsDigit(s[0])
    ensures !StartsWith(s, "Infinity")
  {
    if |s| >= 8 {
      assert s[..8][0] == s[0];
    }
  }

  lemma NoExponent()
    ensures ScanExponent([]) == None
  {
  }

  /** A digit string is all mantissa, with no fraction. */
  lemma MantissaOfDigits(d: string)
    requires d != [] && forall i :: 0 <= i < |d| ==> IsDigit(d[i])
    ensures ScanMantissa(d) == Some((DigitsValue(d) as real, |d|))
  {
    DigitRunAll(d);
    assert d[|d|..] == [];
  }

  /** A string of digits is its own longest digit prefix. */
  lemma {:induction false} DigitRunAll(d: string)
    requires forall i :: 0 <= i < |d| ==> IsDigit(d[i])
    ensures DigitRun(d) == d
    decreases |d|
  {
    if d != [] {
      DigitRunAll(d[1..]);
    }
  }
}

=== FILE: ledger.dfy ===
/** The transaction record the screens share, and the two list operations
    every aggregation is built from: keeping the rows that satisfy a test and
    summing their amounts. */
module Ledger {
  import opened Common

  /** `Date.prototype.getDay()`: Sunday is 0. */
  newtype Weekday = d: int | 0 <= d < 7

  /** `Date.prototype.getMonth()`: January is 0. */
  newtype Month = m: int | 0 <= m < 12

  /** A valid date, as the screens read it: its time value (for ordering),
      weekday, month and year. */
  datatype When = When(time: int, weekday: Weekday, month: Month, year: int)

  /** A row of the `transactions` table. Absent text fields are `None`; a date
      that does not parse is `None`. Amounts are exact numbers. */
  datatype Transaction = Transaction(
    amount: real,
    category: Option<string>,
    kind: Option<string>,
    description: Option<string>,
    date: Option<When>)

  /** `ts.filter(p)`: the rows that pass, in their original order. */
  function Where(ts: seq<Transaction>, p: Transaction -> bool): (r: seq<Transaction>)
    ensures |r| <= |ts|
    ensures forall i :: 0 <= i < |r| ==> p(r[i]) && r[i] in ts
    ensures forall i :: 0 <= i < |ts| && p(ts[i]) ==> ts[i] in r
    decreases |ts|
  {
    if ts == [] then []
    else (if p(ts[0]) then [ts[0]] else []) + Where(ts[1..], p)
  }

  /** `ts.reduce((acc, t) => acc + Number(t.amount), 0)` */
  function Total(ts: seq<Transaction>): real
    decreases |ts|
  {
    if ts == [] then 0.0 else ts[0].amount + Total(ts[1..])
  }

  /** A test and its negation `q` split the rows: what passes and what fails
      add up to everything. */
  lemma {:induction false} TotalPartition(ts: seq<Transaction>, p: Transaction -> bool, q: Transaction -> bool)
    requires forall t :: q(t) == !p(t)
    ensures Total(Where(ts, p)) + Total(Where(ts, q)) == Total(ts)
    decreases |ts|
  {
    if ts != [] {
      TotalPartition(ts[1..], p, q);
      TotalAppend(if p(ts[0]) then [ts[0]] else [], Where(ts[1..], p));
      TotalAppend(if q(ts[0]) then [ts[0]] else [], Where(ts[1..], q));
    }
  }

  /** Filtering then summing, one row at a time. */
  lemma TotalStep(ts: seq<Transaction>, p: Transaction -> bool)
    requires ts != []
    ensures Total(Where(ts, p)) == (if p(ts[0]) then ts[0].amount else 0.0) + Total(Where(ts[1..], p))
  {
    TotalAppend(if p(ts[0]) then [ts[0]] else [], Where(ts[1..], p));
  }

  /** The total of two lists one after the other. */
  lemma {:induction false} TotalAppend(a: seq<Transaction>, b: seq<Transaction>)
    ensures Total(a + b) == Total(a) + Total(b)
    decreases |a|
  {
    if a == [] {
      assert a + b == b;
    } else {
      TotalAppend(a[1..], b);
      assert (a + b)[1..] == a[1..] + b;
    }
  }

  /** Two tests that agree on every row keep the same rows. */
  lemma {:induction false} WhereAgree(ts: seq<Transaction>, p: Transaction -> bool, q: Transaction -> bool)
    requires forall i :: 0 <= i < |ts| ==> p(ts[i]) == q(ts[i])
    ensures Where(ts, p) == Where(ts, q)
    decreases |ts|
  {
    if ts != [] {
      assert forall i :: 0 <= i < |ts[1..]| ==> ts[1..][i] == ts[i + 1];
      WhereAgree(ts[1..], p, q);
    }
  }

  /** Filtering twice keeps the rows that pass both tests. */
  lemma {:induction false} WhereWhere(ts: seq<Transaction>, p: Transaction -> bool, q: Transaction -> bool)
    ensures Where(Where(ts, p), q) == Where(ts, t => p(t) && q(t))
    decreases |ts|
  {
    if ts != [] {
      WhereWhere(ts[1..], p, q);
      WhereAppend(if p(ts[0]) then [ts[0]] else [], Where(ts[1..], p), q);
    }
  }

  /** Filtering distributes over concatenation. */
  lemma {:induction false} WhereAppend(a: seq<Transaction>, b: seq<Transaction>, p: Transaction -> bool)
    ensures Where(a + b, p) == Where(a, p) + Where(b, p)
    decreases |a|
  {
    if a == [] {
      assert a + b == b;
    } else {
      WhereAppend(a[1..], b, p);
      assert (a + b)[0] == a[0] && (a + b)[1..] == a[1..] + b;
      var h := if p(a[0]) then [a[0]] else [];
      assert Where(a + b, p) == h + (Where(a[1..], p) + Where(b, p));
    }
  }
}

=== FILE: profile.dfy ===
/** The profile screen's pure rules: filling the form from a stored
    profile, checking a password change before it is sent, naming an
    uploaded avatar's extension, and the name shown under the avatar. */
module Profile {
  import opened Common
  import opened Text

  /** A stored profile row; every column may be missing. */
  datatype StoredProfile = StoredProfile(
    firstName: Option<string>, lastName: Option<string>,
    gender: Option<string>, birthdate: Option<string>)

  datatype Form = Form(firstName: string, lastName: string, gender: string, birthdate: string)

  /** `value || ''` for a text column. */
  function OrEmpty(value: Option<string>): (r: string)
    ensures value.Some? ==> r == value.value
    ensures value.None? ==> r == []
  {
    value.GetOr([])
  }

  /** The form once a profile has been loaded: a missing or empty column
      shows as an empty field, a filled one as itself. */
  function LoadForm(p: StoredProfile): (r: Form)
    ensures r.firstName == OrEmpty(p.firstName) && r.lastName == OrEmpty(p.lastName)
    ensures r.gender == OrEmpty(p.gender) && r.birthdate == OrEmpty(p.birthdate)
  {
    Form(p.firstName.GetOr([]), p.lastName.GetOr([]), p.gender.GetOr([]), p.birthdate.GetOr([]))
  }

  // ---------------------------------------------------------------------------
  // Password change
  // ---------------------------------------------------------------------------

  const MissingField := "Ju lutem plot\U{00EB}soni t\U{00EB} gjitha fushat e fjal\U{00EB}kalimit."
  const Mismatch := "Fjal\U{00EB}kalimet e reja nuk p\U{00EB}rputhen."
  const TooShort := "Fjal\U{00EB}kalimi duhet t\U{00EB} jet\U{00EB} t\U{00EB} pakt\U{00EB}n 6 karaktere."

  /** The shortest new password accepted, in `.length` units: UTF-16 code
      units, so a character above U+FFFF counts twice. */
  const MinLength := 6

  /** The checks `handlePasswordChange` makes before any call to the
      authentication service, in order: every field filled, the new
      password confirmed, the new password long enough. `None` means the
      change goes ahead. */
  function PasswordProblem(current: string, next: string, confirm: string): (r: Option<string>)
    ensures r.None? <==> current != [] && next != [] && next == confirm && Utf16Length(next) >= MinLength
    ensures r == Some(MissingField) <==> current == [] || next == [] || confirm == []
    ensures r == Some(Mismatch) <==> current != [] && next != [] && confirm != [] && next != confirm
    ensures r == Some(TooShort) <==> current != [] && next != [] && next == confirm && Utf16Length(next) < MinLength
  {
    if current == [] || next == [] || confirm == [] then Some(MissingField)
    else if next != confirm then Some(Mismatch)
    else if Utf16Length(next) < MinLength then Some(TooShort)
    else None
  }

  /** Six code units are enough, five are not. */
  lemma SixIsEnough(current: string, next: string)
    requires current != []
    ensures Utf16Length(next) == 6 ==> PasswordProblem(current, next, next) == None
    ensures Utf16Length(next) == 5 ==> PasswordProblem(current, next, next) == Some(TooShort)
  {
  }

  /** For a password without characters above U+FFFF, code units are
      characters: six characters are needed. */
  lemma SixCharactersWithoutPairs(current: string, next: string)
    requires current != []
    requires forall i :: 0 <= i < |next| ==> next[i] as int <= 0xFFFF
    ensures PasswordProblem(current, next, next) == None <==> |next| >= 6
  {
  }

  /** Three emoji are six code units, so they make an acceptable password,
      though they are only three characters. */
  lemma ThreeEmojiAccepted(current: string, next: string)
    requires current != [] && next == "\U{1F600}\U{1F600}\U{1F600}"
    ensures |next| == 3
    ensures PasswordProblem(current, next, next) == None
  {
    assert next == ['\U{1F600}'] + "\U{1F600}\U{1F600}";
    Utf16LengthAppend(['\U{1F600}'], "\U{1F600}\U{1F600}");
    Utf16LengthAppend(['\U{1F600}'], ['\U{1F600}']);
  }

  /** A missing field is reported even when the other two disagree or are
      short: the checks run in order and stop at the first problem. */
  lemma MissingFieldFirst(current: string, next: string, confirm: string)
    requires current == []
    ensures PasswordProblem(current, next, confirm) == Some(MissingField)
  {
  }

  // ---------------------------------------------------------------------------
  // Avatar upload
  // ---------------------------------------------------------------------------

  /** `uri.split('.').pop()` */
  function FileExtension(uri: string): (r: string)
    ensures '.' !in r
    ensures |r| <= |uri| && uri[|uri| - |r|..] == r
  {
    var pieces := Split(uri, '.');
    LastPiece(uri, '.');
    pieces[|pieces| - 1]
  }

  /** The last piece of a split ends the string, and anything before it
      ends with the separator. */
  lemma LastPiece(s: string, sep: char)
    ensures var p := Split(s, sep);
      var last := p[|p| - 1];
      && |last| <= |s| && s[|s| - |last|..] == last
      && (|p| >= 2 ==> s == Join(p[..|p| - 1], sep) + [sep] + last)
  {
    var p := Split(s, sep);
    JoinSplit(s, sep);
    if |p| >= 2 {
      JoinLast(p, sep);
    }
  }

  /** The extension is what follows the last '.', or the whole URI when it
      has no '.'. */
  lemma ExtensionAfterLastDot(uri: string)
    ensures '.' !in uri ==> FileExtension(uri) == uri
    ensures '.' in uri ==> exists stem :: uri == stem + "." + FileExtension(uri)
  {
    SplitFirst(uri, '.');
    var p := Split(uri, '.');
    LastPiece(uri, '.');
    if '.' in uri {
      if |p| == 1 {
        JoinSplit(uri, '.');
        assert false;
      }
      var stem := Join(p[..|p| - 1], '.');
      assert uri == stem + "." + FileExtension(uri);
    }
  }

  // ---------------------------------------------------------------------------
  // Display name
  // ---------------------------------------------------------------------------

  const Anonymous := "P\U{00EB}rdorues"

  /** The name under the avatar: "first last" when a first name is set,
      otherwise the part of the e-mail address before '@', otherwise
      "Përdorues". */
  function DisplayName(form: Form, email: Option<string>): (r: string)
    ensures form.firstName != [] ==> r == form.firstName + " " + form.lastName
    ensures form.firstName == [] && email.Some? ==> StartsWith(email.value, r) || r == Anonymous
    ensures form.firstName == [] ==> '@' !in r
    ensures r != []
    ensures form.firstName == [] && (email.None? || email.value == [] || email.value[0] == '@') ==> r == Anonymous
    ensures form.firstName == [] && email.Some? && email.value != [] && email.value[0] != '@' ==>
      StartsWith(email.value, r) && (|r| == |email.value| || email.value[|r|] == '@')
  {
    if form.firstName != [] then form.firstName + " " + form.lastName
    else if email.None? then Anonymous
    else
      var local := Split(email.value, '@')[0];
      SplitFirst(email.value, '@');
      if local == [] then Anonymous else local
  }

  /** Without a first name, an address's local part is shown whole: it is
      the address itself when there is no '@', and what precedes the first
      '@' otherwise. */
  lemma NameFromEmail(form: Form, email: string)
    requires form.firstName == [] && email != [] && email[0] != '@'
    ensures StartsWith(email, DisplayName(form, Some(email)))
    ensures '@' !in email ==> DisplayName(form, Some(email)) == email
    ensures var n := DisplayName(form, Some(email)); |n| < |email| ==> email[|n|] == '@'
  {
    SplitFirst(email, '@');
    assert Split(email, '@')[0] != [] by {
      assert StartsWith(email, Split(email, '@')[0]);
    }
  }
}

=== FILE: receipt_scanner.dfy ===
/** The receipt scanner: it sends the photo to the vision model, digs the
    answer's text out of the chat-completion reply, reads it as JSON (falling
    back to the outermost `{…}` when the model wrapped it in prose) and
    validates it against the receipt schema. Every failure is reported as a
    message that starts with one of five known prefixes.

    The network exchange is an input (`reply`); the JavaScript engine's own
    behaviour (`JSON.parse`, `String(v)` and its TypeError texts) is the
    `Engine` parameter. */
module ReceiptScanner {
  import opened Common
  import opened Text
  import opened ReceiptSchema

  /** What `fetch` resolved to: the `ok` flag, status, status text and body text. */
  datatype Response = Response(ok: bool, status: nat, statusText: string, body: string)

  /** The engine behaviour the scanner relies on but does not define. */
  datatype Engine = Engine(
    parse: string -> Result<Json, string>,  // `JSON.parse`, failing with its SyntaxError message
    show: Json -> string,                   // `String(v)`
    readOfNull: string,                     // the TypeError message for reading `.choices` of null
    matchOfNonText: string)                 // the TypeError message for calling `.match` on a non-string

  const MissingKey := "Configuration Error: GROQ_API_KEY is missing."
  const EmptyAnswer := "AI Error: Received empty response from Groq."
  const NotJson := "Parsing Error: Failed to parse AI response as JSON."

  // ---------------------------------------------------------------------------
  // Error messages
  // ---------------------------------------------------------------------------

  /** The prefixes the catch-all handler lets through unchanged. */
  const Rethrown: seq<string> := ["Validation Error", "Configuration Error", "API Error", "Parsing Error"]

  /** The prefix every other error is given. */
  const Processing := "Processing Error"

  /** The message starts with one of `prefixes`. */
  predicate StartsWithAny(m: string, prefixes: seq<string>) {
    exists i :: 0 <= i < |prefixes| && StartsWith(m, prefixes[i])
  }

  /** A message the scanner can report: one of the rethrown kinds or a
      processing error. */
  predicate Reportable(m: string) {
    StartsWithAny(m, Rethrown) || StartsWith(m, Processing)
  }

  /** A string starting with `p` still does once more is appended. */
  lemma StartsWithAppend(s: string, p: string, t: string)
    requires StartsWith(s, p)
    ensures StartsWith(s + t, p)
  {
    assert (s + t)[..|p|] == s[..|p|];
  }

  /** The catch-all handler: a known error passes unchanged, any other is
      wrapped as a processing error. */
  function Classify(m: string): (r: string)
    ensures Reportable(r)
    ensures StartsWithAny(m, Rethrown) ==> r == m
    ensures !StartsWithAny(m, Rethrown) ==> r == "Processing Error: " + m
  {
    if StartsWithAny(m, Rethrown) then m
    else
      assert StartsWith("Processing Error: ", Processing);
      StartsWithAppend("Processing Error: ", Processing, m);
      "Processing Error: " + m
  }

  /** The text of an unsuccessful response. */
  function ApiError(resp: Response): (m: string)
    ensures StartsWith(m, Rethrown[2])
  {
    var m := "API Error: " + NatToString(resp.status) + " " + resp.statusText + " - " + resp.body;
    assert m == "API Error: " + (NatToString(resp.status) + " " + resp.statusText + " - " + resp.body);
    assert StartsWith("API Error: ", "API Error");
    StartsWithAppend("API Error: ", "API Error", NatToString(resp.status) + " " + resp.statusText + " - " + resp.body);
    m
  }

  /** `e.path.join('.')` */
  function PathText(path: seq<Segment>): string {
    Join(seq(|path|, k requires 0 <= k < |path| => SegmentText(path[k])), '.')
  }

  /** A path step as `join` renders it: a key as itself, an index in decimal. */
  function SegmentText(s: Segment): string {
    match s
    case Key(name) => name
    case Index(i) => NatToString(i)
  }

  /** `${e.path.join('.')}: ${e.message}` */
  function IssueText(i: Issue): string {
    PathText(i.path) + ": " + i.message
  }

  /** The issue texts joined with ", ". */
  function IssueList(issues: seq<Issue>): (r: string)
    ensures issues == [] <==> r == []
    decreases |issues|
  {
    if issues == [] then []
    else if |issues| == 1 then IssueText(issues[0])
    else IssueText(issues[0]) + ", " + IssueList(issues[1..])
  }

  /** The list of two runs of issues is the two lists joined with ", ", so
      every issue appears in order and none is dropped. */
  lemma {:induction false} IssueListAppend(a: seq<Issue>, b: seq<Issue>)
    requires a != [] && b != []
    ensures IssueList(a + b) == IssueList(a) + ", " + IssueList(b)
    decreases |a|
  {
    var x := IssueText(a[0]);
    assert (a + b)[0] == a[0] && |a + b| >= 2;
    if |a| == 1 {
      assert (a + b)[1..] == b;
      assert IssueList(a) == x;
    } else {
      var rest := a[1..];
      assert (a + b)[1..] == rest + b;
      assert IssueList(a + b) == x + ", " + IssueList(rest + b);
      IssueListAppend(rest, b);
      assert IssueList(a) == x + ", " + IssueList(rest);
    }
  }

  /** `validateReceipt`: the receipt, or every issue in one validation error. */
  function ValidateReceipt(raw: Json, isDateTime: string -> bool): (r: Result<Receipt, string>)
    ensures r.Success? <==> ParseReceipt(raw, isDateTime).Success?
    ensures r.Success? ==> r.value == ParseReceipt(raw, isDateTime).value && ValidReceipt(r.value, isDateTime)
    ensures r.Failure? ==> StartsWith(r.error, Rethrown[0])
    ensures r.Failure? ==> r.error == "Validation Error: " + IssueList(ParseReceipt(raw, isDateTime).error)
  {
    match ParseReceipt(raw, isDateTime)
    case Success(receipt) => Success(receipt)
    case Failure(issues) =>
      assert StartsWith("Validation Error: ", "Validation Error");
      StartsWithAppend("Validation Error: ", "Validation Error", IssueList(issues));
      Failure("Validation Error: " + IssueList(issues))
  }

  // ---------------------------------------------------------------------------
  // Reading the answer
  // ---------------------------------------------------------------------------

  /** `v?.[key]`: a property of an object, an element of an array; nothing
      for anything else. */
  function Member(v: Option<Json>, key: string): Option<Json> {
    match v
    case Some(JObj(f)) => Get(f, key)
    case Some(JArr(elems)) => if key == "0" && |elems| > 0 then Some(elems[0]) else None
    case _ => None
  }

  /** `data.choices?.[0]?.message?.content` for a `data` that is not null. */
  function AnswerOf(data: Json): Option<Json> {
    Member(Member(Member(Member(Some(data), "choices"), "0"), "message"), "content")
  }

  /** JavaScript truthiness of a JSON value; `undefined` is falsy. */
  predicate Truthy(v: Option<Json>) {
    match v
    case None => false
    case Some(JNull) => false
    case Some(JBool(b)) => b
    case Some(JNum(n)) => n != 0.0
    case Some(JStr(s)) => s != []
    case Some(_) => true
  }

  /** The first index holding `c`. */
  function FirstIndex(s: string, c: char): (r: Option<nat>)
    ensures r.Some? ==> r.value < |s| && s[r.value] == c && forall i :: 0 <= i < r.value ==> s[i] != c
    ensures r.None? ==> forall i :: 0 <= i < |s| ==> s[i] != c
    decreases |s|
  {
    if s == [] then None
    else if s[0] == c then Some(0)
    else match FirstIndex(s[1..], c)
      case None => None
      case Some(i) => Some(i + 1)
  }

  /** The last index holding `c`. */
  function LastIndex(s: string, c: char): (r: Option<nat>)
    ensures r.Some? ==> r.value < |s| && s[r.value] == c && forall i :: r.value < i < |s| ==> s[i] != c
    ensures r.None? ==> forall i :: 0 <= i < |s| ==> s[i] != c
    decreases |s|
  {
    if s == [] then None
    else if s[|s| - 1] == c then Some(|s| - 1)
    else LastIndex(s[..|s| - 1], c)
  }

  /** `s[a..b]` inclusive is a candidate match of `/\{[\s\S]*\}/`: it opens with
      `{` and closes with `}`. */
  predicate Braced(s: string, a: int, b: int) {
    0 <= a < b < |s| && s[a] == '{' && s[b] == '}'
  }

  /** `content.match(/\{[\s\S]*\}/)`: the span from the first `{` to the last
      `}` after it, as start and end indices. */
  function BraceSpan(s: string): (r: Option<(nat, nat)>)
    ensures r.Some? ==> Braced(s, r.value.0, r.value.1)
  {
    match FirstIndex(s, '{')
    case None => None
    case Some(a) =>
      match LastIndex(s, '}')
      case None => None
      case Some(b) => if a < b then Some((a, b)) else None
  }

  /** The span is the match a backtracking regular-expression engine finds: no
      candidate starts earlier, none from the same start ends later, and
      there is no match exactly when there is no candidate. */
  lemma BraceSpanIsLeftmostLongest(s: string)
    ensures BraceSpan(s).None? <==> forall a, b :: !Braced(s, a, b)
    ensures BraceSpan(s).Some? ==> var (a, b) := BraceSpan(s).value;
      (forall a', b' :: Braced(s, a', b') ==> a <= a') && (forall b' :: Braced(s, a, b') ==> b' <= b)
  {
    match FirstIndex(s, '{')
    case None =>
    case Some(a) =>
      match LastIndex(s, '}')
      case None =>
      case Some(b) =>
        if a >= b {
          forall a', b' | Braced(s, a', b') ensures false {
          }
        }
  }

  /** `JSON.parse(content)`, falling back to the braced span of a string
      answer. A non-string answer is parsed as `String(content)`; if that
      fails, its missing `match` method is the error. */
  function Decode(content: Json, engine: Engine): Result<Json, string> {
    match content
    case JStr(s) =>
      (match engine.parse(s)
       case Success(j) => Success(j)
       case Failure(_) =>
         match BraceSpan(s)
         case None => Failure(NotJson)
         case Some((a, b)) => engine.parse(s[a..b + 1]))
    case _ =>
      match engine.parse(engine.show(content))
      case Success(j) => Success(j)
      case Failure(_) => Failure(engine.matchOfNonText)
  }

  /** The body of the `try` block, up to the error the handler receives. */
  function Attempt(reply: Result<Response, string>, engine: Engine, isDateTime: string -> bool): (r: Result<Receipt, string>)
    ensures r.Success? ==> ValidReceipt(r.value, isDateTime)
  {
    match reply
    case Failure(m) => Failure(m)
    case Success(resp) =>
      if !resp.ok then Failure(ApiError(resp))
      else
        match engine.parse(resp.body)
        case Failure(m) => Failure(m)
        case Success(data) =>
          if data.JNull? then Failure(engine.readOfNull)
          else
            var content := AnswerOf(data);
            if !Truthy(content) then Failure(EmptyAnswer)
            else
              match Decode(content.value, engine)
              case Failure(m) => Failure(m)
              case Success(raw) => ValidateReceipt(raw, isDateTime)
  }

  /** `scanReceipt`: a missing key fails before anything is sent; every other
      error passes through the catch-all handler. */
  function ScanReceipt(apiKey: Option<string>, reply: Result<Response, string>, engine: Engine,
                       isDateTime: string -> bool): (r: Result<Receipt, string>)
    ensures apiKey.None? || apiKey == Some("") ==> r == Failure(MissingKey)
    ensures r.Success? ==> ValidReceipt(r.value, isDateTime)
    ensures r.Failure? ==> Reportable(r.error)
  {
    if apiKey.None? || apiKey == Some("") then
      assert StartsWith(MissingKey, Rethrown[1]);
      Failure(MissingKey)
    else
      match Attempt(reply, engine, isDateTime)
      case Success(receipt) => Success(receipt)
      case Failure(m) => Failure(Classify(m))
  }

  // ---------------------------------------------------------------------------
  // Properties
  // ---------------------------------------------------------------------------

  /** The scan succeeds exactly with the receipt the schema reads from the
      decoded answer. */
  lemma ScanUsesDecodedAnswer(apiKey: string, resp: Response, engine: Engine, isDateTime: string -> bool,
                              data: Json, raw: Json)
    requires apiKey != "" && resp.ok
    requires engine.parse(resp.body) == Success(data) && !data.JNull?
    requires Truthy(AnswerOf(data)) && Decode(AnswerOf(data).value, engine) == Success(raw)
    ensures ScanReceipt(Some(apiKey), Success(resp), engine, isDateTime).Success?
      <==> ParseReceipt(raw, isDateTime).Success?
    ensures ParseReceipt(raw, isDateTime).Success? ==>
      ScanReceipt(Some(apiKey), Success(resp), engine, isDateTime).value == ParseReceipt(raw, isDateTime).value
  {
  }

  /** An unsuccessful response is reported with its status, status text and
      body, unchanged by the handler. */
  lemma UnsuccessfulResponseReported(apiKey: string, resp: Response, engine: Engine, isDateTime: string -> bool)
    requires apiKey != "" && !resp.ok
    ensures ScanReceipt(Some(apiKey), Success(resp), engine, isDateTime)
      == Failure("API Error: " + NatToString(resp.status) + " " + resp.statusText + " - " + resp.body)
  {
    assert StartsWithAny(ApiError(resp), Rethrown);
  }

  /** An empty answer is not one of the rethrown kinds, so it is reported as a
      processing error. */
  lemma EmptyAnswerReported(apiKey: string, resp: Response, engine: Engine, isDateTime: string -> bool, data: Json)
    requires apiKey != "" && resp.ok
    requires engine.parse(resp.body) == Success(data) && !data.JNull? && !Truthy(AnswerOf(data))
    ensures ScanReceipt(Some(apiKey), Success(resp), engine, isDateTime)
      == Failure("Processing Error: " + EmptyAnswer)
  {
    NotRethrown(EmptyAnswer);
  }

  /** A message starting with "AI Error" is none of the rethrown kinds. */
  lemma NotRethrown(m: string)
    requires m == EmptyAnswer
    ensures !StartsWithAny(m, Rethrown)
  {
    assert m[0] == 'A' && m[1] == 'I';
    assert Rethrown[0][0] == 'V' && Rethrown[1][0] == 'C' && Rethrown[2][1] == 'P' && Rethrown[3][0] == 'P';
    assert !StartsWith(m, Rethrown[0]) && !StartsWith(m, Rethrown[1]);
    assert !StartsWith(m, Rethrown[2]) && !StartsWith(m, Rethrown[3]);
  }

  /** A braced span that is not JSON either: the second `SyntaxError` escapes
      the fallback and the catch-all reports it as a processing error, not
      as a parsing error. */
  lemma BadSpanIsProcessingError(apiKey: string, resp: Response, engine: Engine, isDateTime: string -> bool,
                                 data: Json, s: string, a: nat, b: nat, m: string)
    requires apiKey != "" && resp.ok
    requires engine.parse(resp.body) == Success(data) && !data.JNull?
    requires AnswerOf(data) == Some(JStr(s)) && s != []
    requires engine.parse(s).Failure?
    requires BraceSpan(s) == Some((a, b))
    requires engine.parse(s[a..b + 1]) == Failure(m)
    requires !StartsWithAny(m, Rethrown)
    ensures ScanReceipt(Some(apiKey), Success(resp), engine, isDateTime) == Failure("Processing Error: " + m)
  {
    assert Decode(JStr(s), engine) == Failure(m);
  }

  /** An answer that is JSON as it stands is used as it stands. */
  lemma DirectAnswerUsed(s: string, engine: Engine, j: Json)
    requires engine.parse(s) == Success(j)
    ensures Decode(JStr(s), engine) == Success(j)
  {
  }

  /** An answer that is not JSON and holds no `{…}` span is a parsing error. */
  lemma UnbracedAnswerRefused(s: string, engine: Engine)
    requires engine.parse(s).Failure?
    requires forall a, b :: !Braced(s, a, b)
    ensures Decode(JStr(s), engine) == Failure(NotJson)
  {
    BraceSpanIsLeftmostLongest(s);
  }

  /** JSON wrapped in prose is found: when nothing before it opens a brace and
      nothing after it closes one, the span read is exactly the JSON. */
  lemma WrappedAnswerFound(before: string, json: string, after: string, engine: Engine, j: Json)
    requires |json| >= 2 && json[0] == '{' && json[|json| - 1] == '}'
    requires '{' !in before && '}' !in after
    requires engine.parse(before + json + after).Failure?
    requires engine.parse(json) == Success(j)
    ensures Decode(JStr(before + json + after), engine) == Success(j)
  {
    var s := before + json + after;
    var a := |before|;
    var b := |before| + |json| - 1;
    assert Braced(s, a, b);
    BraceSpanIsLeftmostLongest(s);
    var (a', b') := BraceSpan(s).value;
    assert a' == a;
    assert b' == b;
    assert s[a..b + 1] == json;
  }

  /** A single issue reads as its dotted path, a colon and its message. */
  lemma OneIssueText(key: string, i: nat, field: string, message: string)
    ensures IssueList([Issue([Key(key), Index(i), Key(field)], message)])
      == key + "." + NatToString(i) + "." + field + ": " + message
  {
    var path := [Key(key), Index(i), Key(field)];
    var pieces := seq(|path|, k requires 0 <= k < |path| => SegmentText(path[k]));
    assert pieces == [key, NatToString(i), field];
    assert pieces[1..] == [NatToString(i), field];
    assert pieces[1..][1..] == [field];
    assert Join(pieces[1..][1..], '.') == field;
    assert Join(pieces[1..], '.') == NatToString(i) + "." + field;
    assert Join(pieces, '.') == key + "." + (NatToString(i) + "." + field);
    assert PathText(path) == key + "." + NatToString(i) + "." + field;
  }
}

=== FILE: receipt_schema.dfy ===
/** The receipt schema: what a parsed AI answer must look like before the app
    accepts it as a receipt. Validation follows zod's object parsing: every
    field of the shape is checked in declaration order, every failing check
    contributes one issue (a path and a message), defaults fill absent fields
    and keys outside the shape are dropped. */
module ReceiptSchema {
  import opened Common

  /** A value produced by `JSON.parse`. Objects keep their keys in source order;
      numbers are finite. */
  datatype Json =
    | JNull
    | JBool(b: bool)
    | JNum(n: real)
    | JStr(s: string)
    | JArr(elems: seq<Json>)
    | JObj(fields: seq<(string, Json)>)

  /** `obj[key]`: the value bound to `key`, the last binding winning as it does
      for duplicate keys in `JSON.parse`; `None` is `undefined`. */
  function Get(fields: seq<(string, Json)>, key: string): (r: Option<Json>)
    ensures r.None? <==> forall i :: 0 <= i < |fields| ==> fields[i].0 != key
    ensures r.Some? ==> exists i :: 0 <= i < |fields| && fields[i] == (key, r.value)
    decreases |fields|
  {
    if fields == [] then None
    else if fields[|fields| - 1].0 == key then Some(fields[|fields| - 1].1)
    else Get(fields[..|fields| - 1], key)
  }

  /** A binding appended for another key does not change what `key` reads. */
  lemma GetOther(fields: seq<(string, Json)>, k: string, v: Json, key: string)
    requires k != key
    ensures Get(fields + [(k, v)], key) == Get(fields, key)
  {
    assert (fields + [(k, v)])[..|fields|] == fields;
  }

  /** A binding appended for `key` is what `key` reads. */
  lemma GetLast(fields: seq<(string, Json)>, key: string, v: Json)
    ensures Get(fields + [(key, v)], key) == Some(v)
  {
  }

  /** zod's name for the type of a value (`getParsedType`), as it appears in
      "Expected …, received …" messages. */
  function TypeName(v: Option<Json>): string {
    match v
    case None => "undefined"
    case Some(JNull) => "null"
    case Some(JBool(_)) => "boolean"
    case Some(JNum(_)) => "number"
    case Some(JStr(_)) => "string"
    case Some(JArr(_)) => "array"
    case Some(JObj(_)) => "object"
  }

  /** One step of an issue's path: an object key or an array index. */
  datatype Segment = Key(name: string) | Index(index: nat)

  /** A failed check: where it failed and zod's message for it. */
  datatype Issue = Issue(path: seq<Segment>, message: string)

  /** The result of checking one value: the parsed value, or the issues found. */
  type Checked<T> = Result<T, seq<Issue>>

  /** The issues of a check; none when it passed. */
  function Issues<T>(c: Checked<T>): seq<Issue> {
    if c.Failure? then c.error else []
  }

  /** A single issue at the checked value itself. */
  function Fail<T>(message: string): (c: Checked<T>)
    ensures c.Failure? && c.error == [Issue([], message)]
  {
    Failure([Issue([], message)])
  }

  /** The issues of a nested value, seen from its parent: `seg` is put in front
      of every path, and a successful value is kept. */
  function Under<T>(seg: Segment, c: Checked<T>): (r: Checked<T>)
    ensures r.Success? <==> c.Success?
    ensures c.Success? ==> r == c
    ensures |Issues(r)| == |Issues(c)|
    ensures forall k :: 0 <= k < |Issues(r)| ==>
      Issues(r)[k] == Issue([seg] + Issues(c)[k].path, Issues(c)[k].message)
  {
    match c
    case Success(_) => c
    case Failure(issues) =>
      Failure(seq(|issues|, k requires 0 <= k < |issues| => Issue([seg] + issues[k].path, issues[k].message)))
  }

  /** zod's message for a value of the wrong type: "Required" when the value
      is absent, otherwise what was expected and what was found. */
  function WrongType(expected: string, v: Option<Json>): (m: string)
    ensures v.None? <==> m == "Required"
  {
    if v.None? then "Required" else "Expected " + expected + ", received " + TypeName(v)
  }

  // ---------------------------------------------------------------------------
  // Field checks
  // ---------------------------------------------------------------------------

  /** `z.string().min(1, tooShort)` */
  function NonEmptyText(v: Option<Json>, tooShort: string): (c: Checked<string>)
    ensures c.Success? <==> v.Some? && v.value.JStr? && |v.value.s| >= 1
    ensures c.Success? ==> v == Some(JStr(c.value))
    ensures c.Failure? ==> |c.error| == 1 && c.error[0].path == []
    ensures c.Failure? && v.Some? && v.value.JStr? ==> c.error[0].message == tooShort
  {
    match v
    case Some(JStr(s)) => if |s| >= 1 then Success(s) else Fail(tooShort)
    case _ => Fail(WrongType("string", v))
  }

  /** `z.string().datetime()`, with the ISO 8601 date-time grammar given as
      `isDateTime`. */
  function DateTimeText(v: Option<Json>, isDateTime: string -> bool): (c: Checked<string>)
    ensures c.Success? <==> v.Some? && v.value.JStr? && isDateTime(v.value.s)
    ensures c.Success? ==> v == Some(JStr(c.value))
    ensures c.Failure? ==> |c.error| == 1 && c.error[0].path == []
  {
    match v
    case Some(JStr(s)) => if isDateTime(s) then Success(s) else Fail("Invalid datetime")
    case _ => Fail(WrongType("string", v))
  }

  /** A refinement of `z.number()`: `.min(bound)`, `.max(bound)` or `.positive()`,
      each with the message zod reports when it fails. */
  datatype Bound = AtLeast(low: real, message: string) | AtMost(high: real, message: string) | Positive(message: string)

  predicate Meets(x: real, b: Bound) {
    match b
    case AtLeast(low, _) => x >= low
    case AtMost(high, _) => x <= high
    case Positive(_) => x > 0.0
  }

  /** `.min(0)` */
  const NonNegative := AtLeast(0.0, "Number must be greater than or equal to 0")
  /** `.max(1)` */
  const AtMostOne := AtMost(1.0, "Number must be less than or equal to 1")

  /** One issue for every bound `x` misses, in the order the bounds were declared. */
  function Missed(x: real, bounds: seq<Bound>): (r: seq<Issue>)
    ensures r == [] <==> forall i :: 0 <= i < |bounds| ==> Meets(x, bounds[i])
    ensures forall k :: 0 <= k < |r| ==> r[k].path == []
    decreases |bounds|
  {
    if bounds == [] then []
    else (if Meets(x, bounds[0]) then [] else [Issue([], bounds[0].message)]) + Missed(x, bounds[1..])
  }

  /** `z.number()` with its refinements: every refinement is checked, not only
      the first that fails. */
  function Number(v: Option<Json>, bounds: seq<Bound>): (c: Checked<real>)
    ensures c.Success? <==> v.Some? && v.value.JNum? && forall i :: 0 <= i < |bounds| ==> Meets(v.value.n, bounds[i])
    ensures c.Success? ==> v == Some(JNum(c.value))
    ensures c.Failure? ==> |c.error| >= 1
  {
    match v
    case Some(JNum(x)) => var m := Missed(x, bounds); if m == [] then Success(x) else Failure(m)
    case _ => Fail(WrongType("number", v))
  }

  /** `schema.optional()` around a number: an absent value passes as absent. */
  function OptionalNumber(v: Option<Json>, bounds: seq<Bound>): (c: Checked<Option<real>>)
    ensures v.None? ==> c == Success(None)
    ensures v.Some? ==> c.Success? == Number(v, bounds).Success?
    ensures v.Some? && c.Success? ==> c.value == Some(Number(v, bounds).value)
  {
    if v.None? then Success(None)
    else match Number(v, bounds)
      case Success(x) => Success(Some(x))
      case Failure(e) => Failure(e)
  }

  /** zod's `joinValues`: the options quoted and separated by " | ". */
  function Quoted(names: seq<string>): string
    decreases |names|
  {
    if names == [] then ""
    else if |names| == 1 then "'" + names[0] + "'"
    else "'" + names[0] + "' | " + Quoted(names[1..])
  }

  /** The position of `s` among `names`, if any. */
  function IndexOf(names: seq<string>, s: string): (r: Option<nat>)
    ensures r.Some? ==> r.value < |names| && names[r.value] == s
    ensures r.None? ==> forall i :: 0 <= i < |names| ==> names[i] != s
    decreases |names|
  {
    if names == [] then None
    else if names[0] == s then Some(0)
    else match IndexOf(names[1..], s)
      case None => None
      case Some(k) => Some(k + 1)
  }

  /** `z.enum(names)`: the position of the option the string names. */
  function Choice(v: Option<Json>, names: seq<string>): (c: Checked<nat>)
    ensures c.Success? <==> v.Some? && v.value.JStr? && v.value.s in names
    ensures c.Success? ==> c.value < |names| && v == Some(JStr(names[c.value]))
    ensures c.Failure? ==> |c.error| == 1 && c.error[0].path == []
  {
    match v
    case Some(JStr(s)) =>
      (match IndexOf(names, s)
       case Some(k) => Success(k)
       case None => Fail("Invalid enum value. Expected " + Quoted(names) + ", received '" + s + "'"))
    case _ => Fail(WrongType(Quoted(names), v))
  }

  // ---------------------------------------------------------------------------
  // The receipt
  // ---------------------------------------------------------------------------

  datatype Currency = EUR | USD | ALL

  const CurrencyNames: seq<string> := ["EUR", "USD", "ALL"]
  const Currencies: seq<Currency> := [EUR, USD, ALL]

  datatype Category = Ushqim | Transport | Argetim | Sherbime | Tjeter

  const CategoryNames: seq<string> := ["Ushqim", "Transport", "Arg\U{00EB}tim", "Sh\U{00EB}rbime", "Tjet\U{00EB}r"]
  const Categories: seq<Category> := [Ushqim, Transport, Argetim, Sherbime, Tjeter]

  /** The option's name as it appears in the JSON. */
  function CurrencyName(c: Currency): (s: string)
    ensures s in CurrencyNames
  {
    match c
    case EUR => CurrencyNames[0]
    case USD => CurrencyNames[1]
    case ALL => CurrencyNames[2]
  }

  function CategoryName(c: Category): (s: string)
    ensures s in CategoryNames
  {
    match c
    case Ushqim => CategoryNames[0]
    case Transport => CategoryNames[1]
    case Argetim => CategoryNames[2]
    case Sherbime => CategoryNames[3]
    case Tjeter => CategoryNames[4]
  }

  /** A line item as the schema outputs it. */
  datatype Item = Item(description: string, quantity: real, unitPrice: Option<real>, total: real)

  /** A receipt as the schema outputs it; `items` is absent when the answer had none. */
  datatype Receipt = Receipt(
    merchantName: string,
    date: string,
    totalAmount: real,
    currency: Currency,
    category: Category,
    items: Option<seq<Item>>,
    confidence: real)

  /** What the item schema demands of its output. */
  predicate ValidItem(it: Item) {
    |it.description| >= 1 && it.quantity >= 0.0
    && (it.unitPrice.Some? ==> it.unitPrice.value >= 0.0)
    && it.total >= 0.0
  }

  /** What the receipt schema demands of its output. */
  predicate ValidReceipt(r: Receipt, isDateTime: string -> bool) {
    |r.merchantName| >= 1 && isDateTime(r.date) && r.totalAmount > 0.0
    && (r.items.Some? ==> forall i :: 0 <= i < |r.items.value| ==> ValidItem(r.items.value[i]))
    && 0.0 <= r.confidence <= 1.0
  }

  const ItemDescriptionMissing := "Item description is required"
  const MerchantNameMissing := "Merchant name is missing"
  const TotalNotPositive := "Total amount must be positive"

  /** `z.number().min(0).optional().default(1)`: absent means one. */
  function Quantity(v: Option<Json>): (c: Checked<real>)
    ensures v.None? ==> c == Success(1.0)
    ensures v.Some? ==> c == Number(v, [NonNegative])
  {
    if v.None? then Success(1.0) else Number(v, [NonNegative])
  }

  /** The item's `description` field. */
  function ItemDescription(v: Option<Json>): (c: Checked<string>)
    ensures c.Success? <==> v.Some? && v.value.JStr? && |v.value.s| >= 1
    ensures c.Success? ==> v == Some(JStr(c.value))
    ensures c.Failure? ==> |c.error| == 1
  {
    Under(Key("description"), NonEmptyText(v, ItemDescriptionMissing))
  }

  /** The item's `quantity` field: absent means one. */
  function ItemQuantity(v: Option<Json>): (c: Checked<real>)
    ensures v.None? ==> c == Success(1.0)
    ensures v.Some? ==> (c.Success? <==> v.value.JNum? && v.value.n >= 0.0)
    ensures v.Some? && c.Success? ==> v == Some(JNum(c.value))
    ensures c.Failure? ==> |c.error| >= 1
  {
    assert [NonNegative][0] == NonNegative;
    Under(Key("quantity"), Quantity(v))
  }

  /** The item's optional `unitPrice` field. */
  function ItemUnitPrice(v: Option<Json>): (c: Checked<Option<real>>)
    ensures v.None? ==> c == Success(None)
    ensures v.Some? ==> (c.Success? <==> v.value.JNum? && v.value.n >= 0.0)
    ensures v.Some? && c.Success? ==> c.value.Some? && v == Some(JNum(c.value.value))
    ensures c.Failure? ==> |c.error| >= 1
  {
    assert [NonNegative][0] == NonNegative;
    Under(Key("unitPrice"), OptionalNumber(v, [NonNegative]))
  }

  /** The item's `total` field. */
  function ItemTotal(v: Option<Json>): (c: Checked<real>)
    ensures c.Success? <==> v.Some? && v.value.JNum? && v.value.n >= 0.0
    ensures c.Success? ==> v == Some(JNum(c.value))
    ensures c.Failure? ==> |c.error| >= 1
  {
    assert [NonNegative][0] == NonNegative;
    Under(Key("total"), Number(v, [NonNegative]))
  }

  /** What the item schema accepts in an object: a non-empty description, a
      total of at least zero, and a quantity and unit price that are absent or
      at least zero. */
  predicate ItemAccepted(f: seq<(string, Json)>) {
    var d, q, u, t := Get(f, "description"), Get(f, "quantity"), Get(f, "unitPrice"), Get(f, "total");
    && d.Some? && d.value.JStr? && |d.value.s| >= 1
    && (q.Some? ==> q.value.JNum? && q.value.n >= 0.0)
    && (u.Some? ==> u.value.JNum? && u.value.n >= 0.0)
    && t.Some? && t.value.JNum? && t.value.n >= 0.0
  }

  /** `it` carries the values the object `f` binds; an absent quantity is one
      and an absent unit price stays absent. */
  predicate ItemFrom(f: seq<(string, Json)>, it: Item) {
    && Get(f, "description") == Some(JStr(it.description))
    && (if Get(f, "quantity").None? then it.quantity == 1.0 else Get(f, "quantity") == Some(JNum(it.quantity)))
    && (if Get(f, "unitPrice").None? then it.unitPrice.None?
        else it.unitPrice.Some? && Get(f, "unitPrice") == Some(JNum(it.unitPrice.value)))
    && Get(f, "total") == Some(JNum(it.total))
  }

  /** `ReceiptItemSchema.safeParse(v)` */
  function ParseItem(v: Json): (c: Checked<Item>)
    ensures c.Success? <==> v.JObj? && ItemAccepted(v.fields)
    ensures c.Success? ==> ValidItem(c.value) && ItemFrom(v.fields, c.value)
    ensures c.Failure? ==> |c.error| >= 1
  {
    match v
    case JObj(f) =>
      var d := ItemDescription(Get(f, "description"));
      var q := ItemQuantity(Get(f, "quantity"));
      var u := ItemUnitPrice(Get(f, "unitPrice"));
      var t := ItemTotal(Get(f, "total"));
      if d.Success? && q.Success? && u.Success? && t.Success? then
        Success(Item(d.value, q.value, u.value, t.value))
      else
        Failure(Issues(d) + Issues(q) + Issues(u) + Issues(t))
    case _ => Fail(WrongType("object", Some(v)))
  }

  /** `z.array(schema)` from index `i` on: every element is checked, and the
      issues of an element carry its index. */
  function Each<T>(elems: seq<Json>, i: nat, check: Json -> Checked<T>): (c: Checked<seq<T>>)
    requires i <= |elems|
    ensures c.Success? ==> |c.value| == |elems| - i
    ensures c.Success? ==> forall k :: 0 <= k < |c.value| ==> check(elems[i + k]) == Success(c.value[k])
    ensures c.Failure? ==> exists k :: i <= k < |elems| && check(elems[k]).Failure? && |c.error| >= |check(elems[k]).error|
    decreases |elems| - i
  {
    if i == |elems| then Success([])
    else
      var head := Under(Index(i), check(elems[i]));
      var rest := Each(elems, i + 1, check);
      if head.Success? && rest.Success? then Success([head.value] + rest.value)
      else Failure(Issues(head) + Issues(rest))
  }

  /** `items` is the list read from `elems`, element by element. */
  predicate ItemsFrom(elems: seq<Json>, items: Option<seq<Item>>) {
    && items.Some? && |items.value| == |elems|
    && forall k :: 0 <= k < |elems| ==> ParseItem(elems[k]) == Success(items.value[k])
  }

  /** `z.array(ReceiptItemSchema).optional()` */
  function ParseItems(v: Option<Json>): (c: Checked<Option<seq<Item>>>)
    ensures v.None? ==> c == Success(None)
    ensures v.Some? ==> (c.Success? <==> v.value.JArr? && forall k :: 0 <= k < |v.value.elems| ==> ParseItem(v.value.elems[k]).Success?)
    ensures v.Some? && c.Success? ==> ItemsFrom(v.value.elems, c.value)
    ensures c.Success? && c.value.Some? ==> forall k :: 0 <= k < |c.value.value| ==> ValidItem(c.value.value[k])
    ensures c.Failure? ==> |c.error| >= 1
  {
    match v
    case None => Success(None)
    case Some(JArr(elems)) =>
      (match Each(elems, 0, ParseItem)
       case Success(items) =>
         assert forall k :: 0 <= k < |items| ==> ParseItem(elems[k]) == Success(items[k]);
         Success(Some(items))
       case Failure(e) => Failure(e))
    case _ => Fail(WrongType("array", v))
  }

  /** `z.enum(['EUR', 'USD', 'ALL']).default('EUR')` */
  function ParseCurrency(v: Option<Json>): (c: Checked<Currency>)
    ensures v.None? ==> c == Success(EUR)
    ensures v.Some? ==> (c.Success? <==> v.value.JStr? && v.value.s in CurrencyNames)
    ensures v.Some? && c.Success? ==> v.value == JStr(CurrencyName(c.value))
    ensures c.Failure? ==> |c.error| == 1
  {
    if v.None? then Success(EUR)
    else match Choice(v, CurrencyNames)
      case Success(k) => Success(Currencies[k])
      case Failure(e) => Failure(e)
  }

  /** `z.enum(['Ushqim', 'Transport', 'Argëtim', 'Shërbime', 'Tjetër'])` */
  function ParseCategory(v: Option<Json>): (c: Checked<Category>)
    ensures c.Success? <==> v.Some? && v.value.JStr? && v.value.s in CategoryNames
    ensures c.Success? ==> v == Some(JStr(CategoryName(c.value)))
    ensures c.Failure? ==> |c.error| == 1
  {
    match Choice(v, CategoryNames)
    case Success(k) => Success(Categories[k])
    case Failure(e) => Failure(e)
  }

  /** The seven field checks of the receipt schema, in declaration order. */
  datatype Fields = Fields(
    merchantName: Checked<string>,
    date: Checked<string>,
    totalAmount: Checked<real>,
    currency: Checked<Currency>,
    category: Checked<Category>,
    items: Checked<Option<seq<Item>>>,
    confidence: Checked<real>)
  {
    predicate AllPass() {
      merchantName.Success? && date.Success? && totalAmount.Success? && currency.Success?
      && category.Success? && items.Success? && confidence.Success?
    }

    /** Every issue, field by field. */
    function AllIssues(): seq<Issue> {
      Issues(merchantName) + Issues(date) + Issues(totalAmount) + Issues(currency)
      + Issues(category) + Issues(items) + Issues(confidence)
    }
  }

  /** The receipt's `merchantName` field. */
  function MerchantName(v: Option<Json>): (c: Checked<string>)
    ensures c.Success? <==> v.Some? && v.value.JStr? && |v.value.s| >= 1
    ensures c.Success? ==> v == Some(JStr(c.value))
    ensures c.Failure? ==> |c.error| == 1
  {
    Under(Key("merchantName"), NonEmptyText(v, MerchantNameMissing))
  }

  /** The receipt's `date` field. */
  function Date(v: Option<Json>, isDateTime: string -> bool): (c: Checked<string>)
    ensures c.Success? <==> v.Some? && v.value.JStr? && isDateTime(v.value.s)
    ensures c.Success? ==> v == Some(JStr(c.value))
    ensures c.Failure? ==> |c.error| == 1
  {
    Under(Key("date"), DateTimeText(v, isDateTime))
  }

  /** The receipt's `totalAmount` field. */
  function TotalAmount(v: Option<Json>): (c: Checked<real>)
    ensures c.Success? <==> v.Some? && v.value.JNum? && v.value.n > 0.0
    ensures c.Success? ==> v == Some(JNum(c.value))
    ensures c.Failure? ==> |c.error| >= 1
  {
    assert [Positive(TotalNotPositive)][0] == Positive(TotalNotPositive);
    Under(Key("totalAmount"), Number(v, [Positive(TotalNotPositive)]))
  }

  /** The receipt's `confidence` field. */
  function Confidence(v: Option<Json>): (c: Checked<real>)
    ensures c.Success? <==> v.Some? && v.value.JNum? && 0.0 <= v.value.n <= 1.0
    ensures c.Success? ==> v == Some(JNum(c.value))
    ensures c.Failure? ==> |c.error| >= 1
  {
    var bounds := [NonNegative, AtMostOne];
    assert bounds[0] == NonNegative && bounds[1] == AtMostOne;
    Under(Key("confidence"), Number(v, bounds))
  }

  /** Checks every field of an object against the receipt schema. */
  function CheckFields(f: seq<(string, Json)>, isDateTime: string -> bool): (c: Fields)
    ensures !c.AllPass() ==> c.AllIssues() != []
  {
    Fields(
      MerchantName(Get(f, "merchantName")),
      Date(Get(f, "date"), isDateTime),
      TotalAmount(Get(f, "totalAmount")),
      Under(Key("currency"), ParseCurrency(Get(f, "currency"))),
      Under(Key("category"), ParseCategory(Get(f, "category"))),
      Under(Key("items"), ParseItems(Get(f, "items"))),
      Confidence(Get(f, "confidence")))
  }

  /** `r` carries the values the object `f` binds: an absent currency is
      euros, absent items stay absent, and present items are read from the
      array element by element. */
  predicate ReceiptFrom(f: seq<(string, Json)>, r: Receipt) {
    && Get(f, "merchantName") == Some(JStr(r.merchantName))
    && Get(f, "date") == Some(JStr(r.date))
    && Get(f, "totalAmount") == Some(JNum(r.totalAmount))
    && (if Get(f, "currency").None? then r.currency == EUR else Get(f, "currency") == Some(JStr(CurrencyName(r.currency))))
    && Get(f, "category") == Some(JStr(CategoryName(r.category)))
    && (match Get(f, "items")
        case None => r.items.None?
        case Some(x) => x.JArr? && ItemsFrom(x.elems, r.items))
    && Get(f, "confidence") == Some(JNum(r.confidence))
  }

  /** `ReceiptSchema.safeParse(v)`: the receipt when every field passes, and
      otherwise every issue found. */
  function ParseReceipt(v: Json, isDateTime: string -> bool): (c: Checked<Receipt>)
    ensures c.Success? ==> v.JObj? && ValidReceipt(c.value, isDateTime) && ReceiptFrom(v.fields, c.value)
    ensures c.Failure? ==> |c.error| >= 1
    ensures v.JObj? ==> (c.Success? <==> CheckFields(v.fields, isDateTime).AllPass())
    ensures v.JObj? && c.Failure? ==> c.error == CheckFields(v.fields, isDateTime).AllIssues()
  {
    match v
    case JObj(f) =>
      var c := CheckFields(f, isDateTime);
      if c.AllPass() then
        Success(Receipt(c.merchantName.value, c.date.value, c.totalAmount.value, c.currency.value,
                        c.category.value, c.items.value, c.confidence.value))
      else
        Failure(c.AllIssues())
    case _ => Fail(WrongType("object", Some(v)))
  }

  // ---------------------------------------------------------------------------
  // Properties
  // ---------------------------------------------------------------------------

  /** A refused receipt reports every offending field, not only the first:
      each issue of each field's check is among the receipt's issues, and
      there are no others. */
  lemma EveryFieldReported(f: seq<(string, Json)>, isDateTime: string -> bool)
    ensures forall i :: i in Issues(CheckFields(f, isDateTime).merchantName) ==> i in Issues(ParseReceipt(JObj(f), isDateTime))
    ensures forall i :: i in Issues(CheckFields(f, isDateTime).date) ==> i in Issues(ParseReceipt(JObj(f), isDateTime))
    ensures forall i :: i in Issues(CheckFields(f, isDateTime).totalAmount) ==> i in Issues(ParseReceipt(JObj(f), isDateTime))
    ensures forall i :: i in Issues(CheckFields(f, isDateTime).currency) ==> i in Issues(ParseReceipt(JObj(f), isDateTime))
    ensures forall i :: i in Issues(CheckFields(f, isDateTime).category) ==> i in Issues(ParseReceipt(JObj(f), isDateTime))
    ensures forall i :: i in Issues(CheckFields(f, isDateTime).items) ==> i in Issues(ParseReceipt(JObj(f), isDateTime))
    ensures forall i :: i in Issues(CheckFields(f, isDateTime).confidence) ==> i in Issues(ParseReceipt(JObj(f), isDateTime))
    ensures forall i :: i in Issues(ParseReceipt(JObj(f), isDateTime)) ==> i in CheckFields(f, isDateTime).AllIssues()
  {
    ParseReceiptIssues(f, isDateTime);
    var c := CheckFields(f, isDateTime);
    var a, b, d, e := Issues(c.merchantName), Issues(c.date), Issues(c.totalAmount), Issues(c.currency);
    var g, h, k := Issues(c.category), Issues(c.items), Issues(c.confidence);
    assert c.AllIssues() == a + b + d + e + g + h + k;
  }

  /** The issues of an object are the field checks' issues, in schema order;
      none when every field passes. */
  lemma ParseReceiptIssues(f: seq<(string, Json)>, isDateTime: string -> bool)
    ensures Issues(ParseReceipt(JObj(f), isDateTime)) == CheckFields(f, isDateTime).AllIssues()
  {
    var c := CheckFields(f, isDateTime);
    if c.AllPass() {
      assert Issues(c.merchantName) == [] && Issues(c.date) == [] && Issues(c.totalAmount) == [];
      assert Issues(c.currency) == [] && Issues(c.category) == [] && Issues(c.items) == [] && Issues(c.confidence) == [];
    }
  }

  /** A receipt with a total of zero or less is refused, and the issues name
      the total with the schema's message. */
  lemma NonPositiveTotalRefused(f: seq<(string, Json)>, x: real, isDateTime: string -> bool)
    requires Get(f, "totalAmount") == Some(JNum(x)) && x <= 0.0
    ensures ParseReceipt(JObj(f), isDateTime).Failure?
    ensures Issue([Key("totalAmount")], TotalNotPositive) in ParseReceipt(JObj(f), isDateTime).error
  {
    TotalRefused(f, x, isDateTime);
    var c := CheckFields(f, isDateTime);
    assert Issue([Key("totalAmount")], TotalNotPositive) in Issues(c.totalAmount);
  }

  /** The total's own check, for a total of zero or less. */
  lemma TotalRefused(f: seq<(string, Json)>, x: real, isDateTime: string -> bool)
    requires Get(f, "totalAmount") == Some(JNum(x)) && x <= 0.0
    ensures CheckFields(f, isDateTime).totalAmount == Failure([Issue([Key("totalAmount")], TotalNotPositive)])
  {
    var bounds := [Positive(TotalNotPositive)];
    assert bounds[1..] == [];
    assert Missed(x, bounds) == [Issue([], TotalNotPositive)] + [];
    assert [Issue([], TotalNotPositive)] + [] == [Issue([], TotalNotPositive)];
    var n := Number(Get(f, "totalAmount"), bounds);
    assert n == Failure([Issue([], TotalNotPositive)]);
    var u := Under(Key("totalAmount"), n);
    assert [Key("totalAmount")] + [] == [Key("totalAmount")];
    assert u.error == [Issue([Key("totalAmount")], TotalNotPositive)];
  }

  /** An answer without a currency is read as euros. */
  lemma CurrencyDefaultsToEuro(f: seq<(string, Json)>, isDateTime: string -> bool)
    requires Get(f, "currency").None?
    requires ParseReceipt(JObj(f), isDateTime).Success?
    ensures ParseReceipt(JObj(f), isDateTime).value.currency == EUR
  {
  }

  /** Keys the schema does not know are stripped: adding one changes nothing. */
  lemma UnknownKeyIgnored(f: seq<(string, Json)>, k: string, x: Json, isDateTime: string -> bool)
    requires k !in {"merchantName", "date", "totalAmount", "currency", "category", "items", "confidence"}
    ensures ParseReceipt(JObj(f + [(k, x)]), isDateTime) == ParseReceipt(JObj(f), isDateTime)
  {
    FieldsIgnoreKey(f, k, x, isDateTime);
  }

  /** Every field reads the same with or without a binding for an unknown key. */
  lemma FieldsIgnoreKey(f: seq<(string, Json)>, k: string, x: Json, isDateTime: string -> bool)
    requires k !in {"merchantName", "date", "totalAmount", "currency", "category", "items", "confidence"}
    ensures CheckFields(f + [(k, x)], isDateTime) == CheckFields(f, isDateTime)
  {
    GetOther(f, k, x, "merchantName");
    GetOther(f, k, x, "date");
    GetOther(f, k, x, "totalAmount");
    GetOther(f, k, x, "currency");
    GetOther(f, k, x, "category");
    GetOther(f, k, x, "items");
    GetOther(f, k, x, "confidence");
  }

  // ---------------------------------------------------------------------------
  // Round trip: a valid receipt written out as JSON is read back unchanged
  // ---------------------------------------------------------------------------

  /** No key is bound twice. */
  predicate UniqueKeys(fields: seq<(string, Json)>) {
    forall a, b :: 0 <= a < b < |fields| ==> fields[a].0 != fields[b].0
  }

  /** With every key bound once, a key reads its one binding. */
  lemma {:induction false} GetUnique(fields: seq<(string, Json)>, i: nat)
    requires i < |fields| && UniqueKeys(fields)
    ensures Get(fields, fields[i].0) == Some(fields[i].1)
    decreases |fields|
  {
    var n := |fields| - 1;
    if i < n {
      assert fields[n].0 != fields[i].0;
      var init := fields[..n];
      assert init[i] == fields[i];
      GetUnique(init, i);
    }
  }

  /** The item as the AI would write it; an absent unit price is left out. */
  function ItemJson(it: Item): Json {
    JObj([("description", JStr(it.description)), ("quantity", JNum(it.quantity))]
      + (if it.unitPrice.Some? then [("unitPrice", JNum(it.unitPrice.value))] else [])
      + [("total", JNum(it.total))])
  }

  /** The receipt as the AI would write it; absent items are left out. */
  function ReceiptJson(r: Receipt): Json {
    JObj([("merchantName", JStr(r.merchantName)), ("date", JStr(r.date)),
          ("totalAmount", JNum(r.totalAmount)), ("currency", JStr(CurrencyName(r.currency))),
          ("category", JStr(CategoryName(r.category)))]
      + (if r.items.Some? then [("items", JArr(ItemsJson(r.items.value)))] else [])
      + [("confidence", JNum(r.confidence))])
  }

  function ItemsJson(items: seq<Item>): (r: seq<Json>)
    ensures |r| == |items|
    ensures forall k :: 0 <= k < |items| ==> r[k] == ItemJson(items[k])
  {
    seq(|items|, k requires 0 <= k < |items| => ItemJson(items[k]))
  }

  /** Different currencies have different names. */
  lemma CurrencyNameInjective(a: Currency, b: Currency)
    requires CurrencyName(a) == CurrencyName(b)
    ensures a == b
  {
  }

  /** Different categories have different names. */
  lemma CategoryNameInjective(a: Category, b: Category)
    requires CategoryName(a) == CategoryName(b)
    ensures a == b
  {
  }

  /** A valid item reads back as itself. */
  lemma ItemRoundTrip(it: Item)
    requires ValidItem(it)
    ensures ParseItem(ItemJson(it)) == Success(it)
  {
    ItemFieldsRead(it);
    ItemFieldsPass(it);
  }

  /** Each field of a valid item passes its check with the item's value. */
  lemma ItemFieldsPass(it: Item)
    requires ValidItem(it)
    ensures ItemDescription(Some(JStr(it.description))) == Success(it.description)
    ensures ItemQuantity(Some(JNum(it.quantity))) == Success(it.quantity)
    ensures ItemUnitPrice(if it.unitPrice.Some? then Some(JNum(it.unitPrice.value)) else None) == Success(it.unitPrice)
    ensures ItemTotal(Some(JNum(it.total))) == Success(it.total)
  {
  }

  /** Each key of the written item reads the value it was written with. */
  lemma ItemFieldsRead(it: Item)
    ensures var f := ItemJson(it).fields;
      Get(f, "description") == Some(JStr(it.description))
      && Get(f, "quantity") == Some(JNum(it.quantity))
      && Get(f, "unitPrice") == (if it.unitPrice.Some? then Some(JNum(it.unitPrice.value)) else None)
      && Get(f, "total") == Some(JNum(it.total))
  {
    var f := ItemJson(it).fields;
    assert UniqueKeys(f);
    GetUnique(f, 0);
    GetUnique(f, 1);
    GetUnique(f, |f| - 1);
    if it.unitPrice.Some? {
      GetUnique(f, 2);
    }
  }

  /** Elements that each pass `check` with the matching value pass, from
      index `i` on, with those values. */
  lemma {:induction false} EachPasses<T>(elems: seq<Json>, values: seq<T>, i: nat, check: Json -> Checked<T>)
    requires |elems| == |values| && i <= |elems|
    requires forall k :: 0 <= k < |elems| ==> check(elems[k]) == Success(values[k])
    ensures Each(elems, i, check) == Success(values[i..])
    decreases |elems| - i
  {
    if i < |elems| {
      EachPasses(elems, values, i + 1, check);
      assert values[i..] == [values[i]] + values[i + 1..];
    } else {
      assert values[i..] == [];
    }
  }

  /** Valid items written out read back as themselves. */
  lemma ItemsRoundTrip(items: seq<Item>)
    requires forall k :: 0 <= k < |items| ==> ValidItem(items[k])
    ensures Each(ItemsJson(items), 0, ParseItem) == Success(items)
  {
    forall k | 0 <= k < |items|
      ensures ParseItem(ItemsJson(items)[k]) == Success(items[k])
    {
      ItemRoundTrip(items[k]);
    }
    EachPasses(ItemsJson(items), items, 0, ParseItem);
    assert items[0..] == items;
  }

  /** Writing a valid receipt out as JSON and validating it gives the receipt
      back: the schema accepts everything it promises and fills nothing in
      that was already there. */
  lemma ReceiptRoundTrip(r: Receipt, isDateTime: string -> bool)
    requires ValidReceipt(r, isDateTime)
    ensures ParseReceipt(ReceiptJson(r), isDateTime) == Success(r)
  {
    ReceiptFieldsPass(r, isDateTime);
  }

  /** Every field check of a written valid receipt passes with the written value. */
  lemma ReceiptFieldsPass(r: Receipt, isDateTime: string -> bool)
    requires ValidReceipt(r, isDateTime)
    ensures CheckFields(ReceiptJson(r).fields, isDateTime)
      == Fields(Success(r.merchantName), Success(r.date), Success(r.totalAmount), Success(r.currency),
                Success(r.category), Success(r.items), Success(r.confidence))
  {
    ReceiptFieldsRead(r);
    ScalarFieldsPass(r, isDateTime);
    ChoiceFieldsPass(r);
    ItemsFieldPasses(r);
  }

  /** The text and number fields of a valid receipt pass with their values. */
  lemma ScalarFieldsPass(r: Receipt, isDateTime: string -> bool)
    requires ValidReceipt(r, isDateTime)
    ensures MerchantName(Some(JStr(r.merchantName))) == Success(r.merchantName)
    ensures Date(Some(JStr(r.date)), isDateTime) == Success(r.date)
    ensures TotalAmount(Some(JNum(r.totalAmount))) == Success(r.totalAmount)
    ensures Confidence(Some(JNum(r.confidence))) == Success(r.confidence)
  {
  }

  /** The currency and category names read back as the options they name. */
  lemma ChoiceFieldsPass(r: Receipt)
    ensures Under(Key("currency"), ParseCurrency(Some(JStr(CurrencyName(r.currency))))) == Success(r.currency)
    ensures Under(Key("category"), ParseCategory(Some(JStr(CategoryName(r.category))))) == Success(r.category)
  {
    var cur := ParseCurrency(Some(JStr(CurrencyName(r.currency))));
    var cat := ParseCategory(Some(JStr(CategoryName(r.category))));
    CurrencyNameInjective(cur.value, r.currency);
    CategoryNameInjective(cat.value, r.category);
  }

  /** The written items of a valid receipt read back as themselves. */
  lemma ItemsFieldPasses(r: Receipt)
    requires r.items.Some? ==> forall i :: 0 <= i < |r.items.value| ==> ValidItem(r.items.value[i])
    ensures ParseItems(if r.items.Some? then Some(JArr(ItemsJson(r.items.value))) else None) == Success(r.items)
  {
    if r.items.Some? {
      ItemsRoundTrip(r.items.value);
    }
  }

  /** The written receipt binds every key once. */
  lemma ReceiptKeysUnique(r: Receipt)
    ensures UniqueKeys(ReceiptJson(r).fields)
  {
  }

  /** Each key of the written receipt reads the value it was written with. */
  lemma ReceiptFieldsRead(r: Receipt)
    ensures var f := ReceiptJson(r).fields;
      Get(f, "merchantName") == Some(JStr(r.merchantName))
      && Get(f, "date") == Some(JStr(r.date))
      && Get(f, "totalAmount") == Some(JNum(r.totalAmount))
      && Get(f, "currency") == Some(JStr(CurrencyName(r.currency)))
      && Get(f, "category") == Some(JStr(CategoryName(r.category)))
      && Get(f, "items") == (if r.items.Some? then Some(JArr(ItemsJson(r.items.value))) else None)
      && Get(f, "confidence") == Some(JNum(r.confidence))
  {
    ReceiptHeadRead(r);
    ReceiptTailRead(r);
  }

  /** The five keys written first read their values. */
  lemma ReceiptHeadRead(r: Receipt)
    ensures var f := ReceiptJson(r).fields;
      Get(f, "merchantName") == Some(JStr(r.merchantName))
      && Get(f, "date") == Some(JStr(r.date))
      && Get(f, "totalAmount") == Some(JNum(r.totalAmount))
      && Get(f, "currency") == Some(JStr(CurrencyName(r.currency)))
      && Get(f, "category") == Some(JStr(CategoryName(r.category)))
  {
    var f := ReceiptJson(r).fields;
    ReceiptKeysUnique(r);
    GetUnique(f, 0);
    GetUnique(f, 1);
    GetUnique(f, 2);
    GetUnique(f, 3);
    GetUnique(f, 4);
  }

  /** The optional items and the confidence, written last, read their values. */
  lemma ReceiptTailRead(r: Receipt)
    ensures var f := ReceiptJson(r).fields;
      Get(f, "items") == (if r.items.Some? then Some(JArr(ItemsJson(r.items.value))) else None)
      && Get(f, "confidence") == Some(JNum(r.confidence))
  {
    var f := ReceiptJson(r).fields;
    ReceiptKeysUnique(r);
    GetUnique(f, |f| - 1);
    if r.items.Some? {
      GetUnique(f, 5);
    }
  }
}

=== FILE: reports.dfy ===
/** The reports screen: expenses by category for the pie chart, the expense
    trend of the last six months, and the income/expense totals. */
module Reports {
  import opened Common
  import opened Text
  import opened Collections
  import opened Ledger
  import Finance

  /** The categories this screen counts as income. */
  const IncomeNames: seq<string> := ["Income", "Paga", "Te Ardhura"]

  /** `!['Income', 'Paga', 'Te Ardhura'].includes(t.category)`: a row
      without a category is an expense. */
  predicate IsExpense(t: Transaction) {
    !Finance.IsIncomeRow(t, IncomeNames)
  }

  /** The expense rows, in order. */
  function Expenses(ts: seq<Transaction>): seq<Transaction> {
    Where(ts, Finance.ExpenseTest(IncomeNames))
  }

  // ---------------------------------------------------------------------------
  // Totals
  // ---------------------------------------------------------------------------

  /** `totalExpense`, `totalIncome` and `netBalance`. */
  function Totals(ts: seq<Transaction>): (r: Finance.Totals)
    ensures r.totalExpense == Total(Expenses(ts))
    ensures r.totalIncome == Total(Where(ts, Finance.IncomeTest(IncomeNames)))
    ensures r.totalIncome + r.totalExpense == Total(ts)
    ensures r.netBalance == r.totalIncome - r.totalExpense
  {
    Finance.CalculateTotals(ts, IncomeNames)
  }

  // ---------------------------------------------------------------------------
  // chartData
  // ---------------------------------------------------------------------------

  /** The key a row is grouped under: its category, or `"null"` (the
      property name a `null` category becomes). */
  function CategoryKey(t: Transaction): string {
    if t.category.Some? then t.category.value else "null"
  }

  /** The keys of the rows, in order. */
  function Keys(ts: seq<Transaction>): (r: seq<string>)
    ensures |r| == |ts|
    ensures forall i :: 0 <= i < |ts| ==> r[i] == CategoryKey(ts[i])
  {
    seq(|ts|, i requires 0 <= i < |ts| => CategoryKey(ts[i]))
  }

  /** The rows grouped under `key`. */
  function KeyTest(key: string): Transaction -> bool {
    t => CategoryKey(t) == key
  }

  /** `byCat[key]`: the amounts of the rows grouped under `key`, summed. */
  function CategoryTotal(ts: seq<Transaction>, key: string): real {
    Total(Where(ts, KeyTest(key)))
  }

  /** The six slice colours. */
  const Palette: seq<string> := ["#EF4444", "#F59E0B", "#10B981", "#3B82F6", "#8B5CF6", "#EC4899"]

  /** `colors[i % colors.length]` */
  function Colour(i: nat): string {
    Palette[i % |Palette|]
  }

  /** One slice of the pie chart. */
  datatype PieSlice = PieSlice(x: string, y: real, color: string)

  function Y(s: PieSlice): real {
    s.y
  }

  /** `Object.keys(byCat).map((key, i) => …)` from position `offset` on,
      with `total` standing for `byCat`. */
  function SlicesFrom(keys: seq<string>, offset: nat, total: string -> real): (r: seq<PieSlice>)
    ensures |r| == |keys|
    decreases |keys|
  {
    if keys == [] then []
    else [PieSlice(keys[0], total(keys[0]), Colour(offset))] + SlicesFrom(keys[1..], offset + 1, total)
  }

  /** The slice at each position is its key's, with that position's colour. */
  lemma {:induction false} SliceAt(keys: seq<string>, offset: nat, total: string -> real, i: nat)
    requires i < |keys|
    ensures SlicesFrom(keys, offset, total)[i] == PieSlice(keys[i], total(keys[i]), Colour(offset + i))
    decreases i
  {
    if i > 0 {
      SliceAt(keys[1..], offset + 1, total, i - 1);
      assert keys[1..][i - 1] == keys[i];
    }
  }

  /** `byCat` for the rows `ex`. */
  function ByCategory(ex: seq<Transaction>): string -> real {
    key => CategoryTotal(ex, key)
  }

  /** The slices before sorting: one per expense category, in order of first
      appearance. */
  function Unsorted(ts: seq<Transaction>): seq<PieSlice> {
    var ex := Expenses(ts);
    SlicesFrom(Distinct(Keys(ex)), 0, ByCategory(ex))
  }

  /** `chartData`: the slices, largest first. */
  function ChartData(ts: seq<Transaction>): (r: seq<PieSlice>)
    ensures SortedDesc(r, Y)
    ensures multiset(r) == multiset(Unsorted(ts))
  {
    SortDesc(Unsorted(ts), Y)
  }

  /** The slice's colour is the palette entry of its key's position among
      the keys in order of first appearance. */
  predicate ColouredByFirstAppearance(keys: seq<string>, s: PieSlice) {
    exists i :: 0 <= i < |keys| && keys[i] == s.x && s.color == Colour(i)
  }

  /** Every slice is an expense category with its total, coloured by where
      the category first appeared. */
  lemma ChartSlices(ts: seq<Transaction>, s: PieSlice)
    requires s in ChartData(ts)
    ensures s.x in Keys(Expenses(ts))
    ensures s.y == CategoryTotal(Expenses(ts), s.x)
    ensures ColouredByFirstAppearance(Distinct(Keys(Expenses(ts))), s)
  {
    var ex := Expenses(ts);
    var keys := Distinct(Keys(ex));
    SortDescMembers(Unsorted(ts), Y, s);
    var i := SlicePosition(keys, ByCategory(ex), s);
    assert keys[i] in Keys(ex);
  }

  /** Where a slice came from: the key at position `i`, its total and the
      colour of position `i`. */
  lemma SlicePosition(keys: seq<string>, total: string -> real, s: PieSlice) returns (i: nat)
    requires s in SlicesFrom(keys, 0, total)
    ensures i < |keys| && keys[i] == s.x && s.y == total(s.x) && s.color == Colour(i)
  {
    var u := SlicesFrom(keys, 0, total);
    i :| 0 <= i < |keys| && u[i] == s;
    SliceAt(keys, 0, total, i);
  }

  /** Every expense category has a slice. */
  lemma ChartCoversCategories(ts: seq<Transaction>, t: Transaction)
    requires t in Expenses(ts)
    ensures exists s :: s in ChartData(ts) && s.x == CategoryKey(t)
  {
    var ex := Expenses(ts);
    var keys := Distinct(Keys(ex));
    var u := Unsorted(ts);
    var k :| 0 <= k < |ex| && ex[k] == t;
    assert Keys(ex)[k] == CategoryKey(t);
    var i :| 0 <= i < |keys| && keys[i] == CategoryKey(t);
    SliceAt(keys, 0, ByCategory(ex), i);
    assert u[i] in multiset(ChartData(ts));
  }

  /** No two slices share a category. */
  lemma ChartCategoriesDistinct(ts: seq<Transaction>)
    ensures forall i, j :: 0 <= i < j < |ChartData(ts)| ==> ChartData(ts)[i].x != ChartData(ts)[j].x
  {
    var ex := Expenses(ts);
    var keys := Distinct(Keys(ex));
    var u := Unsorted(ts);
    var r := ChartData(ts);
    UnsortedDistinct(ex, keys);
    PermutationKeepsDistinct(u, r);
    forall i, j | 0 <= i < j < |r|
      ensures r[i].x != r[j].x
    {
      assert r[i] in multiset(u) && r[j] in multiset(u);
      if r[i].x == r[j].x {
        SameKeySameSlice(u, keys, ex, r[i], r[j]);
      }
    }
  }

  /** The unsorted slices have distinct keys, so no slice repeats. */
  lemma UnsortedDistinct(ex: seq<Transaction>, keys: seq<string>)
    requires NoDuplicates(keys)
    ensures NoDuplicates(SlicesFrom(keys, 0, ByCategory(ex)))
  {
    forall i, j | 0 <= i < j < |keys|
      ensures SlicesFrom(keys, 0, ByCategory(ex))[i] != SlicesFrom(keys, 0, ByCategory(ex))[j]
    {
      SliceAt(keys, 0, ByCategory(ex), i);
      SliceAt(keys, 0, ByCategory(ex), j);
    }
  }

  /** Two unsorted slices with the same key are the same slice. */
  lemma SameKeySameSlice(u: seq<PieSlice>, keys: seq<string>, ex: seq<Transaction>, a: PieSlice, b: PieSlice)
    requires NoDuplicates(keys) && u == SlicesFrom(keys, 0, ByCategory(ex))
    requires a in u && b in u && a.x == b.x
    ensures a == b
  {
    var i :| 0 <= i < |u| && u[i] == a;
    var j :| 0 <= j < |u| && u[j] == b;
    SliceAt(keys, 0, ByCategory(ex), i);
    SliceAt(keys, 0, ByCategory(ex), j);
  }

  /** A rearrangement of a list without repeats has no repeats. */
  lemma PermutationKeepsDistinct<T>(a: seq<T>, b: seq<T>)
    requires NoDuplicates(a) && multiset(a) == multiset(b)
    ensures NoDuplicates(b)
  {
    forall i, j | 0 <= i < j < |b|
      ensures b[i] != b[j]
    {
      if b[i] == b[j] {
        assert b == b[..j] + b[j..];
        assert b[i] in b[..j] && b[j] in b[j..];
        assert multiset(b)[b[i]] >= 2;
        AtMostOnce(a, b[i]);
      }
    }
  }

  /** In a list without repeats, every element occurs at most once. */
  lemma {:induction false} AtMostOnce<T>(a: seq<T>, x: T)
    requires NoDuplicates(a)
    ensures multiset(a)[x] <= 1
    decreases |a|
  {
    if a != [] {
      AtMostOnce(a[1..], x);
      assert a == [a[0]] + a[1..];
      if a[0] == x {
        assert x !in a[1..];
      }
    }
  }

  /** The slices add up to the expense total. */
  lemma ChartSumsToExpense(ts: seq<Transaction>)
    ensures SumBy(ChartData(ts), Y) == Totals(ts).totalExpense
  {
    var ex := Expenses(ts);
    var keys := Distinct(Keys(ex));
    SumBySort(Unsorted(ts), Y);
    SlicesSum(ex, keys, 0);
    CategoriesCoverTotal(ex, keys);
  }

  /** The sum of the category totals over a list of keys. */
  function SumOver(ex: seq<Transaction>, keys: seq<string>): real
    decreases |keys|
  {
    if keys == [] then 0.0 else CategoryTotal(ex, keys[0]) + SumOver(ex, keys[1..])
  }

  lemma {:induction false} SlicesSum(ex: seq<Transaction>, keys: seq<string>, offset: nat)
    ensures SumBy(SlicesFrom(keys, offset, ByCategory(ex)), Y) == SumOver(ex, keys)
    decreases |keys|
  {
    if keys != [] {
      SlicesSum(ex, keys[1..], offset + 1);
      assert SlicesFrom(keys, offset, ByCategory(ex))[1..] == SlicesFrom(keys[1..], offset + 1, ByCategory(ex));
    }
  }

  /** Summing each category's total over a repeat-free list of keys that
      covers every row gives the total of the rows. */
  lemma {:induction false} CategoriesCoverTotal(ex: seq<Transaction>, keys: seq<string>)
    requires NoDuplicates(keys)
    requires forall i :: 0 <= i < |ex| ==> CategoryKey(ex[i]) in keys
    ensures SumOver(ex, keys) == Total(ex)
    decreases |ex|
  {
    if ex == [] {
      SumOverNothing(keys);
    } else {
      assert CategoryKey(ex[0]) in keys;
      assert forall i :: 0 <= i < |ex[1..]| ==> ex[1..][i] == ex[i + 1];
      CategoriesCoverTotal(ex[1..], keys);
      SumOverStep(ex, keys);
      OnlyOneKey(keys, CategoryKey(ex[0]), ex[0].amount);
    }
  }

  lemma {:induction false} SumOverNothing(keys: seq<string>)
    ensures SumOver([], keys) == 0.0
    decreases |keys|
  {
    if keys != [] {
      SumOverNothing(keys[1..]);
    }
  }

  /** What the first row adds to each key's total: its amount, under its own
      key. */
  function Hits(keys: seq<string>, key: string, amount: real): real
    decreases |keys|
  {
    if keys == [] then 0.0 else (if keys[0] == key then amount else 0.0) + Hits(keys[1..], key, amount)
  }

  lemma {:induction false} SumOverStep(ex: seq<Transaction>, keys: seq<string>)
    requires ex != []
    ensures SumOver(ex, keys) == Hits(keys, CategoryKey(ex[0]), ex[0].amount) + SumOver(ex[1..], keys)
    decreases |keys|
  {
    if keys != [] {
      SumOverStep(ex, keys[1..]);
      TotalStep(ex, KeyTest(keys[0]));
    }
  }

  lemma {:induction false} OnlyOneKey(keys: seq<string>, key: string, amount: real)
    requires NoDuplicates(keys)
    ensures Hits(keys, key, amount) == if key in keys then amount else 0.0
    decreases |keys|
  {
    if keys != [] {
      OnlyOneKey(keys[1..], key, amount);
      if keys[0] == key {
        assert key !in keys[1..];
      }
    }
  }

  // ---------------------------------------------------------------------------
  // monthlyTrendData
  // ---------------------------------------------------------------------------

  /** `year.toString()` */
  function YearText(y: int): string {
    if y < 0 then "-" + NatToString(-y) else NatToString(y)
  }

  /** `s.substr(start, length)` for non-negative arguments. */
  function Substr(s: string, start: nat, length: nat): (r: string)
    ensures start + length <= |s| ==> r == s[start..start + length]
    ensures |r| <= length
  {
    Text.Slice(s, start, start + length)
  }

  /** The bucket key `${getMonth() + 1}/${getFullYear().toString().substr(2,2)}`. */
  function MonthKey(m: Month, y: int): string {
    NatToString(m as nat + 1) + "/" + Substr(YearText(y), 2, 2)
  }

  /** The bucket a row falls in; a row whose date does not parse has a key
      ("NaN/N") that no month shares. */
  function RowKey(t: Transaction): Option<string> {
    if t.date.Some? then Some(MonthKey(t.date.value.month, t.date.value.year)) else None
  }

  function MonthTest(key: string): Transaction -> bool {
    t => RowKey(t) == Some(key)
  }

  /** The month `i` months before `m`/`y` (`d.setMonth(d.getMonth() - i)`
      taken as calendar-month arithmetic). */
  function MonthsBefore(m: Month, y: int, i: nat): (r: (Month, int))
    ensures r.1 * 12 + r.0 as int == y * 12 + m as int - i
  {
    var t := y * 12 + m as int - i;
    ((t % 12) as Month, t / 12)
  }

  /** One point of the trend line: its `label` (here `name`) and `value`. */
  datatype Point = Point(name: string, value: real)

  /** The point for the month `i` months back. */
  function TrendPoint(ts: seq<Transaction>, m: Month, y: int, i: nat): Point {
    var month := MonthsBefore(m, y, i);
    var key := MonthKey(month.0, month.1);
    Point(key, Total(Where(Expenses(ts), MonthTest(key))))
  }

  /** `monthlyTrendData`: six points, the month five back first and the
      current month last, each that month's expense total (0 when none). */
  function Trend(ts: seq<Transaction>, m: Month, y: int): (r: seq<Point>)
    ensures |r| == 6
    ensures forall j :: 0 <= j < 6 ==> r[j] == TrendPoint(ts, m, y, 5 - j)
  {
    seq(6, j requires 0 <= j < 6 => TrendPoint(ts, m, y, 5 - j))
  }

  /** The last point is the current month, and each point is the month
      after the one before it. */
  lemma TrendMonths(m: Month, y: int, i: nat)
    ensures MonthsBefore(m, y, 0) == (m, y)
    ensures i > 0 ==> MonthsBefore(m, y, i - 1) == NextMonth(MonthsBefore(m, y, i))
  {
  }

  /** The calendar month after `month`. */
  function NextMonth(month: (Month, int)): (Month, int) {
    if month.0 == 11 then (0, month.1 + 1) else (month.0 + 1, month.1)
  }

  /** A four-digit year. */
  predicate FourDigits(y: int) {
    1000 <= y <= 9999
  }

  /** With four-digit years, a bucket key names a month and the last two
      digits of the year: nothing less, nothing more. */
  lemma MonthKeyInjective(m: Month, y: int, m': Month, y': int)
    requires FourDigits(y) && FourDigits(y')
    ensures MonthKey(m, y) == MonthKey(m', y') <==> m == m' && y % 100 == y' % 100
  {
    YearSuffix(y);
    YearSuffix(y');
    if MonthKey(m, y) == MonthKey(m', y') {
      MonthKeyParts(m, y, m', y');
      DigitsValueNatToString(m as nat + 1);
      DigitsValueNatToString(m' as nat + 1);
      DigitCharInjective((y / 10) % 10, (y' / 10) % 10);
      DigitCharInjective(y % 10, y' % 10);
    }
  }

  /** Equal keys have equal month parts and equal year parts: the month
      part is the text before the only '/'. */
  lemma MonthKeyParts(m: Month, y: int, m': Month, y': int)
    requires MonthKey(m, y) == MonthKey(m', y')
    requires FourDigits(y) && FourDigits(y')
    ensures NatToString(m as nat + 1) == NatToString(m' as nat + 1)
    ensures Substr(YearText(y), 2, 2) == Substr(YearText(y'), 2, 2)
  {
    var a := NatToString(m as nat + 1);
    var a' := NatToString(m' as nat + 1);
    var k := MonthKey(m, y);
    MonthText(m);
    MonthText(m');
    YearSuffix(y);
    YearSuffix(y');
    assert k[|a|] == '/' && k[|a'|] == '/';
    assert |a| == |a'|;
    assert a == k[..|a|] == a';
    assert k[|a| + 1..] == Substr(YearText(y), 2, 2);
  }

  /** A month number is one or two digits. */
  lemma MonthText(m: Month)
    ensures 1 <= |NatToString(m as nat + 1)| <= 2
    ensures '/' !in NatToString(m as nat + 1)
  {
    if m as nat + 1 >= 10 {
      assert NatToString(m as nat + 1) == NatToString((m as nat + 1) / 10) + [('0' as int + (m as nat + 1) % 10) as char];
    }
  }

  /** The two characters after the first two of a four-digit year are its
      tens and units digits. */
  lemma YearSuffix(y: int)
    requires FourDigits(y)
    ensures Substr(YearText(y), 2, 2) == [Finance.DigitChar((y / 10) % 10), Finance.DigitChar(y % 10)]
    ensures y % 100 == 10 * ((y / 10) % 10) + y % 10
  {
    var hundreds := NatToString(y / 100);
    assert |NatToString(y / 100 / 10)| == 1;
    assert |hundreds| == 2;
    assert NatToString(y / 10) == hundreds + [Finance.DigitChar((y / 10) % 10)];
    assert NatToString(y) == NatToString(y / 10) + [Finance.DigitChar(y % 10)];
  }

  lemma DigitCharInjective(a: nat, b: nat)
    requires a < 10 && b < 10
    ensures Finance.DigitChar(a) == Finance.DigitChar(b) <==> a == b
  {
  }

  /** Bucket keys carry only two digits of the year: October 1925 and
      October 2025 share the key "10/25", so a row from a century before
      counts towards the current month's point. */
  lemma CenturiesShareKey()
    ensures MonthKey(9, 1925) == MonthKey(9, 2025)
  {
    MonthKeyInjective(9, 1925, 9, 2025);
  }

  /** With four-digit years, each point totals exactly the expenses dated in
      its month of a year with the same last two digits. */
  lemma TrendPointCounts(ts: seq<Transaction>, m: Month, y: int, i: nat)
    requires forall k :: 0 <= k < |ts| && ts[k].date.Some? ==> FourDigits(ts[k].date.value.year)
    requires FourDigits(MonthsBefore(m, y, i).1)
    ensures TrendPoint(ts, m, y, i).value
      == Total(Where(Expenses(ts), InMonth(MonthsBefore(m, y, i).0, MonthsBefore(m, y, i).1)))
  {
    var month := MonthsBefore(m, y, i);
    var ex := Expenses(ts);
    forall k | 0 <= k < |ex|
      ensures MonthTest(MonthKey(month.0, month.1))(ex[k]) == InMonth(month.0, month.1)(ex[k])
    {
      var t := ex[k];
      assert t in ts;
      if t.date.Some? {
        MonthKeyInjective(t.date.value.month, t.date.value.year, month.0, month.1);
      }
    }
    WhereAgree(ex, MonthTest(MonthKey(month.0, month.1)), InMonth(month.0, month.1));
  }

  /** A row dated in month `m` of a year ending like `y`. */
  function InMonth(m: Month, y: int): Transaction -> bool {
    (t: Transaction) => t.date.Some? && t.date.value.month == m && t.date.value.year % 100 == y % 100
  }
}

=== FILE: text.dfy ===
/** The JavaScript string operations the screens rely on, on `seq<char>`. */
module Text {

  /** Where a `slice` index lands in a string of length `len`: a negative
      index counts from the end, and the result is clamped to `[0, len]`. */
  function SliceIndex(i: int, len: nat): (k: nat)
    ensures k <= len
    ensures 0 <= i <= len ==> k == i
    ensures i < 0 && len + i >= 0 ==> k == len + i
    ensures i > len ==> k == len
  {
    if i < 0 then (if len + i < 0 then 0 else len + i)
    else if i > len then len
    else i
  }

  /** `s.slice(a, b)`: empty when the clamped end does not come after the
      clamped start. */
  function Slice(s: string, a: int, b: int): (r: string)
    ensures 0 <= a <= b <= |s| ==> r == s[a..b]
    ensures SliceIndex(b, |s|) <= SliceIndex(a, |s|) ==> r == []
  {
    var from := SliceIndex(a, |s|);
    var to := SliceIndex(b, |s|);
    if from < to then s[from..to] else []
  }

  /** `s.startsWith(p)` */
  predicate StartsWith(s: string, p: string) {
    |p| <= |s| && s[..|p|] == p
  }

  /** `hay.includes(needle)`: `needle` occurs somewhere in `hay`. */
  predicate Includes(hay: string, needle: string)
    decreases |hay|
  {
    StartsWith(hay, needle) || (|hay| > 0 && Includes(hay[1..], needle))
  }

  /** Every string contains the empty string. */
  lemma IncludesEmpty(hay: string)
    ensures Includes(hay, "")
  {
    assert StartsWith(hay, "");
  }

  /** `includes` finds a needle wherever it sits. */
  lemma {:induction false} IncludesInfix(a: string, n: string, b: string)
    ensures Includes(a + n + b, n)
    decreases |a|
  {
    var h := a + n + b;
    if a == [] {
      assert h[..|n|] == n;
    } else {
      assert h[1..] == a[1..] + n + b;
      IncludesInfix(a[1..], n, b);
    }
  }

  /** `String.prototype.toLowerCase` on the letters that occur in the app's
      (Albanian and English) texts: ASCII A–Z and Latin-1 À–Þ except ×. */
  function LowerChar(c: char): (r: char)
    ensures 'A' <= c <= 'Z' ==> r as int == c as int + 32
    ensures !('A' <= c <= 'Z') && !('\U{00C0}' <= c <= '\U{00DE}') ==> r == c
  {
    if 'A' <= c <= 'Z' then (c as int + 32) as char
    else if '\U{00C0}' <= c <= '\U{00DE}' && c != '\U{00D7}' then (c as int + 32) as char
    else c
  }

  /** `s.toLowerCase()`: character by character, length preserved. */
  function Lower(s: string): (r: string)
    ensures |r| == |s|
    ensures forall i :: 0 <= i < |s| ==> r[i] == LowerChar(s[i])
  {
    seq(|s|, i requires 0 <= i < |s| => LowerChar(s[i]))
  }

  /** Lower-casing twice is lower-casing once. */
  lemma LowerIdempotent(s: string)
    ensures Lower(Lower(s)) == Lower(s)
  {
  }

  /** The characters `String.prototype.trim` removes: ECMAScript WhiteSpace
      (TAB, VT, FF, SP, NBSP, ZWNBSP and the Unicode Zs category) and
      LineTerminator (LF, CR, LS, PS). */
  predicate IsJsSpace(c: char) {
    c == '\t' || c == '\n' || c == '\r' || c == ' '
    || c == '\U{000B}' || c == '\U{000C}' || c == '\U{00A0}' || c == '\U{FEFF}'
    || c == '\U{1680}' || ('\U{2000}' <= c <= '\U{200A}')
    || c == '\U{2028}' || c == '\U{2029}' || c == '\U{202F}' || c == '\U{205F}' || c == '\U{3000}'
  }

  /** Drops leading JavaScript white space. */
  function TrimStart(s: string): (r: string)
    ensures |r| <= |s| && r == s[|s| - |r|..]
    ensures r == [] || !IsJsSpace(r[0])
    ensures forall i :: 0 <= i < |s| - |r| ==> IsJsSpace(s[i])
    decreases |s|
  {
    if s != [] && IsJsSpace(s[0]) then TrimStart(s[1..]) else s
  }

  /** Drops trailing JavaScript white space. */
  function TrimEnd(s: string): (r: string)
    ensures |r| <= |s| && r == s[..|r|]
    ensures r == [] || !IsJsSpace(r[|r| - 1])
    ensures forall i :: |r| <= i < |s| ==> IsJsSpace(s[i])
    decreases |s|
  {
    if s != [] && IsJsSpace(s[|s| - 1]) then TrimEnd(s[..|s| - 1]) else s
  }

  /** `s.trim()` */
  function Trim(s: string): string {
    TrimEnd(TrimStart(s))
  }

  /** `s.trim()` is empty exactly when every character of `s` is white space. */
  lemma TrimEmptyIffBlank(s: string)
    ensures Trim(s) == [] <==> forall i :: 0 <= i < |s| ==> IsJsSpace(s[i])
  {
  }

  /** `s.split(sep)` for a one-character separator: the pieces between the
      separators, always at least one. */
  function Split(s: string, sep: char): (r: seq<string>)
    ensures |r| >= 1
    ensures forall i :: 0 <= i < |r| ==> sep !in r[i]
    decreases |s|
  {
    if s == [] then [[]]
    else
      var rest := Split(s[1..], sep);
      if s[0] == sep then [[]] + rest
      else [[s[0]] + rest[0]] + rest[1..]
  }

  /** The first piece of `s.split(sep)` is everything before the first
      separator, or all of `s` when it has none. */
  lemma {:induction false} SplitFirst(s: string, sep: char)
    ensures StartsWith(s, Split(s, sep)[0])
    ensures |Split(s, sep)[0]| < |s| ==> s[|Split(s, sep)[0]|] == sep
    ensures sep !in s ==> Split(s, sep) == [s]
    decreases |s|
  {
    if s != [] {
      SplitFirst(s[1..], sep);
      var rest := Split(s[1..], sep);
      if s[0] != sep {
        assert Split(s, sep)[0] == [s[0]] + rest[0];
        assert s == [s[0]] + s[1..];
        if sep !in s {
          assert sep !in s[1..];
        }
      }
    }
  }

  /** `pieces.join(sep)` for a one-character separator. */
  function Join(pieces: seq<string>, sep: char): string
    decreases |pieces|
  {
    if pieces == [] then []
    else if |pieces| == 1 then pieces[0]
    else pieces[0] + [sep] + Join(pieces[1..], sep)
  }

  /** Joining is the join of all but the last piece, a separator, then the
      last piece. */
  lemma {:induction false} JoinLast(pieces: seq<string>, sep: char)
    requires |pieces| >= 2
    ensures Join(pieces, sep) == Join(pieces[..|pieces| - 1], sep) + [sep] + pieces[|pieces| - 1]
    decreases |pieces|
  {
    if |pieces| > 2 {
      JoinLast(pieces[1..], sep);
      assert pieces[1..][..|pieces| - 2] == pieces[..|pieces| - 1][1..];
    }
  }

  /** Splitting then joining on the same separator gives the string back. */
  lemma {:induction false} JoinSplit(s: string, sep: char)
    ensures Join(Split(s, sep), sep) == s
    decreases |s|
  {
    if s != [] {
      var rest := Split(s[1..], sep);
      JoinSplit(s[1..], sep);
      if s[0] == sep {
        assert Split(s, sep) == [[]] + rest;
        assert Join([[]] + rest, sep) == [] + [sep] + Join(rest, sep);
        assert s == [s[0]] + s[1..];
      } else {
        var r := Split(s, sep);
        assert r == [[s[0]] + rest[0]] + rest[1..];
        if |rest| == 1 {
          assert Join(r, sep) == [s[0]] + rest[0];
        } else {
          assert Join(rest, sep) == rest[0] + [sep] + Join(rest[1..], sep);
          assert r[1..] == rest[1..];
          assert Join(r, sep) == ([s[0]] + rest[0]) + [sep] + Join(rest[1..], sep);
        }
        assert s == [s[0]] + s[1..];
      }
    }
  }

  /** How many UTF-16 code units JavaScript stores for `c`: a character above
      U+FFFF takes a surrogate pair. */
  function Utf16Units(c: char): (n: nat)
    ensures n == 1 <==> c as int <= 0xFFFF
    ensures n == 1 || n == 2
  {
    if c as int > 0xFFFF then 2 else 1
  }

  /** `s.length`, which counts UTF-16 code units, not characters. */
  function Utf16Length(s: string): (n: nat)
    ensures |s| <= n <= 2 * |s|
    ensures n == |s| <==> forall i :: 0 <= i < |s| ==> s[i] as int <= 0xFFFF
    decreases |s|
  {
    if s == [] then 0 else Utf16Units(s[0]) + Utf16Length(s[1..])
  }

  /** The code units of two strings joined are those of each. */
  lemma {:induction false} Utf16LengthAppend(a: string, b: string)
    ensures Utf16Length(a + b) == Utf16Length(a) + Utf16Length(b)
    decreases |a|
  {
    if a != [] {
      assert (a + b)[0] == a[0];
      assert (a + b)[1..] == a[1..] + b;
      Utf16LengthAppend(a[1..], b);
    } else {
      assert a + b == b;
    }
  }

  /** `c` is a decimal digit. */
  predicate IsDigit(c: char) {
    '0' <= c <= '9'
  }

  /** The digit string of a natural number, most significant digit first, no
      leading zero (`String(n)` for a non-negative integer). */
  function NatToString(n: nat): (r: string)
    ensures |r| >= 1
    ensures forall i :: 0 <= i < |r| ==> IsDigit(r[i])
    ensures |r| > 1 ==> r[0] != '0'
    ensures n < 10 <==> |r| == 1
    decreases n
  {
    if n < 10 then [('0' as int + n) as char]
    else NatToString(n / 10) + [('0' as int + n % 10) as char]
  }

  /** The value of a decimal digit string. */
  function DigitsValue(d: string): nat
    requires forall i :: 0 <= i < |d| ==> IsDigit(d[i])
    decreases |d|
  {
    if d == [] then 0
    else
      assert IsDigit(d[|d| - 1]);
      10 * DigitsValue(d[..|d| - 1]) + (d[|d| - 1] as int - '0' as int)
  }

  /** Reading back the rendered digits gives the number. */
  lemma {:induction false} DigitsValueNatToString(n: nat)
    ensures DigitsValue(NatToString(n)) == n
    decreases n
  {
    if n >= 10 {
      var r := NatToString(n);
      DigitsValueNatToString(n / 10);
      assert r[..|r| - 1] == NatToString(n / 10);
    }
  }
}
